=== FILE: README.md ===
# statbelmail core in Dafny

This project models the computational core of statbelmail. statbelmail turns Statbel's building-permit statistics for Belgian regions into HTML reports. The model has four parts.

- **Dutch period normalisation** (`src/date_utils.py`):
  - a month label (full name or abbreviation, any case, surrounding whitespace) becomes a month number;
  - a (year, month) pair becomes a date, a `YYYY-MM` month key, a `YYYY-QN` quarter key and display strings;
  - rows are filtered by year bounds and raw month labels;
  - a table gets the four standard period columns.
- **Building-permit aggregation** (`src/building_permits_report.py`):
  - the per-row derived metrics (houses, flats, all dwellings) and the province list;
  - the quarterly series, the per-quarter lines by year and the year × quarter pivot table with its `Totaal` column;
  - the monthly series with its own strict month map, and the 12-month trailing mean with `min_periods=1`;
  - a region's report: its statistics, its charts' data, its table and the name of the file it is saved under.
- **Report naming and number formatting** (`src/template_manager.py`):
  - the index page's file names and display names;
  - the `number_format` filter.
- **The generic HTML report** (`src/html_report.py`):
  - `add_section`;
  - the sheet summary table.

Tables are immutable sequences of records. A pandas frame with named columns is `Tables.Table`: a column list and one `map<string, Cell>` per row. The building-permit data is a sequence of typed `PermitRow` records. Sums are integers and means are exact `real`s. Every failure the source raises is a `Results.Error` value; a pandas `apply` stops at its first failing row, which is what `Results.MapResult` models.

Modules follow the source:

| module | file | what it models |
|---|---|---|
| `PeriodKeys` | period_keys.dfy | month vocabulary, month/quarter keys, `get_quarter_from_month` |
| `DateUtils` | date_utils.dfy | the table-level functions of `date_utils.py` |
| `Permits` | permits.dfy | loading and derived metrics, provinces, report file name |
| `Quarterly` | quarterly.dfy | quarterly chart, yearly-quarters chart, quarter table |
| `Monthly` | monthly.dfy | the monthly series behind the rolling chart |
| `Rolling` | rolling.dfy | the 12-month rolling mean and the rolling chart |
| `RegionReport` | region_report.dfy | `create_region_report` |
| `TemplateManager` | template_manager.dfy | index names and `number_format` |
| `HtmlReport` | html_report.dfy | `add_section`, `create_data_summary_table` |
| `Results`, `Strings`, `Seqs`, `Grouping`, `Tables` | results.dfy, strings.dfy, seqs.dfy, grouping.dfy, tables.dfy | shared vocabulary: results, string functions, filtering and sums, generic group-by with conservation |

## Model

| member | source | states |
|---|---|---|
| PeriodKeys.MonthToNumber | src/date_utils.py:47-68 | Succeeds exactly when the value is a string whose lower-cased, stripped text is a key of the month vocabulary, and then gives that key's month, which lies in 1..12. A missing or non-string value gives `InvalidMonth`; an unknown string gives `UnknownMonth` carrying the text. |
| PeriodKeys.MonthIgnoresCase | src/date_utils.py:63 | Upper-casing a label changes neither whether it parses nor the month it gives. |
| PeriodKeys.MonthIgnoresWhitespace | src/date_utils.py:63 | Whitespace before and after a label changes neither whether it parses nor the month it gives. |
| PeriodKeys.MonthExamples | src/date_utils.py:52-61 | "januari" and "Jan" give 1; a missing value is rejected as invalid. |
| PeriodKeys.UpperJanuari | src/date_utils.py:63-66 | " JANUARI " gives 1. |
| PeriodKeys.RejectedLabels | src/date_utils.py:65-68 | "Smarch" and "Maa" are rejected as unknown month names. |
| PeriodKeys.Abbreviations | src/date_utils.py:15-28 | The first three letters of every full month name parse back to that month, except for Maart ("Maa" is not in the vocabulary; its abbreviation is "mrt"). |
| PeriodKeys.MonthNameRoundTrip | src/date_utils.py:15-35 | For every n in 1..12 the capitalised name of month n parses back to n. |
| PeriodKeys.ExtractYearMonth | src/date_utils.py:161-166 | Splitting a date into year and Dutch month name keeps the year, and the name is the capitalised Dutch name of the date's month, which parses back to that month. |
| PeriodKeys.QuarterOf | src/date_utils.py:209 | The quarter (m-1) div 3 + 1 lies in 1..4 and is the one whose three months contain m. |
| PeriodKeys.MonthKey | src/date_utils.py:203-205 | The month key is the year's decimal text, "-", and the month as two digits, so its last two characters read back as the month. |
| PeriodKeys.QuarterKey | src/date_utils.py:207-210 | The quarter key is the year's text, "-Q" and the quarter digit. |
| PeriodKeys.QuarterOfLabel | src/date_utils.py:255-267 | `get_quarter_from_month` succeeds exactly when the label parses, fails with the parser's error otherwise, and gives "Q" followed by the quarter digit. |
| PeriodKeys.QuarterKeySuffix | src/date_utils.py:207-210 | The "QN" part of a quarter key is what `get_quarter_from_month` gives for the same label. |
| PeriodKeys.KeysAgree | src/date_utils.py:203-210 | Month key and quarter key of one row start with the same year text; the month key's last two characters read back as the month, and the quarter key's digit is that month's quarter. |
| PeriodKeys.MonthKeyOrder | src/date_utils.py:203-205 | For four-digit years, string order of month keys is chronological order, and two keys are equal exactly when year and month are. |
| PeriodKeys.QuarterKeyOrder | src/date_utils.py:207-210 | For four-digit years, string order of quarter keys is order by (year, quarter). |
| PeriodKeys.MonthKeyExample | src/date_utils.py:189-205 | The labels "Januari", "Februari" and "Maart" of 2023 parse and give the month keys "2023-01", "2023-02" and "2023-03". |
| PeriodKeys.QuarterKeyExamples | src/date_utils.py:207-210 | The labels "Januari", "Februari" and "Maart" of 2023 all give "2023-Q1"; "April" gives "2023-Q2". |
| DateUtils.DateOf | src/date_utils.py:107-109 | A "year-month-day" text parses exactly when the year text is a plain decimal numeral, the triple is a calendar date, and the date lies in pandas' timestamp range; the error carries the rejected text. |
| DateUtils.MonthNumbers | src/date_utils.py:104 | Converting a label column succeeds exactly when every label parses; the result holds each row's month; a failure reports the first failing row's error. |
| DateUtils.RowDates | src/date_utils.py:107-109 | Building a date per row succeeds exactly when every row's date text parses, and then holds each row's date; a failure names the date text of the first row whose date is rejected. |
| DateUtils.CreateDates | src/date_utils.py:71-111 | Error order: missing year column, then missing month column, then the first unparsable label, then an invalid date. Once both columns exist and every label parses, the result is `RowDates` of the year column and the month numbers: it succeeds exactly when every row's date text parses, and otherwise names the first rejected row's text. On success each row's date is (its year, its month number, the day). |
| DateUtils.AddDateColumn | src/date_utils.py:114-134 | Fails exactly when `create_date_from_columns` fails, with its error. Otherwise the table keeps its rows and columns, gains the date column, and each row gets its own date. |
| DateUtils.DateRoundTrip | src/date_utils.py:137-170 | For an integer year, the date built from a row splits back into the row's year and a month name that parses to the row's month. |
| DateUtils.CreatePeriodColumn | src/date_utils.py:173-213 | An unknown period type raises. "year" gives each row's year text. "month" and "quarter" fail on a missing month column, an unparsable label or a missing year column, in that order, and otherwise give each row's month or quarter key. |
| DateUtils.PeriodColumnOfYear | src/date_utils.py:200-210 | For a table whose year cells are all the same integer, "month" and "quarter" give, row by row, the month or quarter key of that year and the row's month. |
| DateUtils.PeriodColumnExample | src/date_utils.py:189-205 | The table with year 2023 and labels Januari, Februari, Maart gives the period column "2023-01", "2023-02", "2023-03". |
| DateUtils.QuarterColumnExample | src/date_utils.py:207-210 | The same table gives the quarter column "2023-Q1" in all three rows. |
| DateUtils.PeriodKeysOfRow | src/date_utils.py:203-210 | For an integer year the `periode` cell is `MonthKey(year, month)`, the `kwartaal` cell is `QuarterKey(year, month)`, and the latter ends in `get_quarter_from_month` of the label. |
| DateUtils.PeriodAndQuarterAgree | src/date_utils.py:329-330 | Within a row, `periode` and `kwartaal` share the year text, and the month of `periode` lies in the quarter of `kwartaal`. |
| DateUtils.YearFilter | src/date_utils.py:242-246 | A year bound fails on a missing year column or a year cell that cannot be compared with a number; otherwise it keeps, in order, exactly the rows meeting the bound. |
| DateUtils.LabelFilter | src/date_utils.py:248-250 | The month filter fails only on a missing month column and keeps, in order, exactly the rows whose raw label is listed, case-sensitively. |
| DateUtils.FilterByPeriod | src/date_utils.py:216-252 | Fails exactly when a given year bound meets a missing or incomparable year column, or a month list meets a missing month column, with the error of the first step that fails; the result keeps the columns. |
| DateUtils.FilterSelects | src/date_utils.py:240-252 | The filtered rows are the order-preserving subsequence of rows meeting every supplied criterion. |
| DateUtils.FilterNothing | src/date_utils.py:240-252 | With no criteria the table comes back unchanged. |
| DateUtils.SampleFilter | src/date_utils.py:342-359 | On the module's demonstration table, "from 2024, April and Mei" keeps exactly the last two rows. |
| DateUtils.ShortLabel | src/date_utils.py:292 | A string label is cut to its first three characters (or fewer when shorter); any other value is unchanged. |
| DateUtils.FormatPeriodForDisplay | src/date_utils.py:270-299 | An unknown format raises. "compact" is the month-key column. "full" and "short" fail, in this order, on a missing month column, a label that cannot be concatenated, or a missing year column, each with its own error; otherwise they give label (or its first three characters) + " " + year text, and a missing label stays missing. |
| DateUtils.ShortNameReadsBack | src/date_utils.py:290-293 | The three-letter display of a month name parses back to the month for every month except Maart. |
| DateUtils.Standardize | src/date_utils.py:303-333 | On success the table keeps its rows and every input column, and has the four derived columns. |
| DateUtils.StandardizeSucceeds | src/date_utils.py:323-333 | When the year and month columns are not derived columns, standardising fails exactly when building the dates fails, with the same error. |
| DateUtils.StandardizeAttaches | src/date_utils.py:323-333 | A successful standardisation attaches the date, month-key, quarter-key and full-display columns computed from the input table. |
| DateUtils.StandardizedRow | src/date_utils.py:323-333 | For an integer year, a standardised row keeps every input cell outside the derived columns and its `kwartaal` cell is the quarter key of its year and month label. |
| DateUtils.AttachRows | src/date_utils.py:323-333 | Each output row keeps every input cell outside the derived columns unchanged and holds its own four derived values. |
| DateUtils.ReadsOnlyYearAndLabel | src/date_utils.py:326-331 | The period functions read only the year and month columns, so adding `datum` and `periode` first does not change `periode`, `kwartaal` or the display. |
| Permits.DeriveAll | src/building_permits_report.py:45-50 | Every prepared row has houses = single-family count, all dwellings = `aantal woningen`, and flats = `aantal woningen` minus single-family count, with no clamping; so houses + flats = all. |
| Permits.Prepare | src/building_permits_report.py:34-50 | Loading succeeds exactly when every row's month label parses and its date is valid. An unparsable label gives the first such label's error. An invalid date names the date text of the first row whose date is rejected. Otherwise each prepared row derives from its raw row, with the standardised quarter key. |
| Permits.DatesAccepted | src/building_permits_report.py:42 | The dates of the loaded rows are valid exactly when every row is acceptable; a failure names the date text of the first rejected row. |
| Permits.RawTable | src/building_permits_report.py:39 | The loaded CSV as a table: well-formed, with the five CSV columns, one row per record holding that record's cells. |
| Permits.PrepareIsStandardize | src/building_permits_report.py:39-42 | Loading succeeds exactly when `standardize_date_columns` on the CSV table succeeds; then row by row the prepared region, year, month label and quarter key equal the cells of the standardised table, the quarter key being its `kwartaal` cell. |
| Permits.Provinces | src/building_permits_report.py:55-64 | The provinces are the distinct region names starting with "PROVINCIE", in ascending order, without duplicates, and every such name present in the data is listed. |
| Permits.ReportFileName | src/building_permits_report.py:498 | The report file is the region name with every space and slash replaced by "_", then "_rapport.html"; it contains neither a space nor a slash. |
| Permits.ReportFileNameExample | src/building_permits_report.py:498 | "A/B C" is saved as "A_B_C_rapport.html". |
| Quarterly.QuarterlySeries | src/building_permits_report.py:75-89 | One point per distinct quarter key among the rows from 2015 on, in ascending key order. Every such key appears, and no other. Each point holds that quarter's sums of houses, flats and all dwellings over those rows. |
| Quarterly.QuarterlyConservation | src/building_permits_report.py:79-86 | Summing each metric over the quarterly points gives its sum over the rows from 2015 on. |
| Quarterly.QuarterDigit | src/building_permits_report.py:173 | The regex `Q(\d)` finds a match exactly when some "Q" is followed by a digit, and yields the digit after the first such "Q". |
| Quarterly.QuarterDigitOfKey | src/building_permits_report.py:173 | For a quarter key the extracted digit is the quarter of the key's month. |
| Quarterly.YearQuarterGroups | src/building_permits_report.py:164-170 | One group per distinct (year, quarter key) among the rows from 2015 on, in ascending order; every such pair appears and no other; each group holds its sum of all dwellings. |
| Quarterly.NoClash | src/building_permits_report.py:384-388 | For prepared rows, no two groups fall into the same (year, quarter) cell of the pivot, because a quarter key embeds its year. |
| Quarterly.Pivot | src/building_permits_report.py:383-399 | The pivot fails exactly when two groups meet in one cell. Otherwise there is one row per year present, in ascending order, with no other years. A cell holds its group's sum, an empty cell holds 0, and `Totaal` = Q1 + Q2 + Q3 + Q4. |
| Quarterly.QuarterTableOfPrepared | src/building_permits_report.py:369-406 | For prepared rows the table always exists. Its rows are the years from 2015 on present in the data, ascending. Each quarter cell is that year's quarter sum over the rows, and `Totaal` is the year's sum over the rows. |
| Quarterly.QuarterLines | src/building_permits_report.py:186-199 | One line per quarter 1..4 that has groups, in quarter order; each line holds exactly the groups of its quarter; no quarter with groups is missing. |
| Quarterly.LineOfPrepared | src/building_permits_report.py:187-194 | For prepared rows, a quarter's line is in strictly ascending year, and each point is that year's quarter sum over the rows. |
| Monthly.StrictIsNarrower | src/building_permits_report.py:255-264 | The chart's local month map is stricter than the month vocabulary: "januari" and "Jan" parse but are not in it. |
| Monthly.MonthGroups | src/building_permits_report.py:244-264 | One group per (year, month) among the rows from 2015 on whose label is one of the twelve capitalised names, sorted by (year, month). Every such month appears and no other; gaps are not filled. Each group holds that month's three sums. |
| Monthly.MonthlyConservation | src/building_permits_report.py:248-252 | The monthly sums of each metric add up to its sum over the rows kept for the series. |
| Monthly.MonthlySeries | src/building_permits_report.py:241-271 | Building the month dates fails exactly when some kept month lies outside pandas' timestamp range, reporting such a month. Otherwise the series is `MonthGroups`, strictly increasing in date. |
| Monthly.MonthlyOfPrepared | src/building_permits_report.py:266-270 | Once the data has loaded, the monthly series never fails. |
| Rolling.RollingMean | src/building_permits_report.py:274-276 | One mean per value. While fewer than w values have been seen, position i holds the mean of positions 0..i, as `min_periods=1` allows. From position w - 1 on, it holds the mean of the last w values ending at i. |
| Rolling.RollingWarmUp | src/building_permits_report.py:274 | Before the window fills, position i holds the mean of positions 0..i, so the first point equals its own value. |
| Rolling.RollingFull | src/building_permits_report.py:274 | Once the window fills, position i holds the mean of the last w values ending at i. |
| Rolling.TwelfthIsFirstYearMean | src/building_permits_report.py:274 | Position 11 of the 12-month mean is the mean of the first twelve values. |
| Rolling.RollingBounds | src/building_permits_report.py:274-276 | Every rolling mean lies between the smallest and the largest possible value of the series. |
| Rolling.RollingCausal | src/building_permits_report.py:274-276 | A rolling mean depends only on values at or before its position: appending values leaves the earlier means unchanged. |
| Rolling.RollingAdd | src/building_permits_report.py:274-276 | The rolling mean of a pointwise sum is the sum of the rolling means. |
| Rolling.RunningMeans | src/building_permits_report.py:273-276 | A single pass with a running window sum (add the new value, drop the one leaving the window) computes exactly the rolling mean. |
| Rolling.RollingAverages | src/building_permits_report.py:241-276 | The chart fails exactly when the monthly series does, with its error. Otherwise it has one strictly increasing date per observed month, every trace's length equals the series length, and each trace is the 12-month trailing mean of its monthly sums. |
| Rolling.TracesAdd | src/building_permits_report.py:274-276 | For prepared rows, the rolling houses plus the rolling flats equal the rolling total at every point. |
| Rolling.ChartStartsAtFirstMonth | src/building_permits_report.py:271-276 | The chart's first point is the first observed month, with its own three sums as values. |
| RegionReport.RegionRows | src/building_permits_report.py:428-431 | The region's rows are exactly the rows whose `regio` equals the name. |
| RegionReport.DateRange | src/building_permits_report.py:476 | "first - last" year among the region's rows from 2015 on, with "nan - nan" when there are none. |
| RegionReport.RegionTotalOfRows | src/building_permits_report.py:472-475 | A statistic is the metric summed over the region's rows from 2015 on. |
| RegionReport.SummaryStats | src/building_permits_report.py:471-484 | Each of the three statistics is its metric summed over the rows from 2015 on, and equals the sum of the quarterly chart's bars for that metric; the date range is `DateRange` of the rows. |
| RegionReport.MakeReport | src/building_permits_report.py:422-498 | No report exactly when the region has no rows. A report fails exactly when the monthly series or the table fails, with the monthly series' error when it fails and the table's error otherwise. Otherwise the report carries the region, its saved file name, totals equal to both the region's sums from 2015 on and the sums of the quarterly chart's bars, and the date range. Its quarterly chart, quarter lines, rolling chart and table are those built from the region's rows. |
| RegionReport.ReportTotals | src/building_permits_report.py:471-475 | The three totals are the region's sums from 2015 on and also the sums of the quarterly chart's points. |
| RegionReport.PermitsAreHousesPlusFlats | src/building_permits_report.py:472-475 | For prepared rows, total permits = total houses + total flats. |
| RegionReport.ReportTableCells | src/building_permits_report.py:428-469 | For prepared rows, each cell of the received report's quarterly table is the total of the region's rows for that year and quarter, and each year's total is the region's total for that year. |
| RegionReport.ReportOfPrepared | src/building_permits_report.py:428-435 | For prepared rows whose months lie in the timestamp range, the report never fails, and exists exactly when the region has rows. |
| RegionReport.ReportOfLoaded | src/building_permits_report.py:422-469 | Once the data has loaded, every region's report is produced without error. |
| TemplateManager.IndexFileName | src/template_manager.py:126 | The index link is the name with every space and slash replaced by "_", followed by "_rapport.html". |
| TemplateManager.IndexLinksToReport | src/template_manager.py:126-135 | The file an index entry links to is the file `create_region_report` saves the report under, and it contains no space and no slash. |
| TemplateManager.DisplayNameStrips | src/template_manager.py:127 | "PROVINCIE " + rest is displayed as rest when rest does not itself contain "PROVINCIE "; a name without it is displayed unchanged. |
| TemplateManager.DisplayNameExample | src/template_manager.py:127 | "PROVINCIE ANTWERPEN" is displayed as "ANTWERPEN". |
| TemplateManager.IndexEntries | src/template_manager.py:124-139 | One entry per province and one per region, in input order. Each entry links to its report file. A province shows its name without "PROVINCIE "; a region shows its full name. |
| TemplateManager.GroupDigitsShape | src/template_manager.py:44 | Grouped digits have one comma per full group of three beyond the first digit, exactly at the positions a multiple of four from the end; every other character is a digit, and the first is a digit. |
| TemplateManager.GroupDigitsRoundTrip | src/template_manager.py:44 | Taking the commas out of grouped digits gives the digits back. |
| TemplateManager.FormatThousandsRoundTrip | src/template_manager.py:44 | Removing the separators from a formatted integer gives its decimal text, which parses back to the integer. |
| TemplateManager.FormatOneThousand | src/template_manager.py:44 | -1000 is formatted "-1,000". |
| TemplateManager.FormatThreeDigits | src/template_manager.py:44 | 999 is formatted "999" without a separator. |
| TemplateManager.NumberFormat | src/template_manager.py:41-45 | An integer becomes text that starts with "-" exactly when the integer is negative; after the sign comes a digit, and the digits are grouped in threes from the right with a comma between groups and nowhere else; removing the commas reads back as the integer. Any other value is returned unchanged. |
| HtmlReport.AddSection | src/html_report.py:32-45 | Exactly one section is appended with the given title and content and the given charts, or no charts when none are given. The report's title and earlier sections are unchanged. |
| HtmlReport.AddAllAppends | src/html_report.py:32-45 | After a series of calls the report holds its earlier sections followed by one section per call, in call order. |
| HtmlReport.ShownColumns | src/html_report.py:100 | At most five labels are shown, as a prefix of the list, and all are shown exactly when there are at most five. |
| HtmlReport.ColumnNames | src/html_report.py:100-102 | Fails with a type error exactly when one of the first five labels is not a string, as `str.join` does. Otherwise, up to five labels: the labels joined by ", ". More than five: the first five joined, then " ... (+k more)" with k the number of the rest. |
| HtmlReport.NumericHeader | src/html_report.py:100 | A numeric header such as the year 2023 among the first five labels makes the cell fail; in sixth place it does not. |
| HtmlReport.ColumnNamesIgnoresHidden | src/html_report.py:100-102 | The cell, or its failure, depends only on the first five labels and the number of columns. |
| HtmlReport.HiddenCountReadsBack | src/html_report.py:101-102 | The count inside the suffix reads back as the number of labels left out. |
| HtmlReport.SheetRow | src/html_report.py:99-104 | A sheet's row fails exactly when its column-names cell fails. |
| HtmlReport.SheetRows | src/html_report.py:98-104 | One row per sheet in the order given; each row holds the sheet's name, its two shape components and its column-names cell. |
| HtmlReport.CreateDataSummaryTable | src/html_report.py:87-107 | Fails with a type error exactly when some sheet has a non-string among its first five labels. Otherwise the table is the header row, then one row per sheet in input order, then "</table>". |
| HtmlReport.TableFrame | src/html_report.py:96-106 | The table starts with the header row and ends with "</table>". |
| HtmlReport.SingleSheetTable | src/html_report.py:96-106 | The table of one sheet is the header, that sheet's row and the end tag. |

## Left out

- File input and output: `pd.read_csv`, `pd.read_excel`, saving reports, creating directories and copying CSS. Reading and writing files is outside a pure model; the loaded CSV is a sequence of `RawRow` records.
- Plotly figure construction and `pio.to_html`, and Jinja rendering of the templates. These are chart-library and template glue. The model keeps the data each chart plots and what the templates receive.
- The HTML text of the quarterly table (`create_yearly_quarterly_table`, the markup and `{value:,}` around the pivot). This is presentation; the model stops at the pivot rows in display order.
- `datetime.now()` timestamps in the templates, because they are non-deterministic.
- `generate_all_reports`, `create_index_file`, `main()`, the command-line scripts and `print` logging. These are orchestration around the modelled operations.
- `src/excel_analyzer.py` is not part of this model. The sheet summary takes its per-sheet name, shape and column labels as given; a label is a string or a number, as pandas reads headers.
- `get_regions` is the constant `Permits.Regions`, and has no property to state.
- pandas dtype inference. Cells are typed (`Null`, `Int`, `Str`, a date). A year column's `astype(str)` is the decimal text of an integer, the text itself, or "nan". Comparing a text year with a number fails with `TypeMismatch`.
- Floating point. Means are exact rationals; pandas uses IEEE doubles.
- TemplateManager.NumberFormat: formats integers only. Python formats through a float, so magnitudes beyond 2^53 are rounded there and not here. The float and bool cases of `_number_format` are not modelled. `Int` stands for a Python `int`: a numpy integer, such as the result of a pandas `.sum()`, is not an `int` instance, and the source returns it unchanged; the model does not tell the two apart.
- Python's `str.lower` is modelled on ASCII letters and `\d` on ASCII digits. Unicode case mapping and Unicode digits are left out.
- The timestamp range 1677-09-22 to 2262-04-11 is modelled as an explicit bound on dates. Nanosecond precision at the ends is not modelled.
- Monthly.MonthGroups: groups by (year, month number) rather than by (year, label) as pandas does. The two agree because the local month map is one-to-one (`Monthly.SameMonthRows`), so this is a change of key, not a weaker promise.
- Monthly.MonthlySeries: on failure it names *some* month outside the timestamp range. Which one pandas reports first depends on its parser internals.
- Groups whose quarter key has no `Q<digit>` (a missing quarter number in pandas) cannot arise from loaded rows (`Quarterly.QuarterOfConsistent`). The pivot model drops them instead of creating a NaN column.
- Sort stability and the order of equal keys do not arise, because every grouped key is distinct.
- Rolling.RollingMean: takes the window w >= 1 as a parameter; the source always uses 12 (`Rolling.Window`).
- DateUtils.FilterByPeriod: an incomparable year cell is any non-integer, non-missing cell. pandas would compare some floats, which are not modelled.

=== FILE: date_utils.dfy ===
/** The table-level period utilities: a date column built from a year column
    and a Dutch month-label column, period-key columns, row filtering by
    period, display strings, and the standardisation that adds all of them.
    Every operation returns a new table or column; a missing column or a
    cell the operation cannot handle is an error value. */
module DateUtils {
  import opened Results
  import opened Strings
  import opened Seqs
  import opened Tables
  import opened PeriodKeys

  /** The first and last calendar days a nanosecond pandas timestamp can hold. */
  const FirstTimestampDay := Date(1677, 9, 22)
  const LastTimestampDay := Date(2262, 4, 11)

  predicate InTimestampRange(d: Date)
  {
    !DateBefore(d, FirstTimestampDay) && !DateBefore(LastTimestampDay, d)
  }

  /** A decimal numeral without sign and without a leading zero. */
  predicate CanonicalNumeral(s: string)
  {
    |s| > 0 && AllDigits(s) && (s[0] != '0' || |s| == 1)
  }

  /** The text handed to the date parser: `year + "-" + month + "-" + day`. */
  function DateInput(yearText: string, m: int, day: int): string
  {
    yearText + "-" + IntToString(m) + "-" + IntToString(day)
  }

  /** The date parser on one `year-month-day` text: the year must be a
      numeral and the triple a calendar day inside the timestamp range. */
  function DateOf(yearText: string, m: int, day: int): (r: Result<Cell>)
    ensures r.Ok? <==> CanonicalNumeral(yearText) && ValidDate(ParseNat(yearText), m, day)
                       && InTimestampRange(Date(ParseNat(yearText), m, day))
    ensures r.Ok? ==> r.value.When? && r.value.date == Date(ParseNat(yearText), m, day)
    ensures r.Err? ==> r.error == InvalidDate(DateInput(yearText, m, day))
  {
    if CanonicalNumeral(yearText) then
      var d := Date(ParseNat(yearText), m, day);
      if ValidDate(d.year, m, day) && InTimestampRange(d) then Ok(When(d))
      else Err(InvalidDate(DateInput(yearText, m, day)))
    else
      Err(InvalidDate(DateInput(yearText, m, day)))
  }

  /** An integer year cell yields the date with that very year. */
  lemma {:induction false} DateOfYear(y: int, m: int, day: int)
    requires ValidDate(y, m, day) && InTimestampRange(Date(y, m, day))
    ensures DateOf(IntToString(y), m, day) == Ok(When(Date(y, m, day)))
  {
    ParseNatToString(y);
  }

  /** The month labels of a column as numbers, or the first label's error. */
  function MonthNumbers(labels: seq<Cell>): (r: Result<seq<int>>)
    ensures r.Ok? <==> forall i :: 0 <= i < |labels| ==> MonthToNumber(labels[i]).Ok?
    ensures r.Ok? ==> |r.value| == |labels|
    ensures r.Ok? ==> forall i :: 0 <= i < |labels| ==> 1 <= r.value[i] <= 12 && MonthToNumber(labels[i]) == Ok(r.value[i])
    ensures r.Err? ==> exists i :: FirstFailure(labels, MonthToNumber, i) && r.error == MonthToNumber(labels[i]).error
  {
    MapResult(labels, MonthToNumber)
  }

  /** Row `i` holds the first date text the parser rejects: every earlier
      row's date parses. */
  predicate FirstBadDate(years: seq<Cell>, months: seq<int>, day: int, i: int)
    requires |years| == |months|
  {
    && 0 <= i < |years|
    && DateOf(CellText(years[i]), months[i], day).Err?
    && forall j :: 0 <= j < i ==> DateOf(CellText(years[j]), months[j], day).Ok?
  }

  /** The year cell and month number of every row, side by side. */
  function Pairs(years: seq<Cell>, months: seq<int>): (ps: seq<(Cell, int)>)
    requires |years| == |months|
    ensures |ps| == |years| && forall i :: 0 <= i < |years| ==> ps[i] == (years[i], months[i])
  {
    seq(|years|, i requires 0 <= i < |years| => (years[i], months[i]))
  }

  /** The date parser applied to one (year, month) pair. */
  function DateOfPair(day: int): ((Cell, int)) -> Result<Cell>
  {
    (p: (Cell, int)) => DateOf(CellText(p.0), p.1, day)
  }

  /** The date of every row, given the year cells and the parsed month
      numbers; like `pd.to_datetime`, a failure reports the first row whose
      date text is rejected. */
  function RowDates(years: seq<Cell>, months: seq<int>, day: int): (r: Result<seq<Cell>>)
    requires |years| == |months|
    ensures r.Ok? <==> forall i :: 0 <= i < |years| ==> DateOf(CellText(years[i]), months[i], day).Ok?
    ensures r.Ok? ==> |r.value| == |years|
    ensures r.Ok? ==> forall i :: 0 <= i < |years| ==> r.value[i] == DateOf(CellText(years[i]), months[i], day).value
    ensures r.Err? ==> exists i :: FirstBadDate(years, months, day, i)
                                  && r.error == InvalidDate(DateInput(CellText(years[i]), months[i], day))
  {
    RowDatesFail(years, months, day);
    MapResult(Pairs(years, months), DateOfPair(day))
  }

  /** The first failing pair is the first row with a rejected date. */
  lemma {:induction false} RowDatesFail(years: seq<Cell>, months: seq<int>, day: int)
    requires |years| == |months|
    ensures var r := MapResult(Pairs(years, months), DateOfPair(day));
            r.Err? ==> exists i :: FirstBadDate(years, months, day, i)
                                   && r.error == InvalidDate(DateInput(CellText(years[i]), months[i], day))
  {
    var ps := Pairs(years, months);
    var r := MapResult(ps, DateOfPair(day));
    if r.Err? {
      var i :| FirstFailure(ps, DateOfPair(day), i) && r.error == DateOfPair(day)(ps[i]).error;
      assert forall j :: 0 <= j < i ==> DateOfPair(day)(ps[j]) == DateOf(CellText(years[j]), months[j], day);
      assert FirstBadDate(years, months, day, i);
    }
  }

  /** `create_date_from_columns`: a missing year column, then a missing month
      column, then the first bad month label, then the first text the date
      parser rejects; otherwise one timestamp per row. */
  function CreateDates(t: Table, yearCol: string, monthCol: string, day: int): (r: Result<seq<Cell>>)
    requires WellFormed(t)
    ensures yearCol !in t.columns ==> r == Err(MissingColumn(yearCol))
    ensures yearCol in t.columns && monthCol !in t.columns ==> r == Err(MissingColumn(monthCol))
    ensures yearCol in t.columns && monthCol in t.columns && MonthNumbers(Column(t, monthCol).value).Err?
            ==> r == Err(MonthNumbers(Column(t, monthCol).value).error)
    ensures r.Ok? ==> yearCol in t.columns && monthCol in t.columns && |r.value| == |t.rows|
    ensures r.Ok? ==> forall i :: 0 <= i < |t.rows| ==>
              && MonthToNumber(t.rows[i][monthCol]).Ok?
              && r.value[i].When?
              && CanonicalNumeral(CellText(t.rows[i][yearCol]))
              && r.value[i].date == Date(ParseNat(CellText(t.rows[i][yearCol])), MonthToNumber(t.rows[i][monthCol]).value, day)
              && ValidDate(r.value[i].date.year, r.value[i].date.month, day)
              && InTimestampRange(r.value[i].date)
    ensures r.Err? && yearCol in t.columns && monthCol in t.columns && MonthNumbers(Column(t, monthCol).value).Ok?
            ==> r.error.InvalidDate?
    ensures yearCol in t.columns && monthCol in t.columns && MonthNumbers(Column(t, monthCol).value).Ok?
            ==> r == RowDates(Column(t, yearCol).value, MonthNumbers(Column(t, monthCol).value).value, day)
  {
    if yearCol !in t.columns then Err(MissingColumn(yearCol))
    else if monthCol !in t.columns then Err(MissingColumn(monthCol))
    else
      var years := Column(t, yearCol).value;
      match MonthNumbers(Column(t, monthCol).value)
      case Err(e) => Err(e)
      case Ok(months) =>
        assert forall i :: 0 <= i < |t.rows| ==>
          years[i] == t.rows[i][yearCol] && months[i] == MonthToNumber(t.rows[i][monthCol]).value;
        RowDates(years, months, day)
  }

  /** `add_date_column`: the table with the dates stored under `dateCol`. */
  function AddDateColumn(t: Table, yearCol: string, monthCol: string, dateCol: string, day: int): (r: Result<Table>)
    requires WellFormed(t)
    ensures r.Ok? <==> CreateDates(t, yearCol, monthCol, day).Ok?
    ensures r.Err? ==> r.error == CreateDates(t, yearCol, monthCol, day).error
    ensures r.Ok? ==> WellFormed(r.value) && |r.value.rows| == |t.rows|
    ensures r.Ok? ==> dateCol in r.value.columns && forall c :: c in t.columns ==> c in r.value.columns
    ensures r.Ok? ==> forall i :: 0 <= i < |t.rows| ==>
              r.value.rows[i] == t.rows[i][dateCol := CreateDates(t, yearCol, monthCol, day).value[i]]
  {
    var dates :- CreateDates(t, yearCol, monthCol, day);
    Ok(AddColumn(t, dateCol, dates))
  }

  /** The date made for a row carries the row's year and month, and the
      month name `extract_year_month_from_date` writes for it parses back to
      the same month as the row's own label. */
  lemma {:induction false} DateRoundTrip(t: Table, yearCol: string, monthCol: string, day: int, i: int)
    requires WellFormed(t) && CreateDates(t, yearCol, monthCol, day).Ok? && 0 <= i < |t.rows|
    requires t.rows[i][yearCol].Int?
    ensures var d := CreateDates(t, yearCol, monthCol, day).value[i].date;
      && d == Date(t.rows[i][yearCol].i, MonthToNumber(t.rows[i][monthCol]).value, day)
      && ExtractYearMonth(d).0 == t.rows[i][yearCol].i
      && MonthToNumber(Str(ExtractYearMonth(d).1)) == MonthToNumber(t.rows[i][monthCol])
  {
    ParseNatToString(t.rows[i][yearCol].i);
  }

  /** The three keys `create_period_column` knows. */
  predicate KnownPeriodType(periodType: string)
  {
    periodType == "year" || periodType == "month" || periodType == "quarter"
  }

  /** The key of one row for a month or quarter period. */
  function PeriodKeyOf(periodType: string, yearText: string, m: int): string
    requires 1 <= m <= 12
  {
    if periodType == "month" then MonthKeyOf(yearText, m) else QuarterKeyOf(yearText, m)
  }

  /** `create_period_column`: the year's text for "year"; for "month" and
      "quarter", the labels are parsed before the year column is read and the
      key is built from the year's text and the month number. */
  function CreatePeriodColumn(t: Table, yearCol: string, monthCol: string, periodType: string): (r: Result<seq<Cell>>)
    requires WellFormed(t)
    ensures r.Ok? ==> |r.value| == |t.rows|
    ensures !KnownPeriodType(periodType) ==> r == Err(UnknownPeriodType(periodType))
    ensures periodType == "year" ==> (r.Ok? <==> yearCol in t.columns)
    ensures periodType == "year" && r.Ok? ==>
              && |r.value| == |t.rows|
              && forall i :: 0 <= i < |t.rows| ==> r.value[i] == Str(CellText(t.rows[i][yearCol]))
    ensures (periodType == "month" || periodType == "quarter") ==>
              && (monthCol !in t.columns ==> r == Err(MissingColumn(monthCol)))
              && (monthCol in t.columns && MonthNumbers(Column(t, monthCol).value).Err?
                  ==> r == Err(MonthNumbers(Column(t, monthCol).value).error))
              && (monthCol in t.columns && MonthNumbers(Column(t, monthCol).value).Ok? && yearCol !in t.columns
                  ==> r == Err(MissingColumn(yearCol)))
              && (r.Ok? <==> monthCol in t.columns && yearCol in t.columns && MonthNumbers(Column(t, monthCol).value).Ok?)
    ensures (periodType == "month" || periodType == "quarter") && r.Ok? ==>
              && |r.value| == |t.rows|
              && forall i :: 0 <= i < |t.rows| ==>
                   && MonthToNumber(t.rows[i][monthCol]).Ok?
                   && r.value[i] == Str(PeriodKeyOf(periodType, CellText(t.rows[i][yearCol]), MonthToNumber(t.rows[i][monthCol]).value))
  {
    if periodType == "year" then
      var years :- Column(t, yearCol);
      Ok(seq(|years|, i requires 0 <= i < |years| => Str(CellText(years[i]))))
    else if periodType == "month" || periodType == "quarter" then
      var labels :- Column(t, monthCol);
      var months :- MonthNumbers(labels);
      var years :- Column(t, yearCol);
      Ok(seq(|years|, i requires 0 <= i < |years| => Str(PeriodKeyOf(periodType, CellText(years[i]), months[i]))))
    else
      Err(UnknownPeriodType(periodType))
  }

  /** For an integer year the period cells are the canonical keys: the month
      key ends in the two digits of the month, the quarter key in the label
      `get_quarter_from_month` gives, and both start with the same year. */
  lemma {:induction false} PeriodKeysOfRow(t: Table, yearCol: string, monthCol: string, i: int)
    requires WellFormed(t) && CreatePeriodColumn(t, yearCol, monthCol, "month").Ok? && 0 <= i < |t.rows|
    requires t.rows[i][yearCol].Int?
    ensures var y, lab := t.rows[i][yearCol].i, t.rows[i][monthCol];
      && MonthToNumber(lab).Ok?
      && CreatePeriodColumn(t, yearCol, monthCol, "month").value[i] == Str(MonthKey(y, MonthToNumber(lab).value))
      && CreatePeriodColumn(t, yearCol, monthCol, "quarter").value[i] == Str(QuarterKey(y, MonthToNumber(lab).value))
      && QuarterKey(y, MonthToNumber(lab).value) == IntToString(y) + "-" + QuarterOfLabel(lab).value
  {
    var lab := t.rows[i][monthCol];
    ZFillTwo(MonthToNumber(lab).value);
    QuarterKeySuffix(t.rows[i][yearCol].i, lab);
  }

  /** The month keys (`monthly`) or quarter keys of the year `y` and the
      months `ms`, as cells. */
  function KeyCells(monthly: bool, y: int, ms: seq<int>): (keys: seq<Cell>)
    requires forall i :: 0 <= i < |ms| ==> 1 <= ms[i] <= 12
    ensures |keys| == |ms|
    ensures forall i :: 0 <= i < |ms| ==> keys[i] == Str(if monthly then MonthKey(y, ms[i]) else QuarterKey(y, ms[i]))
  {
    seq(|ms|, i requires 0 <= i < |ms| => Str(if monthly then MonthKey(y, ms[i]) else QuarterKey(y, ms[i])))
  }

  /** In a table whose year cells all hold the integer `y`, the period
      column holds the key of `y` and each row's parsed month. */
  lemma {:induction false} PeriodColumnOfYear(t: Table, periodType: string, y: int, ms: seq<int>)
    requires WellFormed(t) && "jaar" in t.columns && "maand" in t.columns
    requires periodType == "month" || periodType == "quarter"
    requires MonthNumbers(Column(t, "maand").value) == Ok(ms)
    requires forall i :: 0 <= i < |t.rows| ==> t.rows[i]["jaar"] == Int(y)
    ensures |ms| == |t.rows| && forall i :: 0 <= i < |ms| ==> 1 <= ms[i] <= 12
    ensures CreatePeriodColumn(t, "jaar", "maand", periodType) == Ok(KeyCells(periodType == "month", y, ms))
  {
    var r := CreatePeriodColumn(t, "jaar", "maand", periodType);
    var keys := KeyCells(periodType == "month", y, ms);
    forall i | 0 <= i < |t.rows|
      ensures r.value[i] == keys[i]
    {
      PeriodCellOfYear(t, periodType, y, ms, i);
    }
    assert r.value == keys;
  }

  lemma {:induction false} PeriodCellOfYear(t: Table, periodType: string, y: int, ms: seq<int>, i: int)
    requires WellFormed(t) && "jaar" in t.columns && "maand" in t.columns
    requires periodType == "month" || periodType == "quarter"
    requires MonthNumbers(Column(t, "maand").value) == Ok(ms)
    requires 0 <= i < |t.rows| && t.rows[i]["jaar"] == Int(y)
    ensures |ms| == |t.rows| && 1 <= ms[i] <= 12
    ensures CreatePeriodColumn(t, "jaar", "maand", periodType).Ok?
    ensures CreatePeriodColumn(t, "jaar", "maand", periodType).value[i]
            == Str(if periodType == "month" then MonthKey(y, ms[i]) else QuarterKey(y, ms[i]))
  {
    assert Column(t, "maand").value[i] == t.rows[i]["maand"];
    PeriodKeysOfRow(t, "jaar", "maand", i);
  }

  /** The three-row table of the `create_period_column` example: Januari,
      Februari and Maart of 2023. */
  function SpringTable(): Table
  {
    Table(["jaar", "maand"],
          [map["jaar" := Int(2023), "maand" := Str("Januari")],
           map["jaar" := Int(2023), "maand" := Str("Februari")],
           map["jaar" := Int(2023), "maand" := Str("Maart")]])
  }

  lemma {:induction false} SpringWellFormed()
    ensures WellFormed(SpringTable())
  {
    var t := SpringTable();
    forall i | 0 <= i < |t.rows|
      ensures t.rows[i].Keys == set c | c in t.columns
    {
      assert t.rows[i].Keys == {"jaar", "maand"};
    }
  }

  lemma {:induction false} SpringYears()
    ensures forall i :: 0 <= i < |SpringTable().rows| ==> SpringTable().rows[i]["jaar"] == Int(2023)
  {
    var t := SpringTable();
    forall i | 0 <= i < |t.rows|
      ensures t.rows[i]["jaar"] == Int(2023)
    {
      assert i == 0 || i == 1 || i == 2;
    }
  }

  /** The example's labels parse to the months 1, 2 and 3. */
  lemma {:induction false} SpringMonths()
    ensures WellFormed(SpringTable())
    ensures Column(SpringTable(), "maand") == Ok([Str("Januari"), Str("Februari"), Str("Maart")])
    ensures MonthNumbers(Column(SpringTable(), "maand").value) == Ok([1, 2, 3])
  {
    SpringWellFormed();
    var labels := Column(SpringTable(), "maand").value;
    assert labels == [Str("Januari"), Str("Februari"), Str("Maart")];
    SpringLabels(labels);
  }

  lemma {:induction false} SpringLabels(labels: seq<Cell>)
    requires labels == [Str("Januari"), Str("Februari"), Str("Maart")]
    ensures MonthNumbers(labels) == Ok([1, 2, 3])
  {
    JanuariParses();
    FebruariParses();
    MaartParses();
    FirstQuarterNumbers(labels[0], labels[1], labels[2]);
    assert labels == [labels[0], labels[1], labels[2]];
  }

  lemma {:induction false} FirstQuarterNumbers(a: Cell, b: Cell, c: Cell)
    requires MonthToNumber(a) == Ok(1) && MonthToNumber(b) == Ok(2) && MonthToNumber(c) == Ok(3)
    ensures MonthNumbers([a, b, c]) == Ok([1, 2, 3])
  {
    var r := MonthNumbers([a, b, c]);
    assert r.Ok?;
    assert r.value == [r.value[0], r.value[1], r.value[2]];
  }

  /** The example of `create_period_column`: the months get the keys
      2023-01, 2023-02 and 2023-03. */
  lemma {:induction false} PeriodColumnExample()
    ensures WellFormed(SpringTable())
    ensures CreatePeriodColumn(SpringTable(), "jaar", "maand", "month") == Ok([Str("2023-01"), Str("2023-02"), Str("2023-03")])
  {
    SpringMonths();
    SpringYears();
    PeriodColumnOfYear(SpringTable(), "month", 2023, [1, 2, 3]);
    MonthCellsExample();
  }

  /** In the same example all three months fall in quarter 2023-Q1. */
  lemma {:induction false} QuarterColumnExample()
    ensures WellFormed(SpringTable())
    ensures CreatePeriodColumn(SpringTable(), "jaar", "maand", "quarter") == Ok([Str("2023-Q1"), Str("2023-Q1"), Str("2023-Q1")])
  {
    SpringMonths();
    SpringYears();
    PeriodColumnOfYear(SpringTable(), "quarter", 2023, [1, 2, 3]);
    QuarterCellsExample();
  }

  lemma {:induction false} MonthCellsExample()
    ensures KeyCells(true, 2023, [1, 2, 3]) == [Str("2023-01"), Str("2023-02"), Str("2023-03")]
  {
    var keys := KeyCells(true, 2023, [1, 2, 3]);
    ThreeCells(keys, MonthKey(2023, 1), MonthKey(2023, 2), MonthKey(2023, 3));
    MonthKeys2023();
  }

  lemma {:induction false} ThreeCells(keys: seq<Cell>, a: string, b: string, c: string)
    requires |keys| == 3 && keys[0] == Str(a) && keys[1] == Str(b) && keys[2] == Str(c)
    ensures keys == [Str(a), Str(b), Str(c)]
  {
  }

  lemma {:induction false} QuarterCellsExample()
    ensures KeyCells(false, 2023, [1, 2, 3]) == [Str("2023-Q1"), Str("2023-Q1"), Str("2023-Q1")]
  {
    var keys := KeyCells(false, 2023, [1, 2, 3]);
    ThreeCells(keys, QuarterKey(2023, 1), QuarterKey(2023, 2), QuarterKey(2023, 3));
    QuarterKeys2023();
  }

  /** Within a row the month key and the quarter key share their year text,
      and the month read back from the month key lies in the key's quarter. */
  lemma {:induction false} PeriodAndQuarterAgree(t: Table, yearCol: string, monthCol: string, i: int)
    requires WellFormed(t) && CreatePeriodColumn(t, yearCol, monthCol, "month").Ok? && 0 <= i < |t.rows|
    ensures var p := CellText(t.rows[i][yearCol]);
      var mk := CreatePeriodColumn(t, yearCol, monthCol, "month").value[i].s;
      var qk := CreatePeriodColumn(t, yearCol, monthCol, "quarter").value[i].s;
      && |mk| == |p| + 3 && |qk| == |p| + 3
      && mk[..|p|] == p && qk[..|p|] == p
      && AllDigits(mk[|p| + 1..]) && IsDigit(qk[|p| + 2])
      && ParseNat(mk[|p| + 1..]) == MonthToNumber(t.rows[i][monthCol]).value
      && DigitValue(qk[|p| + 2]) == QuarterOf(MonthToNumber(t.rows[i][monthCol]).value)
  {
    KeysAgree(CellText(t.rows[i][yearCol]), MonthToNumber(t.rows[i][monthCol]).value);
  }

  /** A row passes `filter_by_period` when it meets every criterion given:
      an integer year at or after the start, at or before the end, and a
      label that is exactly one of the listed strings. */
  predicate InPeriod(row: Row, yearCol: string, monthCol: string,
                     startYear: Option<int>, endYear: Option<int>, months: Option<seq<string>>)
  {
    && (startYear.Some? ==> yearCol in row && row[yearCol].Int? && row[yearCol].i >= startYear.value)
    && (endYear.Some? ==> yearCol in row && row[yearCol].Int? && row[yearCol].i <= endYear.value)
    && (months.Some? ==> monthCol in row && row[monthCol].Str? && row[monthCol].s in months.value)
  }

  /** A year cell can be compared with an integer: a number, or a missing
      value (which compares false). Strings and timestamps raise. */
  predicate Comparable(c: Cell)
  {
    c.Int? || c.Null?
  }

  /** One side of the year range: `year >= y` or `year <= y`. */
  datatype Bound = AtLeast(y: int) | AtMost(y: int)

  /** The row's year is a number on the right side of the bound; a missing
      year compares false. */
  predicate Meets(row: Row, yearCol: string, b: Bound)
  {
    && yearCol in row && row[yearCol].Int?
    && (if b.AtLeast? then row[yearCol].i >= b.y else row[yearCol].i <= b.y)
  }

  /** The row's label is a string equal to one of `months`. */
  predicate LabelListed(row: Row, monthCol: string, months: seq<string>)
  {
    monthCol in row && row[monthCol].Str? && row[monthCol].s in months
  }

  lemma {:induction false} KeptRowsWellFormed(t: Table, p: Row -> bool)
    requires WellFormed(t)
    ensures WellFormed(Table(t.columns, Keep(t.rows, p)))
  {
    var rows := Keep(t.rows, p);
    forall i | 0 <= i < |rows|
      ensures rows[i].Keys == set c | c in t.columns
    {
      assert rows[i] in t.rows;
    }
  }

  /** One year-bound step: comparing the year column with the bound raises
      when a year is a string or a timestamp; otherwise the rows that meet
      the bound remain, in order. */
  function YearFilter(t: Table, yearCol: string, b: Bound): (r: Result<Table>)
    requires WellFormed(t)
    ensures yearCol !in t.columns ==> r == Err(MissingColumn(yearCol))
    ensures r.Ok? <==> yearCol in t.columns && forall i :: 0 <= i < |t.rows| ==> Comparable(t.rows[i][yearCol])
    ensures r.Err? && yearCol in t.columns ==> r.error == TypeMismatch
    ensures r.Ok? ==> r.value.columns == t.columns && WellFormed(r.value)
    ensures r.Ok? ==> r.value.rows == Keep(t.rows, (row: Row) => Meets(row, yearCol, b))
  {
    if yearCol !in t.columns then Err(MissingColumn(yearCol))
    else if exists i :: 0 <= i < |t.rows| && !Comparable(t.rows[i][yearCol]) then Err(TypeMismatch)
    else
      KeptRowsWellFormed(t, (row: Row) => Meets(row, yearCol, b));
      Ok(Table(t.columns, Keep(t.rows, (row: Row) => Meets(row, yearCol, b))))
  }

  /** The month-list step: the rows whose label is listed, in order. */
  function LabelFilter(t: Table, monthCol: string, months: seq<string>): (r: Result<Table>)
    requires WellFormed(t)
    ensures r.Ok? <==> monthCol in t.columns
    ensures r.Err? ==> r.error == MissingColumn(monthCol)
    ensures r.Ok? ==> r.value.columns == t.columns && WellFormed(r.value)
    ensures r.Ok? ==> r.value.rows == Keep(t.rows, (row: Row) => LabelListed(row, monthCol, months))
  {
    if monthCol !in t.columns then Err(MissingColumn(monthCol))
    else
      KeptRowsWellFormed(t, (row: Row) => LabelListed(row, monthCol, months));
      Ok(Table(t.columns, Keep(t.rows, (row: Row) => LabelListed(row, monthCol, months))))
  }

  /** `filter_by_period`: the start bound, then the end bound, then the
      month list, each applied only when given. */
  function FilterByPeriod(t: Table, yearCol: string, monthCol: string,
                          startYear: Option<int>, endYear: Option<int>, months: Option<seq<string>>): (r: Result<Table>)
    requires WellFormed(t)
    ensures (startYear.Some? || endYear.Some?) && yearCol !in t.columns ==> r == Err(MissingColumn(yearCol))
    ensures ((startYear.Some? || endYear.Some?) && yearCol in t.columns
             && exists i :: 0 <= i < |t.rows| && !Comparable(t.rows[i][yearCol])) ==> r == Err(TypeMismatch)
    ensures months.Some? && monthCol !in t.columns
            && ((startYear.Some? || endYear.Some?) ==>
                  yearCol in t.columns && forall i :: 0 <= i < |t.rows| ==> Comparable(t.rows[i][yearCol]))
            ==> r == Err(MissingColumn(monthCol))
    ensures r.Ok? <==> && ((startYear.Some? || endYear.Some?) ==>
                            yearCol in t.columns && forall i :: 0 <= i < |t.rows| ==> Comparable(t.rows[i][yearCol]))
                       && (months.Some? ==> monthCol in t.columns)
    ensures r.Ok? ==> r.value.columns == t.columns && WellFormed(r.value)
  {
    var t1 :- BoundStep(t, yearCol, StartBound(startYear));
    assert forall i :: 0 <= i < |t1.rows| ==> t1.rows[i] in t.rows;
    var t2 :- BoundStep(t1, yearCol, EndBound(endYear));
    if months.Some? then LabelFilter(t2, monthCol, months.value) else Ok(t2)
  }

  /** One optional year bound as a row test: true when the bound is absent. */
  predicate WithinBound(row: Row, yearCol: string, b: Option<Bound>)
  {
    b.None? || Meets(row, yearCol, b.value)
  }

  /** One optional month list as a row test: true when the list is absent. */
  predicate Chosen(row: Row, monthCol: string, months: Option<seq<string>>)
  {
    months.None? || LabelListed(row, monthCol, months.value)
  }

  function BoundStep(t: Table, yearCol: string, b: Option<Bound>): Result<Table>
    requires WellFormed(t)
  {
    if b.Some? then YearFilter(t, yearCol, b.value) else Ok(t)
  }

  lemma {:induction false} BoundStepRows(t: Table, yearCol: string, b: Option<Bound>)
    requires WellFormed(t) && BoundStep(t, yearCol, b).Ok?
    ensures BoundStep(t, yearCol, b).value.rows == Keep(t.rows, (row: Row) => WithinBound(row, yearCol, b))
  {
    if b.Some? {
      KeepSame(t.rows, (row: Row) => Meets(row, yearCol, b.value), (row: Row) => WithinBound(row, yearCol, b));
    } else {
      KeepAll(t.rows, (row: Row) => WithinBound(row, yearCol, b));
    }
  }

  lemma {:induction false} MonthStepRows(t: Table, monthCol: string, months: Option<seq<string>>)
    requires WellFormed(t) && (months.Some? ==> LabelFilter(t, monthCol, months.value).Ok?)
    ensures (if months.Some? then LabelFilter(t, monthCol, months.value).value else t).rows
         == Keep(t.rows, (row: Row) => Chosen(row, monthCol, months))
  {
    if months.Some? {
      KeepSame(t.rows, (row: Row) => LabelListed(row, monthCol, months.value), (row: Row) => Chosen(row, monthCol, months));
    } else {
      KeepAll(t.rows, (row: Row) => Chosen(row, monthCol, months));
    }
  }

  function StartBound(startYear: Option<int>): Option<Bound>
  {
    if startYear.Some? then Some(AtLeast(startYear.value)) else None
  }

  function EndBound(endYear: Option<int>): Option<Bound>
  {
    if endYear.Some? then Some(AtMost(endYear.value)) else None
  }

  lemma {:induction false} InPeriodSteps(row: Row, yearCol: string, monthCol: string,
                      startYear: Option<int>, endYear: Option<int>, months: Option<seq<string>>)
    ensures InPeriod(row, yearCol, monthCol, startYear, endYear, months)
        == (WithinBound(row, yearCol, StartBound(startYear)) && WithinBound(row, yearCol, EndBound(endYear))
            && Chosen(row, monthCol, months))
  {
  }

  /** The three row tests applied one after the other select the same rows
      as the combined test. */
  lemma {:induction false} StepsCompose(rows: seq<Row>, yearCol: string, monthCol: string,
                     startYear: Option<int>, endYear: Option<int>, months: Option<seq<string>>)
    ensures Keep(Keep(Keep(rows, (row: Row) => WithinBound(row, yearCol, StartBound(startYear))),
                      (row: Row) => WithinBound(row, yearCol, EndBound(endYear))),
                 (row: Row) => Chosen(row, monthCol, months))
         == Keep(rows, (row: Row) => InPeriod(row, yearCol, monthCol, startYear, endYear, months))
  {
    var p1 := (row: Row) => WithinBound(row, yearCol, StartBound(startYear));
    var p2 := (row: Row) => WithinBound(row, yearCol, EndBound(endYear));
    var p3 := (row: Row) => Chosen(row, monthCol, months);
    var all := (row: Row) => InPeriod(row, yearCol, monthCol, startYear, endYear, months);
    var p12 := (row: Row) => p1(row) && p2(row);
    KeepCompose(rows, p1, p2, p12);
    forall i | 0 <= i < |rows|
      ensures all(rows[i]) == (p12(rows[i]) && p3(rows[i]))
    {
      InPeriodSteps(rows[i], yearCol, monthCol, startYear, endYear, months);
    }
    KeepCompose(rows, p12, p3, all);
  }

  /** The filter returns, in their original order, exactly the rows that meet
      every criterion given. */
  lemma {:induction false} FilterSelects(t: Table, yearCol: string, monthCol: string,
                      startYear: Option<int>, endYear: Option<int>, months: Option<seq<string>>)
    requires WellFormed(t) && FilterByPeriod(t, yearCol, monthCol, startYear, endYear, months).Ok?
    ensures FilterByPeriod(t, yearCol, monthCol, startYear, endYear, months).value.rows
         == Keep(t.rows, (row: Row) => InPeriod(row, yearCol, monthCol, startYear, endYear, months))
  {
    var t1 := BoundStep(t, yearCol, StartBound(startYear)).value;
    BoundStepRows(t, yearCol, StartBound(startYear));
    var t2 := BoundStep(t1, yearCol, EndBound(endYear)).value;
    BoundStepRows(t1, yearCol, EndBound(endYear));
    MonthStepRows(t2, monthCol, months);
    StepsCompose(t.rows, yearCol, monthCol, startYear, endYear, months);
  }

  /** With no criteria every row is kept. */
  lemma {:induction false} FilterNothing(t: Table, yearCol: string, monthCol: string)
    requires WellFormed(t)
    ensures FilterByPeriod(t, yearCol, monthCol, None, None, None) == Ok(t)
  {
  }

  /** A cell `+ " "` accepts: a string, or a missing value (which stays missing). */
  predicate Concatenable(c: Cell)
  {
    c.Str? || c.Null?
  }

  /** `x[:3] if isinstance(x, str) else x`. */
  function ShortLabel(c: Cell): (r: Cell)
    ensures Concatenable(r) <==> Concatenable(c)
    ensures c.Str? ==> r.Str? && |r.s| == (if |c.s| < 3 then |c.s| else 3) && r.s == c.s[..|r.s|]
    ensures !c.Str? ==> r == c
  {
    if c.Str? then Str(c.s[..if |c.s| < 3 then |c.s| else 3]) else c
  }

  /** `label + " " + year` on one row. */
  function DisplayCell(lab: Cell, yearText: string): Cell
    requires Concatenable(lab)
  {
    if lab.Null? then Null else Str(lab.s + " " + yearText)
  }

  /** The three formats `format_period_for_display` knows. */
  predicate KnownFormatType(formatType: string)
  {
    formatType == "full" || formatType == "short" || formatType == "compact"
  }

  /** `format_period_for_display`: "full" is `label + " " + year`, "short"
      cuts string labels to three characters first, and "compact" is the
      month key. The label column is read and concatenated before the year
      column is read. */
  function FormatPeriodForDisplay(t: Table, yearCol: string, monthCol: string, formatType: string): (r: Result<seq<Cell>>)
    requires WellFormed(t)
    ensures r.Ok? ==> |r.value| == |t.rows|
    ensures !KnownFormatType(formatType) ==> r == Err(UnknownFormatType(formatType))
    ensures formatType == "compact" ==> r == CreatePeriodColumn(t, yearCol, monthCol, "month")
    ensures (formatType == "full" || formatType == "short") ==>
              && (monthCol !in t.columns ==> r == Err(MissingColumn(monthCol)))
              && (monthCol in t.columns && (exists i :: 0 <= i < |t.rows| && !Concatenable(t.rows[i][monthCol]))
                  ==> r == Err(TypeMismatch))
              && (monthCol in t.columns && yearCol !in t.columns
                  && (forall i :: 0 <= i < |t.rows| ==> Concatenable(t.rows[i][monthCol]))
                  ==> r == Err(MissingColumn(yearCol)))
              && (r.Ok? <==> monthCol in t.columns && yearCol in t.columns
                             && forall i :: 0 <= i < |t.rows| ==> Concatenable(t.rows[i][monthCol]))
              && (r.Err? ==> r.error == MissingColumn(monthCol) || r.error == TypeMismatch || r.error == MissingColumn(yearCol))
    ensures formatType == "full" && r.Ok? ==>
              && |r.value| == |t.rows|
              && forall i :: 0 <= i < |t.rows| ==>
                   r.value[i] == (if t.rows[i][monthCol].Null? then Null
                                  else Str(t.rows[i][monthCol].s + " " + CellText(t.rows[i][yearCol])))
    ensures formatType == "short" && r.Ok? ==>
              && |r.value| == |t.rows|
              && forall i :: 0 <= i < |t.rows| ==>
                   r.value[i] == (if t.rows[i][monthCol].Null? then Null
                                  else Str(ShortLabel(t.rows[i][monthCol]).s + " " + CellText(t.rows[i][yearCol])))
  {
    if formatType == "full" || formatType == "short" then
      var labels :- Column(t, monthCol);
      var shown := if formatType == "full" then labels
                   else seq(|labels|, i requires 0 <= i < |labels| => ShortLabel(labels[i]));
      assert forall i :: 0 <= i < |shown| ==> Concatenable(shown[i]) == Concatenable(labels[i]);
      if exists i :: 0 <= i < |shown| && !Concatenable(shown[i]) then Err(TypeMismatch)
      else
        var years :- Column(t, yearCol);
        Ok(seq(|years|, i requires 0 <= i < |years| => DisplayCell(shown[i], CellText(years[i]))))
    else if formatType == "compact" then
      CreatePeriodColumn(t, yearCol, monthCol, "month")
    else
      Err(UnknownFormatType(formatType))
  }

  /** The short form of a month name written by `extract_year_month_from_date`
      reads back as that month for every month but March, whose short form
      "Maa" is not in the month vocabulary. */
  lemma {:induction false} ShortNameReadsBack(n: int)
    requires 1 <= n <= 12
    ensures n != 3 ==> MonthToNumber(ShortLabel(Str(DutchMonthNames[n]))) == Ok(n)
    ensures n == 3 ==> MonthToNumber(ShortLabel(Str(DutchMonthNames[n]))).Err?
  {
    Abbreviations(n);
    if n == 3 {
      assert ShortLabel(Str(DutchMonthNames[3])) == Str("Maa");
      RejectedLabels();
    }
  }

  /** The columns the standardisation adds. */
  const Derived: set<string> := {"datum", "periode", "kwartaal", "periode_display"}

  /** `standardize_date_columns`: adds `datum` (day 1), `periode` (month
      key), `kwartaal` (quarter key) and `periode_display` (full display),
      each computed from the table as it stands after the previous step. */
  function Standardize(t: Table, yearCol: string, monthCol: string): (r: Result<Table>)
    requires WellFormed(t)
    ensures r.Ok? ==> WellFormed(r.value) && |r.value.rows| == |t.rows|
    ensures r.Ok? ==> forall c :: c in t.columns || c in Derived ==> c in r.value.columns
  {
    var t1 :- AddDateColumn(t, yearCol, monthCol, "datum", 1);
    var periods :- CreatePeriodColumn(t1, yearCol, monthCol, "month");
    var t2 := AddColumn(t1, "periode", periods);
    var quarters :- CreatePeriodColumn(t2, yearCol, monthCol, "quarter");
    var t3 := AddColumn(t2, "kwartaal", quarters);
    var shown :- FormatPeriodForDisplay(t3, yearCol, monthCol, "full");
    Ok(AddColumn(t3, "periode_display", shown))
  }

  /** The period operations read nothing but the year and the label
      columns: tables that agree on those two give the same results. */
  lemma {:induction false} DatesReadOnly(a: Table, b: Table, yearCol: string, monthCol: string, day: int)
    requires WellFormed(a) && WellFormed(b)
    requires Column(a, yearCol) == Column(b, yearCol) && Column(a, monthCol) == Column(b, monthCol)
    ensures CreateDates(a, yearCol, monthCol, day) == CreateDates(b, yearCol, monthCol, day)
  {
    assert (yearCol in a.columns) == (yearCol in b.columns);
    assert (monthCol in a.columns) == (monthCol in b.columns);
  }

  lemma {:induction false} PeriodsReadOnly(a: Table, b: Table, yearCol: string, monthCol: string, periodType: string)
    requires WellFormed(a) && WellFormed(b)
    requires Column(a, yearCol) == Column(b, yearCol) && Column(a, monthCol) == Column(b, monthCol)
    ensures CreatePeriodColumn(a, yearCol, monthCol, periodType) == CreatePeriodColumn(b, yearCol, monthCol, periodType)
  {
  }

  lemma {:induction false} DisplayReadOnly(a: Table, b: Table, yearCol: string, monthCol: string, formatType: string)
    requires WellFormed(a) && WellFormed(b)
    requires Column(a, yearCol) == Column(b, yearCol) && Column(a, monthCol) == Column(b, monthCol)
    ensures FormatPeriodForDisplay(a, yearCol, monthCol, formatType) == FormatPeriodForDisplay(b, yearCol, monthCol, formatType)
  {
    if formatType == "compact" {
      PeriodsReadOnly(a, b, yearCol, monthCol, "month");
    }
  }

  /** Tables that agree on the year and the label columns give the same
      period and display columns. */
  lemma {:induction false} ReadsOnlyYearAndLabel(a: Table, b: Table, yearCol: string, monthCol: string)
    requires WellFormed(a) && WellFormed(b)
    requires Column(a, yearCol) == Column(b, yearCol) && Column(a, monthCol) == Column(b, monthCol)
    ensures CreateDates(a, yearCol, monthCol, 1) == CreateDates(b, yearCol, monthCol, 1)
    ensures CreatePeriodColumn(a, yearCol, monthCol, "month") == CreatePeriodColumn(b, yearCol, monthCol, "month")
    ensures CreatePeriodColumn(a, yearCol, monthCol, "quarter") == CreatePeriodColumn(b, yearCol, monthCol, "quarter")
    ensures FormatPeriodForDisplay(a, yearCol, monthCol, "full") == FormatPeriodForDisplay(b, yearCol, monthCol, "full")
  {
    DatesReadOnly(a, b, yearCol, monthCol, 1);
    PeriodsReadOnly(a, b, yearCol, monthCol, "month");
    PeriodsReadOnly(a, b, yearCol, monthCol, "quarter");
    DisplayReadOnly(a, b, yearCol, monthCol, "full");
  }

  /** Adding a column other than the year and the label columns keeps both. */
  lemma {:induction false} AddKeepsYearAndLabel(t: Table, name: string, values: seq<Cell>, yearCol: string, monthCol: string)
    requires WellFormed(t) && |values| == |t.rows| && name != yearCol && name != monthCol
    ensures Column(AddColumn(t, name, values), yearCol) == Column(t, yearCol)
    ensures Column(AddColumn(t, name, values), monthCol) == Column(t, monthCol)
  {
    ColumnAfterAdd(t, name, values, yearCol);
    ColumnAfterAdd(t, name, values, monthCol);
  }

  /** On a table whose dates can be built, the period and display columns
      can be built too. */
  lemma {:induction false} LaterStepsSucceed(t: Table, yearCol: string, monthCol: string)
    requires WellFormed(t) && CreateDates(t, yearCol, monthCol, 1).Ok?
    ensures CreatePeriodColumn(t, yearCol, monthCol, "month").Ok?
    ensures CreatePeriodColumn(t, yearCol, monthCol, "quarter").Ok?
    ensures FormatPeriodForDisplay(t, yearCol, monthCol, "full").Ok?
  {
    assert forall i :: 0 <= i < |t.rows| ==> MonthToNumber(t.rows[i][monthCol]).Ok?;
  }

  /** When the year and label columns are not among the added ones, the
      standardisation fails exactly when building the dates fails, with the
      same error: every later step reads the same two columns. */
  lemma {:induction false} StandardizeSucceeds(t: Table, yearCol: string, monthCol: string)
    requires WellFormed(t) && yearCol !in Derived && monthCol !in Derived
    ensures Standardize(t, yearCol, monthCol).Ok? <==> CreateDates(t, yearCol, monthCol, 1).Ok?
    ensures Standardize(t, yearCol, monthCol).Err? ==> Standardize(t, yearCol, monthCol).error == CreateDates(t, yearCol, monthCol, 1).error
  {
    var d := AddDateColumn(t, yearCol, monthCol, "datum", 1);
    if d.Ok? {
      LaterStepsSucceed(t, yearCol, monthCol);
      var t1 := d.value;
      AddKeepsYearAndLabel(t, "datum", CreateDates(t, yearCol, monthCol, 1).value, yearCol, monthCol);
      ReadsOnlyYearAndLabel(t1, t, yearCol, monthCol);
      var periods := CreatePeriodColumn(t1, yearCol, monthCol, "month").value;
      var t2 := AddColumn(t1, "periode", periods);
      AddKeepsYearAndLabel(t1, "periode", periods, yearCol, monthCol);
      ReadsOnlyYearAndLabel(t2, t, yearCol, monthCol);
      var quarters := CreatePeriodColumn(t2, yearCol, monthCol, "quarter").value;
      var t3 := AddColumn(t2, "kwartaal", quarters);
      AddKeepsYearAndLabel(t2, "kwartaal", quarters, yearCol, monthCol);
      ReadsOnlyYearAndLabel(t3, t, yearCol, monthCol);
    }
  }

  /** The four derived columns stored one after the other. */
  function Attach(t: Table, dates: seq<Cell>, periods: seq<Cell>, quarters: seq<Cell>, shown: seq<Cell>): (r: Table)
    requires WellFormed(t) && |dates| == |periods| == |quarters| == |shown| == |t.rows|
    ensures WellFormed(r) && |r.rows| == |t.rows|
  {
    var t1 := AddColumn(t, "datum", dates);
    var t2 := AddColumn(t1, "periode", periods);
    var t3 := AddColumn(t2, "kwartaal", quarters);
    AddColumn(t3, "periode_display", shown)
  }

  /** Each attached row is the input row with the four derived cells set:
      the other cells are unchanged. */
  lemma {:induction false} AttachRows(t: Table, dates: seq<Cell>, periods: seq<Cell>, quarters: seq<Cell>, shown: seq<Cell>, i: int)
    requires WellFormed(t) && |dates| == |periods| == |quarters| == |shown| == |t.rows| && 0 <= i < |t.rows|
    ensures var row, out := t.rows[i], Attach(t, dates, periods, quarters, shown).rows[i];
      && (forall c :: c in row && c !in Derived ==> c in out && out[c] == row[c])
      && out["datum"] == dates[i] && out["periode"] == periods[i]
      && out["kwartaal"] == quarters[i] && out["periode_display"] == shown[i]
  {
    var row := t.rows[i];
    var t1 := AddColumn(t, "datum", dates);
    var t2 := AddColumn(t1, "periode", periods);
    var t3 := AddColumn(t2, "kwartaal", quarters);
    var t4 := AddColumn(t3, "periode_display", shown);
    assert t1.rows[i] == row["datum" := dates[i]];
    assert t2.rows[i] == t1.rows[i]["periode" := periods[i]];
    assert t3.rows[i] == t2.rows[i]["kwartaal" := quarters[i]];
    assert t4.rows[i] == t3.rows[i]["periode_display" := shown[i]];
    assert Attach(t, dates, periods, quarters, shown) == t4;
  }

  /** When the year and label columns are not among the derived ones and
      the dates can be built, the standardised table is the input with the
      date, month-key, quarter-key and full-display columns of the input
      table attached. */
  lemma {:induction false} StandardizeAttaches(t: Table, yearCol: string, monthCol: string)
    requires WellFormed(t) && yearCol !in Derived && monthCol !in Derived
    requires CreateDates(t, yearCol, monthCol, 1).Ok?
    ensures CreatePeriodColumn(t, yearCol, monthCol, "month").Ok?
    ensures CreatePeriodColumn(t, yearCol, monthCol, "quarter").Ok?
    ensures FormatPeriodForDisplay(t, yearCol, monthCol, "full").Ok?
    ensures Standardize(t, yearCol, monthCol)
         == Ok(Attach(t, CreateDates(t, yearCol, monthCol, 1).value,
                      CreatePeriodColumn(t, yearCol, monthCol, "month").value,
                      CreatePeriodColumn(t, yearCol, monthCol, "quarter").value,
                      FormatPeriodForDisplay(t, yearCol, monthCol, "full").value))
  {
    LaterStepsSucceed(t, yearCol, monthCol);
    var dates := CreateDates(t, yearCol, monthCol, 1).value;
    var t1 := AddDateColumn(t, yearCol, monthCol, "datum", 1).value;
    AddKeepsYearAndLabel(t, "datum", dates, yearCol, monthCol);
    ReadsOnlyYearAndLabel(t1, t, yearCol, monthCol);
    var periods := CreatePeriodColumn(t1, yearCol, monthCol, "month").value;
    var t2 := AddColumn(t1, "periode", periods);
    AddKeepsYearAndLabel(t1, "periode", periods, yearCol, monthCol);
    ReadsOnlyYearAndLabel(t2, t, yearCol, monthCol);
    var quarters := CreatePeriodColumn(t2, yearCol, monthCol, "quarter").value;
    var t3 := AddColumn(t2, "kwartaal", quarters);
    AddKeepsYearAndLabel(t2, "kwartaal", quarters, yearCol, monthCol);
    ReadsOnlyYearAndLabel(t3, t, yearCol, monthCol);
  }

  /** One standardised row: every input cell outside the derived columns
      is kept, and `kwartaal` holds the quarter key of the row's year and
      month. */
  lemma {:induction false} StandardizedRow(t: Table, yearCol: string, monthCol: string, i: int)
    requires WellFormed(t) && yearCol !in Derived && monthCol !in Derived
    requires CreateDates(t, yearCol, monthCol, 1).Ok? && 0 <= i < |t.rows|
    requires t.rows[i][yearCol].Int?
    ensures Standardize(t, yearCol, monthCol).Ok?
    ensures var row, out := t.rows[i], Standardize(t, yearCol, monthCol).value.rows[i];
            && (forall c :: c in row && c !in Derived ==> c in out && out[c] == row[c])
            && MonthToNumber(row[monthCol]).Ok?
            && "kwartaal" in out
            && out["kwartaal"] == Str(QuarterKey(row[yearCol].i, MonthToNumber(row[monthCol]).value))
  {
    StandardizeAttaches(t, yearCol, monthCol);
    var dates := CreateDates(t, yearCol, monthCol, 1).value;
    var periods := CreatePeriodColumn(t, yearCol, monthCol, "month").value;
    var quarters := CreatePeriodColumn(t, yearCol, monthCol, "quarter").value;
    var shown := FormatPeriodForDisplay(t, yearCol, monthCol, "full").value;
    AttachRows(t, dates, periods, quarters, shown, i);
    PeriodKeysOfRow(t, yearCol, monthCol, i);
  }

  /** A row of the module's demonstration table. */
  function SampleRow(year: int, month: string, value: int): Row
  {
    map["jaar" := Int(year), "maand" := Str(month), "waarde" := Int(value)]
  }

  /** The demonstration table: five months of 2023 and 2024 with a value each. */
  function Sample(): Table
  {
    Table(["jaar", "maand", "waarde"],
          [SampleRow(2023, "Januari", 100), SampleRow(2023, "Februari", 110), SampleRow(2023, "Maart", 120),
           SampleRow(2024, "April", 130), SampleRow(2024, "Mei", 140)])
  }

  lemma {:induction false} SampleWellFormed()
    ensures WellFormed(Sample())
  {
    var t := Sample();
    forall i | 0 <= i < |t.rows|
      ensures t.rows[i].Keys == set c | c in t.columns
    {
      assert t.rows[i].Keys == {"jaar", "maand", "waarde"};
    }
  }

  /** A demonstration row meets "from 2024 on, April or May" exactly when
      its year and label say so. */
  lemma {:induction false} SampleRowPasses(year: int, month: string, value: int)
    ensures InPeriod(SampleRow(year, month, value), "jaar", "maand", Some(2024), None, Some(["April", "Mei"]))
        <==> year >= 2024 && (month == "April" || month == "Mei")
  {
    var row := SampleRow(year, month, value);
    assert row["jaar"] == Int(year) && row["maand"] == Str(month);
    assert month in ["April", "Mei"] <==> month == "April" || month == "Mei";
  }

  lemma {:induction false} SampleKeep()
    ensures Keep(Sample().rows, (row: Row) => InPeriod(row, "jaar", "maand", Some(2024), None, Some(["April", "Mei"])))
         == Sample().rows[3..]
  {
    var p := (row: Row) => InPeriod(row, "jaar", "maand", Some(2024), None, Some(["April", "Mei"]));
    var rows := Sample().rows;
    SampleRowPasses(2023, "Januari", 100);
    SampleRowPasses(2023, "Februari", 110);
    SampleRowPasses(2023, "Maart", 120);
    SampleRowPasses(2024, "April", 130);
    SampleRowPasses(2024, "Mei", 140);
    assert !p(rows[0]) && !p(rows[1]) && !p(rows[2]) && p(rows[3]) && p(rows[4]);
    KeepSuffix(rows, p, 3);
  }

  /** From 2024 on, months April and May: exactly the last two rows remain. */
  lemma {:induction false} SampleFilter()
    ensures WellFormed(Sample())
    ensures FilterByPeriod(Sample(), "jaar", "maand", Some(2024), None, Some(["April", "Mei"]))
         == Ok(Table(Sample().columns, Sample().rows[3..]))
  {
    SampleFilterOk();
    FilterSelects(Sample(), "jaar", "maand", Some(2024), None, Some(["April", "Mei"]));
    SampleKeep();
  }

  lemma {:induction false} SampleFilterOk()
    ensures WellFormed(Sample())
    ensures var r := FilterByPeriod(Sample(), "jaar", "maand", Some(2024), None, Some(["April", "Mei"]));
            r.Ok? && r.value.columns == Sample().columns
  {
    SampleWellFormed();
    SampleYears();
  }

  lemma {:induction false} SampleYears()
    ensures forall i :: 0 <= i < |Sample().rows| ==> "jaar" in Sample().rows[i] && Sample().rows[i]["jaar"].Int?
  {
    var rows: seq<Row> := Sample().rows;
    forall i | 0 <= i < |rows|
      ensures "jaar" in rows[i] && rows[i]["jaar"].Int?
    {
      assert rows[i] in rows;
    }
  }
}

=== FILE: grouping.dfy ===
/** Group-by-and-sum over rows of any type, as pandas' `groupby(...).agg('sum')`
    computes it: one group per distinct key, keys in ascending order, each
    group holding the sum of the metric over the rows with that key. */
module Grouping {
  import opened Seqs
  import opened Strings

  ghost predicate StrictTotalOrder<K(!new)>(lt: (K, K) -> bool)
  {
    && (forall a :: !lt(a, a))
    && (forall a, b, c :: lt(a, b) && lt(b, c) ==> lt(a, c))
    && (forall a, b :: a != b ==> lt(a, b) || lt(b, a))
  }

  predicate Increasing<K>(ks: seq<K>, lt: (K, K) -> bool)
  {
    forall i, j :: 0 <= i < j < |ks| ==> lt(ks[i], ks[j])
  }

  predicate Distinct<K(==)>(ks: seq<K>)
  {
    forall i, j :: 0 <= i < j < |ks| ==> ks[i] != ks[j]
  }

  lemma {:induction false} IncreasingIsDistinct<K(!new)>(ks: seq<K>, lt: (K, K) -> bool)
    requires StrictTotalOrder(lt) && Increasing(ks, lt)
    ensures Distinct(ks)
  {
  }

  /** Inserts `k` into the ascending sequence `ks` unless it is already there. */
  function Insert<K(==, !new)>(ks: seq<K>, k: K, lt: (K, K) -> bool): (r: seq<K>)
    requires StrictTotalOrder(lt) && Increasing(ks, lt)
    ensures Increasing(r, lt)
    ensures forall x :: x in r <==> x in ks || x == k
  {
    if |ks| == 0 then [k]
    else if ks[0] == k then ks
    else if lt(k, ks[0]) then [k] + ks
    else
      var rest := Insert(ks[1..], k, lt);
      assert forall x :: x in rest ==> lt(ks[0], x);
      [ks[0]] + rest
  }

  /** The distinct keys of `rows` in ascending order: the index of a groupby. */
  function GroupKeys<T, K(==, !new)>(rows: seq<T>, key: T -> K, lt: (K, K) -> bool): (ks: seq<K>)
    requires StrictTotalOrder(lt)
    ensures Increasing(ks, lt) && Distinct(ks)
    ensures forall i :: 0 <= i < |rows| ==> key(rows[i]) in ks
    ensures forall k :: k in ks ==> exists i :: 0 <= i < |rows| && key(rows[i]) == k
  {
    if |rows| == 0 then []
    else
      var init := GroupKeys(rows[..|rows| - 1], key, lt);
      var ks := Insert(init, key(rows[|rows| - 1]), lt);
      assert forall i :: 0 <= i < |rows| - 1 ==> rows[..|rows| - 1][i] == rows[i];
      IncreasingIsDistinct(ks, lt);
      ks
  }

  /** The sum of `val` over the rows whose key is `k`: one group's total. */
  function SumWhere<T, K(==)>(rows: seq<T>, key: T -> K, val: T -> int, k: K): int
  {
    if |rows| == 0 then 0
    else (if key(rows[0]) == k then val(rows[0]) else 0) + SumWhere(rows[1..], key, val, k)
  }

  /** The sum of `val` over the rows whose key satisfies `sel`. */
  function SumSelected<T, K>(rows: seq<T>, key: T -> K, val: T -> int, sel: K -> bool): int
  {
    if |rows| == 0 then 0
    else (if sel(key(rows[0])) then val(rows[0]) else 0) + SumSelected(rows[1..], key, val, sel)
  }

  /** The sum of the group totals of the keys in `ks` that satisfy `sel`. */
  function SumOverKeys<T, K(==)>(rows: seq<T>, key: T -> K, val: T -> int, ks: seq<K>, sel: K -> bool): int
  {
    if |ks| == 0 then 0
    else (if sel(ks[0]) then SumWhere(rows, key, val, ks[0]) else 0) + SumOverKeys(rows, key, val, ks[1..], sel)
  }

  lemma {:induction false} SumOverKeysNoRows<T, K>(rows: seq<T>, key: T -> K, val: T -> int, ks: seq<K>, sel: K -> bool)
    requires |rows| == 0
    ensures SumOverKeys(rows, key, val, ks, sel) == 0
  {
    if |ks| > 0 {
      SumOverKeysNoRows(rows, key, val, ks[1..], sel);
    }
  }

  /** Peeling the first row off every group: it lands in exactly one group
      when its key is listed once. */
  lemma {:induction false} SumOverKeysHead<T, K>(rows: seq<T>, key: T -> K, val: T -> int, ks: seq<K>, sel: K -> bool)
    requires |rows| > 0 && Distinct(ks)
    ensures SumOverKeys(rows, key, val, ks, sel)
         == (if sel(key(rows[0])) && key(rows[0]) in ks then val(rows[0]) else 0)
            + SumOverKeys(rows[1..], key, val, ks, sel)
  {
    if |ks| > 0 {
      assert Distinct(ks[1..]);
      SumOverKeysHead(rows, key, val, ks[1..], sel);
      assert key(rows[0]) == ks[0] ==> key(rows[0]) !in ks[1..];
      assert key(rows[0]) in ks <==> key(rows[0]) == ks[0] || key(rows[0]) in ks[1..];
    }
  }

  /** Summing the group totals of the selected keys equals summing the
      selected rows directly, when every row's key is among the groups. */
  lemma {:induction false} GroupedSum<T, K>(rows: seq<T>, key: T -> K, val: T -> int, ks: seq<K>, sel: K -> bool)
    requires Distinct(ks)
    requires forall i :: 0 <= i < |rows| ==> key(rows[i]) in ks
    ensures SumOverKeys(rows, key, val, ks, sel) == SumSelected(rows, key, val, sel)
  {
    if |rows| == 0 {
      SumOverKeysNoRows(rows, key, val, ks, sel);
    } else {
      SumOverKeysHead(rows, key, val, ks, sel);
      assert forall i :: 0 <= i < |rows[1..]| ==> rows[1..][i] == rows[i + 1];
      GroupedSum(rows[1..], key, val, ks, sel);
    }
  }

  /** Selecting every key selects every row. */
  lemma {:induction false} SelectAll<T, K>(rows: seq<T>, key: T -> K, val: T -> int, sel: K -> bool)
    requires forall i :: 0 <= i < |rows| ==> sel(key(rows[i]))
    ensures SumSelected(rows, key, val, sel) == SumBy(rows, val)
  {
    if |rows| > 0 {
      SelectAll(rows[1..], key, val, sel);
    }
  }

  /** The selection that takes every key. */
  predicate AnyKey<K>(k: K)
  {
    true
  }

  /** Conservation: the group totals add up to the column total. */
  lemma {:induction false} Conservation<T, K(!new)>(rows: seq<T>, key: T -> K, val: T -> int, lt: (K, K) -> bool)
    requires StrictTotalOrder(lt)
    ensures SumOverKeys(rows, key, val, GroupKeys(rows, key, lt), AnyKey) == SumBy(rows, val)
  {
    GroupedSum(rows, key, val, GroupKeys(rows, key, lt), AnyKey);
    SelectAll(rows, key, val, AnyKey);
  }

  /** `pts` is the aggregated frame of a groupby: one point per key of `ks`,
      in the same order, carrying that key and its group total. */
  predicate TotalsOf<T, K(==), P>(pts: seq<P>, pkey: P -> K, pval: P -> int,
                              rows: seq<T>, key: T -> K, val: T -> int, ks: seq<K>)
  {
    && |pts| == |ks|
    && forall i :: 0 <= i < |ks| ==> pkey(pts[i]) == ks[i] && pval(pts[i]) == SumWhere(rows, key, val, ks[i])
  }

  /** Summing the selected points of an aggregated frame is summing the
      selected group totals. */
  lemma {:induction false} SelectedPoints<T, K, P>(pts: seq<P>, pkey: P -> K, pval: P -> int,
                                                   rows: seq<T>, key: T -> K, val: T -> int,
                                                   ks: seq<K>, sel: K -> bool)
    requires TotalsOf(pts, pkey, pval, rows, key, val, ks)
    ensures SumSelected(pts, pkey, pval, sel) == SumOverKeys(rows, key, val, ks, sel)
  {
    if |ks| > 0 {
      assert TotalsOf(pts[1..], pkey, pval, rows, key, val, ks[1..]) by {
        assert forall i :: 0 <= i < |ks| - 1 ==> pts[1..][i] == pts[i + 1] && ks[1..][i] == ks[i + 1];
      }
      SelectedPoints(pts[1..], pkey, pval, rows, key, val, ks[1..], sel);
    }
  }

  /** The selected points of a groupby's result add up to the selected rows
      of its input: nothing is lost or counted twice by grouping. */
  lemma {:induction false} GroupTotals<T, K(!new), P>(pts: seq<P>, pkey: P -> K, pval: P -> int,
                                   rows: seq<T>, key: T -> K, val: T -> int,
                                   lt: (K, K) -> bool, sel: K -> bool)
    requires StrictTotalOrder(lt)
    requires TotalsOf(pts, pkey, pval, rows, key, val, GroupKeys(rows, key, lt))
    ensures SumSelected(pts, pkey, pval, sel) == SumSelected(rows, key, val, sel)
  {
    var ks := GroupKeys(rows, key, lt);
    SelectedPoints(pts, pkey, pval, rows, key, val, ks, sel);
    GroupedSum(rows, key, val, ks, sel);
  }

  // ---------------------------------------------------------------------------
  // The orders pandas sorts group keys by
  // ---------------------------------------------------------------------------

  /** Strings sort in code-point order. */
  lemma {:induction false} LexOrder()
    ensures StrictTotalOrder(LexLess)
  {
    forall a ensures !LexLess(a, a) {
      LexIrreflexive(a);
    }
    forall a, b, c | LexLess(a, b) && LexLess(b, c) ensures LexLess(a, c) {
      LexTransitive(a, b, c);
    }
    forall a, b | a != b ensures LexLess(a, b) || LexLess(b, a) {
      LexTotal(a, b);
    }
  }

  predicate IntLess(a: int, b: int)
  {
    a < b
  }

  lemma {:induction false} IntOrder()
    ensures StrictTotalOrder(IntLess)
  {
  }

  /** A two-level index of (year, text) sorts by year, then by text. */
  predicate YearTextLess(a: (int, string), b: (int, string))
  {
    a.0 < b.0 || (a.0 == b.0 && LexLess(a.1, b.1))
  }

  lemma {:induction false} YearTextOrder()
    ensures StrictTotalOrder(YearTextLess)
  {
    forall a: (int, string) ensures !YearTextLess(a, a) {
      LexIrreflexive(a.1);
    }
    forall a: (int, string), b: (int, string), c: (int, string) | YearTextLess(a, b) && YearTextLess(b, c)
      ensures YearTextLess(a, c)
    {
      if a.0 == b.0 == c.0 {
        LexTransitive(a.1, b.1, c.1);
      }
    }
    forall a: (int, string), b: (int, string) | a != b ensures YearTextLess(a, b) || YearTextLess(b, a) {
      if a.0 == b.0 {
        LexTotal(a.1, b.1);
      }
    }
  }

  /** A two-level index of (year, month number) sorts chronologically. */
  predicate YearMonthLess(a: (int, int), b: (int, int))
  {
    a.0 < b.0 || (a.0 == b.0 && a.1 < b.1)
  }

  lemma {:induction false} YearMonthOrder()
    ensures StrictTotalOrder(YearMonthLess)
  {
  }
}

=== FILE: html_report.dfy ===
/** The generic HTML report: the sections a report accumulates and the
    summary table of the sheets of a workbook. */
module HtmlReport {
  import opened Results
  import opened Strings
  import opened Tables

  // ---------------------------------------------------------------------------
  // Sections
  // ---------------------------------------------------------------------------

  /** One section of a report; `C` stands for the chart objects, whose
      rendering lies outside this model. */
  datatype Section<C> = Section(title: string, content: string, charts: seq<C>)

  /** A report under construction: its title and its sections so far. */
  datatype Generator<C> = Generator(title: string, sections: seq<Section<C>>)

  /** The section `add_section` builds; a missing chart list becomes the
      empty list. */
  function SectionOf<C>(title: string, content: string, charts: Option<seq<C>>): Section<C>
  {
    Section(title, content, if charts.Some? then charts.value else [])
  }

  /** `add_section`: exactly one section is appended; the title and the
      earlier sections stay as they were. */
  function AddSection<C>(g: Generator<C>, title: string, content: string, charts: Option<seq<C>>): (r: Generator<C>)
    ensures r.title == g.title
    ensures |r.sections| == |g.sections| + 1 && r.sections[..|g.sections|] == g.sections
    ensures var s := r.sections[|g.sections|];
            s.title == title && s.content == content
            && (charts.None? ==> s.charts == []) && (charts.Some? ==> s.charts == charts.value)
  {
    var r := g.(sections := g.sections + [SectionOf(title, content, charts)]);
    assert r.sections[..|g.sections|] == g.sections;
    r
  }

  /** A request to add a section: title, content and optional charts. */
  datatype Request<C> = Request(title: string, content: string, charts: Option<seq<C>>)

  /** Adding sections one request at a time. */
  function AddAll<C>(g: Generator<C>, reqs: seq<Request<C>>): Generator<C>
    decreases |reqs|
  {
    if |reqs| == 0 then g
    else AddAll(AddSection(g, reqs[0].title, reqs[0].content, reqs[0].charts), reqs[1..])
  }

  /** After a series of `add_section` calls the report holds its earlier
      sections followed by one section per call, in call order. */
  lemma {:induction false} AddAllAppends<C>(g: Generator<C>, reqs: seq<Request<C>>)
    ensures AddAll(g, reqs).title == g.title
    ensures AddAll(g, reqs).sections ==
              g.sections + seq(|reqs|, i requires 0 <= i < |reqs| => SectionOf(reqs[i].title, reqs[i].content, reqs[i].charts))
    decreases |reqs|
  {
    if |reqs| > 0 {
      var g' := AddSection(g, reqs[0].title, reqs[0].content, reqs[0].charts);
      AddAllAppends(g', reqs[1..]);
      var added := seq(|reqs|, i requires 0 <= i < |reqs| => SectionOf(reqs[i].title, reqs[i].content, reqs[i].charts));
      var rest := seq(|reqs| - 1, i requires 0 <= i < |reqs| - 1 => SectionOf(reqs[1..][i].title, reqs[1..][i].content, reqs[1..][i].charts));
      assert added == [added[0]] + rest;
      assert g'.sections == g.sections + [added[0]];
    }
  }

  // ---------------------------------------------------------------------------
  // Sheet summary table
  // ---------------------------------------------------------------------------

  /** What the workbook analysis records about one sheet: its name, its
      shape (rows, columns) and its column labels, which are whatever
      pandas read as headers: strings, or numbers for numeric headers. */
  datatype SheetInfo = SheetInfo(name: string, rows: int, cols: int, columns: seq<Cell>)

  /** How many column names the table lists. */
  const MaxShown := 5

  /** The labels the table shows: the first five. */
  function ShownColumns(columns: seq<Cell>): (shown: seq<Cell>)
    ensures |shown| <= MaxShown && shown <= columns
    ensures |shown| == |columns| <==> |columns| <= MaxShown
  {
    if |columns| <= MaxShown then columns else columns[..MaxShown]
  }

  /** Every shown label is a string, so `", ".join` accepts them. */
  predicate ShownAreText(columns: seq<Cell>)
  {
    forall i :: 0 <= i < |columns| && i < MaxShown ==> columns[i].Str?
  }

  /** The texts of labels that are all strings. */
  function Texts(cells: seq<Cell>): (ts: seq<string>)
    requires forall i :: 0 <= i < |cells| ==> cells[i].Str?
    ensures |ts| == |cells| && forall i :: 0 <= i < |cells| ==> ts[i] == cells[i].s
  {
    seq(|cells|, i requires 0 <= i < |cells| => cells[i].s)
  }

  /** The column-names cell: the first five labels joined by ", ", then,
      when labels were left out, " ... (+k more)" with k the number left
      out. `str.join` raises a TypeError when a shown label is not a
      string. */
  function ColumnNames(columns: seq<Cell>): (r: Result<string>)
    ensures r.Ok? <==> ShownAreText(columns)
    ensures r.Err? ==> r.error == TypeMismatch
    ensures r.Ok? && |columns| <= MaxShown ==> r.value == Join(Texts(columns), ", ")
    ensures r.Ok? && |columns| > MaxShown ==>
              r.value == Join(Texts(columns[..MaxShown]), ", ") + " ... (+" + IntToString(|columns| - MaxShown) + " more)"
  {
    var shown := ShownColumns(columns);
    if exists i :: 0 <= i < |shown| && !shown[i].Str? then
      Err(TypeMismatch)
    else
      var names := Join(Texts(shown), ", ");
      Ok(if |columns| > MaxShown then names + " ... (+" + IntToString(|columns| - MaxShown) + " more)" else names)
  }

  /** A numeric header among the first five makes the cell fail; one
      further right does not matter. */
  lemma {:induction false} NumericHeader()
    ensures ColumnNames([Str("regio"), Int(2023)]) == Err(TypeMismatch)
    ensures ColumnNames([Str("a"), Str("b"), Str("c"), Str("d"), Str("e"), Int(2023)]).Ok?
  {
    assert ![Str("regio"), Int(2023)][1].Str?;
  }

  /** Only the first five labels and the number of columns matter. */
  lemma {:induction false} ColumnNamesIgnoresHidden(a: seq<Cell>, b: seq<Cell>)
    requires |a| == |b|
    requires forall i :: 0 <= i < |a| && i < MaxShown ==> a[i] == b[i]
    ensures ColumnNames(a) == ColumnNames(b)
  {
    if |a| <= MaxShown {
      assert a == b;
    } else {
      assert a[..MaxShown] == b[..MaxShown];
    }
  }

  /** The count in the suffix reads back as the number of labels left out. */
  lemma {:induction false} HiddenCountReadsBack(columns: seq<Cell>)
    requires |columns| > MaxShown && ShownAreText(columns)
    ensures ColumnNames(columns).Ok?
    ensures var n := Join(Texts(columns[..MaxShown]), ", ");
            var k := IntToString(|columns| - MaxShown);
            && ColumnNames(columns).value[|n| + 7..|n| + 7 + |k|] == k
            && ParseInt(ColumnNames(columns).value[|n| + 7..|n| + 7 + |k|]) == |columns| - MaxShown
  {
    var n := Join(Texts(columns[..MaxShown]), ", ");
    var k := IntToString(|columns| - MaxShown);
    var s := ColumnNames(columns).value;
    assert s == n + " ... (+" + k + " more)";
    assert s[|n| + 7..|n| + 7 + |k|] == k;
    ParseIntToString(|columns| - MaxShown);
  }

  const TableHeader := "<table><tr><th>Sheet Name</th><th>Rows</th><th>Columns</th><th>Column Names</th></tr>"
  const TableEnd := "</table>"

  /** A table cell. */
  function Td(text: string): string
  {
    "<td>" + text + "</td>"
  }

  /** The row of one sheet: name, the two components of its shape, and its
      column names; it fails exactly when the column-names cell does. */
  function SheetRow(info: SheetInfo): (r: Result<string>)
    ensures r.Ok? <==> ShownAreText(info.columns)
    ensures r.Err? ==> r.error == TypeMismatch
  {
    var names :- ColumnNames(info.columns);
    Ok("<tr>" + Td(info.name) + Td(IntToString(info.rows)) + Td(IntToString(info.cols)) + Td(names) + "</tr>")
  }

  function Concat(xs: seq<string>): string
  {
    if |xs| == 0 then "" else Concat(xs[..|xs| - 1]) + xs[|xs| - 1]
  }

  /** The rows of the table, one per sheet in the order given, when every
      sheet's shown labels are strings. */
  function SheetRows(sheets: seq<SheetInfo>): (rows: seq<string>)
    requires forall i :: 0 <= i < |sheets| ==> ShownAreText(sheets[i].columns)
    ensures |rows| == |sheets| && forall i :: 0 <= i < |sheets| ==> rows[i] == SheetRow(sheets[i]).value
  {
    seq(|sheets|, i requires 0 <= i < |sheets| && ShownAreText(sheets[i].columns) => SheetRow(sheets[i]).value)
  }

  /** `create_data_summary_table`, written as the source writes it: start
      with the header, append one row per sheet, close the table. The
      TypeError of a sheet whose shown labels are not all strings ends the
      function. */
  method CreateDataSummaryTable(sheets: seq<SheetInfo>) returns (r: Result<string>)
    ensures r.Ok? <==> forall i :: 0 <= i < |sheets| ==> ShownAreText(sheets[i].columns)
    ensures r.Err? ==> r.error == TypeMismatch
    ensures r.Ok? ==> r.value == TableHeader + Concat(SheetRows(sheets)) + TableEnd
  {
    var html := TableHeader;
    ghost var body := "";
    assert |SheetRows(sheets[..0])| == 0;
    var k := 0;
    while k < |sheets|
      invariant 0 <= k <= |sheets|
      invariant forall i :: 0 <= i < k ==> ShownAreText(sheets[i].columns)
      invariant body == Concat(SheetRows(sheets[..k]))
      invariant html == TableHeader + body
    {
      var row := SheetRow(sheets[k]);
      if row.Err? {
        return Err(row.error);
      }
      RowsSnoc(sheets, k);
      AppendAssoc(TableHeader, body, row.value);
      body := body + row.value;
      html := html + row.value;
      k := k + 1;
    }
    assert sheets[..k] == sheets;
    return Ok(html + TableEnd);
  }

  lemma {:induction false} AppendAssoc(a: string, b: string, c: string)
    ensures (a + b) + c == a + (b + c)
  {
  }

  lemma {:induction false} RowsSnoc(sheets: seq<SheetInfo>, k: nat)
    requires k < |sheets| && forall i :: 0 <= i <= k ==> ShownAreText(sheets[i].columns)
    ensures Concat(SheetRows(sheets[..k + 1])) == Concat(SheetRows(sheets[..k])) + SheetRow(sheets[k]).value
  {
    var rs := SheetRows(sheets[..k + 1]);
    assert rs[..|rs| - 1] == SheetRows(sheets[..k]);
  }

  /** The table opens with the header row and closes with "</table>". */
  lemma {:induction false} TableFrame(body: string)
    ensures StartsWith(TableHeader + body + TableEnd, TableHeader)
    ensures var html := TableHeader + body + TableEnd;
            |html| >= |TableEnd| && html[|html| - |TableEnd|..] == TableEnd
  {
    var html := TableHeader + body + TableEnd;
    assert html == TableHeader + (body + TableEnd);
    assert html[..|TableHeader|] == TableHeader;
  }

  /** The summary of a single sheet is the header, its row and the end. */
  lemma {:induction false} SingleSheetTable(info: SheetInfo)
    requires ShownAreText(info.columns)
    ensures TableHeader + Concat(SheetRows([info])) + TableEnd == TableHeader + SheetRow(info).value + TableEnd
  {
    assert SheetRows([info]) == [SheetRow(info).value];
    assert [SheetRow(info).value][..0] == [];
  }
}

=== FILE: monthly.dfy ===
/** The monthly series behind the rolling-average chart: the rows from 2015
    on grouped by (year, month label), the labels mapped to month numbers
    through a strict table of the twelve capitalised Dutch month names
    (groups whose label is not in it are dropped), one first-of-month date
    per group, in date order. */
module Monthly {
  import opened Results
  import opened Strings
  import opened Seqs
  import opened Grouping
  import opened Tables
  import opened PeriodKeys
  import opened DateUtils
  import opened Permits
  import opened Quarterly

  /** The month table of the rolling-average chart: only the capitalised
      full names, unlike the label parser used when loading. */
  const StrictMonths: map<string, int> := map[
    "Januari" := 1, "Februari" := 2, "Maart" := 3, "April" := 4,
    "Mei" := 5, "Juni" := 6, "Juli" := 7, "Augustus" := 8,
    "September" := 9, "Oktober" := 10, "November" := 11, "December" := 12
  ]

  /** The strict table and the month names are inverse to each other. */
  lemma {:induction false} StrictMonthsInverse()
    ensures forall m :: 1 <= m <= 12 ==> m in DutchMonthNames && DutchMonthNames[m] in StrictMonths && StrictMonths[DutchMonthNames[m]] == m
    ensures forall s :: s in StrictMonths ==> 1 <= StrictMonths[s] <= 12 && DutchMonthNames[StrictMonths[s]] == s
  {
    NamesInStrict();
    StrictInNames();
  }

  lemma {:induction false} NamesInStrict()
    ensures forall m :: 1 <= m <= 12 ==> m in DutchMonthNames && DutchMonthNames[m] in StrictMonths && StrictMonths[DutchMonthNames[m]] == m
  {
  }

  lemma {:induction false} StrictInNames()
    ensures forall s :: s in StrictMonths ==> 1 <= StrictMonths[s] <= 12 && DutchMonthNames[StrictMonths[s]] == s
  {
  }

  /** Labels the loader accepts can still be missing from the strict table:
      a row labelled "januari" or "Jan" is loaded but left out of the
      monthly series. */
  lemma {:induction false} StrictIsNarrower()
    ensures MonthToNumber(Str("januari")).Ok? && "januari" !in StrictMonths
    ensures MonthToNumber(Str("Jan")).Ok? && "Jan" !in StrictMonths
  {
    MonthExamples();
  }

  /** A row counts towards the monthly series. */
  predicate InMonthly(p: PermitRow)
  {
    Recent(p) && p.maand in StrictMonths
  }

  /** The (year, month number) of a row; 0 stands for a label that is not
      in the strict table. */
  function YearMonth(p: PermitRow): (int, int)
  {
    (p.jaar, if p.maand in StrictMonths then StrictMonths[p.maand] else 0)
  }

  /** One month of the series: its year and month number and the three
      metrics summed over the month's rows. */
  datatype MonthGroup = MonthGroup(jaar: int, maand: int, alle: int, huizen: int, flats: int)

  function GroupYearMonth(g: MonthGroup): (int, int) { (g.jaar, g.maand) }
  function MonthAlle(g: MonthGroup): int { g.alle }
  function MonthHuizen(g: MonthGroup): int { g.huizen }
  function MonthFlats(g: MonthGroup): int { g.flats }

  /** The (year, month number) of every group, in order. */
  function MonthKeysOf(gs: seq<MonthGroup>): (ks: seq<(int, int)>)
    ensures |ks| == |gs| && forall j :: 0 <= j < |gs| ==> ks[j] == (gs[j].jaar, gs[j].maand)
  {
    seq(|gs|, j requires 0 <= j < |gs| => (gs[j].jaar, gs[j].maand))
  }

  /** The total of `val` over the rows from 2015 on with year `y` and month
      label `name`: one group of the (jaar, maand) groupby. */
  function MonthTotal(rows: seq<PermitRow>, y: int, name: string, val: PermitRow -> int): int
  {
    if |rows| == 0 then 0
    else (if Recent(rows[0]) && rows[0].jaar == y && rows[0].maand == name then val(rows[0]) else 0)
         + MonthTotal(rows[1..], y, name, val)
  }

  /** Grouping by month number selects the same rows as grouping by label. */
  lemma {:induction false} SameMonthRows(p: PermitRow, y: int, m: int)
    requires 1 <= m <= 12
    ensures (InMonthly(p) && YearMonth(p) == (y, m)) <==> (Recent(p) && p.jaar == y && p.maand == MonthName(m))
  {
    StrictMonthsInverse();
  }

  lemma {:induction false} MonthlyTotal(rows: seq<PermitRow>, y: int, m: int, val: PermitRow -> int)
    requires 1 <= m <= 12
    ensures SumWhere(Keep(rows, InMonthly), YearMonth, val, (y, m)) == MonthTotal(rows, y, MonthName(m), val)
  {
    if |rows| > 0 {
      MonthlyTotal(rows[1..], y, m, val);
      SameMonthRows(rows[0], y, m);
      var rest := Keep(rows[1..], InMonthly);
      if InMonthly(rows[0]) {
        assert Keep(rows, InMonthly) == [rows[0]] + rest;
        assert ([rows[0]] + rest)[1..] == rest;
      } else {
        assert Keep(rows, InMonthly) == rest;
      }
    }
  }

  /** The aggregated frame: one group per key, carrying its totals. */
  function MonthGroupsOf(kept: seq<PermitRow>, ks: seq<(int, int)>): (gs: seq<MonthGroup>)
    ensures |gs| == |ks|
    ensures MonthKeysOf(gs) == ks
    ensures TotalsOf(gs, GroupYearMonth, MonthAlle, kept, YearMonth, Alle, ks)
    ensures TotalsOf(gs, GroupYearMonth, MonthHuizen, kept, YearMonth, Huizen, ks)
    ensures TotalsOf(gs, GroupYearMonth, MonthFlats, kept, YearMonth, Flats, ks)
  {
    seq(|ks|, i requires 0 <= i < |ks| =>
      MonthGroup(ks[i].0, ks[i].1, SumWhere(kept, YearMonth, Alle, ks[i]),
                 SumWhere(kept, YearMonth, Huizen, ks[i]), SumWhere(kept, YearMonth, Flats, ks[i])))
  }

  lemma {:induction false} MonthKeysRows(rows: seq<PermitRow>, kept: seq<PermitRow>, ks: seq<(int, int)>)
    requires kept == Keep(rows, InMonthly)
    requires forall i :: 0 <= i < |kept| ==> YearMonth(kept[i]) in ks
    requires forall k :: k in ks ==> exists i :: 0 <= i < |kept| && YearMonth(kept[i]) == k
    ensures forall i :: 0 <= i < |rows| && InMonthly(rows[i]) ==> YearMonth(rows[i]) in ks
    ensures forall k :: k in ks ==> exists i :: 0 <= i < |rows| && InMonthly(rows[i]) && YearMonth(rows[i]) == k
    ensures forall k :: k in ks ==> 1 <= k.1 <= 12
  {
    StrictMonthsInverse();
    forall i | 0 <= i < |rows| && InMonthly(rows[i]) ensures YearMonth(rows[i]) in ks {
      assert rows[i] in kept;
    }
    forall k | k in ks ensures exists i :: 0 <= i < |rows| && InMonthly(rows[i]) && YearMonth(rows[i]) == k {
      var i :| 0 <= i < |kept| && YearMonth(kept[i]) == k;
      assert kept[i] in rows;
    }
  }

  lemma {:induction false} MonthTotals(rows: seq<PermitRow>, ks: seq<(int, int)>)
    requires forall k :: k in ks ==> 1 <= k.1 <= 12
    ensures forall k :: k in ks ==>
              && SumWhere(Keep(rows, InMonthly), YearMonth, Alle, k) == MonthTotal(rows, k.0, MonthName(k.1), Alle)
              && SumWhere(Keep(rows, InMonthly), YearMonth, Huizen, k) == MonthTotal(rows, k.0, MonthName(k.1), Huizen)
              && SumWhere(Keep(rows, InMonthly), YearMonth, Flats, k) == MonthTotal(rows, k.0, MonthName(k.1), Flats)
  {
    forall k | k in ks
      ensures SumWhere(Keep(rows, InMonthly), YearMonth, Alle, k) == MonthTotal(rows, k.0, MonthName(k.1), Alle)
      ensures SumWhere(Keep(rows, InMonthly), YearMonth, Huizen, k) == MonthTotal(rows, k.0, MonthName(k.1), Huizen)
      ensures SumWhere(Keep(rows, InMonthly), YearMonth, Flats, k) == MonthTotal(rows, k.0, MonthName(k.1), Flats)
    {
      MonthlyTotal(rows, k.0, k.1, Alle);
      MonthlyTotal(rows, k.0, k.1, Huizen);
      MonthlyTotal(rows, k.0, k.1, Flats);
    }
  }

  /** The monthly groups: one per (year, month) with a row from 2015 on whose
      label is in the strict table, in chronological order, each carrying the
      totals of the rows with that year and label. */
  function MonthGroups(rows: seq<PermitRow>): (gs: seq<MonthGroup>)
    ensures forall i, j :: 0 <= i < j < |gs| ==> YearMonthLess((gs[i].jaar, gs[i].maand), (gs[j].jaar, gs[j].maand))
    ensures forall i :: 0 <= i < |rows| && InMonthly(rows[i]) ==> (rows[i].jaar, StrictMonths[rows[i].maand]) in MonthKeysOf(gs)
    ensures forall k :: k in MonthKeysOf(gs) ==> exists i :: 0 <= i < |rows| && InMonthly(rows[i]) && YearMonth(rows[i]) == k
    ensures forall j :: 0 <= j < |gs| ==> 1 <= gs[j].maand <= 12
    ensures forall j :: 0 <= j < |gs| ==>
              && gs[j].alle == MonthTotal(rows, gs[j].jaar, MonthName(gs[j].maand), Alle)
              && gs[j].huizen == MonthTotal(rows, gs[j].jaar, MonthName(gs[j].maand), Huizen)
              && gs[j].flats == MonthTotal(rows, gs[j].jaar, MonthName(gs[j].maand), Flats)
  {
    YearMonthOrder();
    var kept := Keep(rows, InMonthly);
    var ks := GroupKeys(kept, YearMonth, YearMonthLess);
    var gs := MonthGroupsOf(kept, ks);
    GroupsSpec(rows, kept, ks, gs);
    gs
  }

  lemma {:induction false} GroupsSpec(rows: seq<PermitRow>, kept: seq<PermitRow>, ks: seq<(int, int)>, gs: seq<MonthGroup>)
    requires StrictTotalOrder(YearMonthLess)
    requires kept == Keep(rows, InMonthly) && ks == GroupKeys(kept, YearMonth, YearMonthLess)
    requires gs == MonthGroupsOf(kept, ks)
    ensures forall i, j :: 0 <= i < j < |gs| ==> YearMonthLess((gs[i].jaar, gs[i].maand), (gs[j].jaar, gs[j].maand))
    ensures forall i :: 0 <= i < |rows| && InMonthly(rows[i]) ==> (rows[i].jaar, StrictMonths[rows[i].maand]) in MonthKeysOf(gs)
    ensures forall k :: k in MonthKeysOf(gs) ==> exists i :: 0 <= i < |rows| && InMonthly(rows[i]) && YearMonth(rows[i]) == k
    ensures forall j :: 0 <= j < |gs| ==> 1 <= gs[j].maand <= 12
    ensures forall j :: 0 <= j < |gs| ==>
              && gs[j].alle == MonthTotal(rows, gs[j].jaar, MonthName(gs[j].maand), Alle)
              && gs[j].huizen == MonthTotal(rows, gs[j].jaar, MonthName(gs[j].maand), Huizen)
              && gs[j].flats == MonthTotal(rows, gs[j].jaar, MonthName(gs[j].maand), Flats)
  {
    GroupsFacts(rows, kept, ks, gs);
    GroupsTotals(rows, kept, ks, gs);
  }

  lemma {:induction false} GroupsFacts(rows: seq<PermitRow>, kept: seq<PermitRow>, ks: seq<(int, int)>, gs: seq<MonthGroup>)
    requires StrictTotalOrder(YearMonthLess)
    requires kept == Keep(rows, InMonthly) && ks == GroupKeys(kept, YearMonth, YearMonthLess)
    requires gs == MonthGroupsOf(kept, ks)
    ensures forall i, j :: 0 <= i < j < |gs| ==> YearMonthLess((gs[i].jaar, gs[i].maand), (gs[j].jaar, gs[j].maand))
    ensures forall i :: 0 <= i < |rows| && InMonthly(rows[i]) ==> (rows[i].jaar, StrictMonths[rows[i].maand]) in MonthKeysOf(gs)
    ensures forall k :: k in MonthKeysOf(gs) ==> exists i :: 0 <= i < |rows| && InMonthly(rows[i]) && YearMonth(rows[i]) == k
    ensures forall k :: k in ks ==> 1 <= k.1 <= 12
    ensures forall j :: 0 <= j < |gs| ==> 1 <= gs[j].maand <= 12
  {
    MonthKeysRows(rows, kept, ks);
    assert MonthKeysOf(gs) == ks;
    forall i, j | 0 <= i < j < |gs|
      ensures YearMonthLess((gs[i].jaar, gs[i].maand), (gs[j].jaar, gs[j].maand))
    {
      assert (gs[i].jaar, gs[i].maand) == ks[i] && (gs[j].jaar, gs[j].maand) == ks[j];
    }
    forall j | 0 <= j < |gs| ensures 1 <= gs[j].maand <= 12 {
      assert (gs[j].jaar, gs[j].maand) == ks[j] && ks[j] in ks;
    }
  }

  lemma {:induction false} GroupsTotals(rows: seq<PermitRow>, kept: seq<PermitRow>, ks: seq<(int, int)>, gs: seq<MonthGroup>)
    requires kept == Keep(rows, InMonthly) && gs == MonthGroupsOf(kept, ks)
    requires forall k :: k in ks ==> 1 <= k.1 <= 12
    requires forall j :: 0 <= j < |gs| ==> 1 <= gs[j].maand <= 12
    ensures forall j :: 0 <= j < |gs| ==>
              && gs[j].alle == MonthTotal(rows, gs[j].jaar, MonthName(gs[j].maand), Alle)
              && gs[j].huizen == MonthTotal(rows, gs[j].jaar, MonthName(gs[j].maand), Huizen)
              && gs[j].flats == MonthTotal(rows, gs[j].jaar, MonthName(gs[j].maand), Flats)
  {
    MonthTotals(rows, ks);
    assert forall j :: 0 <= j < |gs| ==> (gs[j].jaar, gs[j].maand) == ks[j] && ks[j] in ks;
  }

  /** Conservation: each metric summed over the months equals the metric
      summed over the rows that enter the series. */
  lemma {:induction false} MonthlyConservation(rows: seq<PermitRow>)
    ensures SumBy(MonthGroups(rows), MonthAlle) == SumBy(Keep(rows, InMonthly), Alle)
    ensures SumBy(MonthGroups(rows), MonthHuizen) == SumBy(Keep(rows, InMonthly), Huizen)
    ensures SumBy(MonthGroups(rows), MonthFlats) == SumBy(Keep(rows, InMonthly), Flats)
  {
    YearMonthOrder();
    var kept := Keep(rows, InMonthly);
    var ks := GroupKeys(kept, YearMonth, YearMonthLess);
    var gs := MonthGroups(rows);
    assert gs == MonthGroupsOf(kept, ks);
    MonthConserved(gs, MonthAlle, kept, Alle);
    MonthConserved(gs, MonthHuizen, kept, Huizen);
    MonthConserved(gs, MonthFlats, kept, Flats);
  }

  lemma {:induction false} MonthConserved(gs: seq<MonthGroup>, gval: MonthGroup -> int, kept: seq<PermitRow>, val: PermitRow -> int)
    requires StrictTotalOrder(YearMonthLess)
    requires TotalsOf(gs, GroupYearMonth, gval, kept, YearMonth, val, GroupKeys(kept, YearMonth, YearMonthLess))
    ensures SumBy(gs, gval) == SumBy(kept, val)
  {
    GroupTotals(gs, GroupYearMonth, gval, kept, YearMonth, val, YearMonthLess, AnyKey);
    SelectAll(gs, GroupYearMonth, gval, AnyKey);
    SelectAll(kept, YearMonth, val, AnyKey);
  }

  // ---------------------------------------------------------------------------
  // Dates
  // ---------------------------------------------------------------------------

  /** The first day of a group's month. */
  function MonthDate(g: MonthGroup): Date
  {
    Date(g.jaar, g.maand, 1)
  }

  /** The text the date parser reads for a month: `jaar-MM-01`. */
  function MonthDateText(y: int, m: int): string
  {
    IntToString(y) + "-" + ZFill(IntToString(m), 2) + "-01"
  }

  /** The date of a group's month, or the parser's error when it lies
      outside the timestamp range. */
  function CheckDate(g: MonthGroup): (r: Result<Date>)
    ensures r.Ok? <==> InTimestampRange(MonthDate(g))
    ensures r.Ok? ==> r.value == MonthDate(g)
    ensures r.Err? ==> r.error == InvalidDate(MonthDateText(g.jaar, g.maand))
  {
    if InTimestampRange(MonthDate(g)) then Ok(MonthDate(g)) else Err(InvalidDate(MonthDateText(g.jaar, g.maand)))
  }

  /** The series the rolling averages are computed over: the monthly
      groups, each with its first-of-month date, sorted by that date. The
      date conversion fails when a month lies outside the timestamp range. */
  function MonthlySeries(rows: seq<PermitRow>): (r: Result<seq<MonthGroup>>)
    ensures r.Ok? <==> forall i :: 0 <= i < |rows| && InMonthly(rows[i]) ==>
                         InTimestampRange(Date(rows[i].jaar, StrictMonths[rows[i].maand], 1))
    ensures r.Err? ==> exists i :: (0 <= i < |rows| && InMonthly(rows[i])
                         && !InTimestampRange(Date(rows[i].jaar, StrictMonths[rows[i].maand], 1))
                         && r.error == InvalidDate(MonthDateText(rows[i].jaar, StrictMonths[rows[i].maand])))
    ensures r.Ok? ==> r.value == MonthGroups(rows)
    ensures r.Ok? ==> forall i, j :: 0 <= i < j < |r.value| ==> DateBefore(MonthDate(r.value[i]), MonthDate(r.value[j]))
  {
    var gs := MonthGroups(rows);
    SeriesDates(rows, gs);
    match MapResult(gs, CheckDate)
    case Err(e) => Err(e)
    case Ok(_) => Ok(gs)
  }

  /** The date check over the groups agrees with the date check over the rows. */
  lemma {:induction false} SeriesDates(rows: seq<PermitRow>, gs: seq<MonthGroup>)
    requires gs == MonthGroups(rows)
    ensures MapResult(gs, CheckDate).Ok? <==> forall i :: 0 <= i < |rows| && InMonthly(rows[i]) ==>
              InTimestampRange(Date(rows[i].jaar, StrictMonths[rows[i].maand], 1))
    ensures MapResult(gs, CheckDate).Err? ==>
              exists i :: (0 <= i < |rows| && InMonthly(rows[i])
                && !InTimestampRange(Date(rows[i].jaar, StrictMonths[rows[i].maand], 1))
                && MapResult(gs, CheckDate).error == InvalidDate(MonthDateText(rows[i].jaar, StrictMonths[rows[i].maand])))
    ensures forall i, j :: 0 <= i < j < |gs| ==> DateBefore(MonthDate(gs[i]), MonthDate(gs[j]))
  {
    var r := MapResult(gs, CheckDate);
    if r.Ok? {
      DatesOk(rows, gs);
    } else {
      DatesErr(rows, gs);
    }
  }

  lemma {:induction false} DatesOk(rows: seq<PermitRow>, gs: seq<MonthGroup>)
    requires gs == MonthGroups(rows) && MapResult(gs, CheckDate).Ok?
    ensures forall i :: 0 <= i < |rows| && InMonthly(rows[i]) ==> InTimestampRange(Date(rows[i].jaar, StrictMonths[rows[i].maand], 1))
  {
    var ks := MonthKeysOf(gs);
    forall i | 0 <= i < |rows| && InMonthly(rows[i])
      ensures InTimestampRange(Date(rows[i].jaar, StrictMonths[rows[i].maand], 1))
    {
      var j :| 0 <= j < |ks| && ks[j] == (rows[i].jaar, StrictMonths[rows[i].maand]);
      assert CheckDate(gs[j]).Ok?;
    }
  }

  lemma {:induction false} DatesErr(rows: seq<PermitRow>, gs: seq<MonthGroup>)
    requires gs == MonthGroups(rows) && MapResult(gs, CheckDate).Err?
    ensures exists i :: (0 <= i < |rows| && InMonthly(rows[i])
              && !InTimestampRange(Date(rows[i].jaar, StrictMonths[rows[i].maand], 1))
              && MapResult(gs, CheckDate).error == InvalidDate(MonthDateText(rows[i].jaar, StrictMonths[rows[i].maand])))
  {
    var ks := MonthKeysOf(gs);
    var r := MapResult(gs, CheckDate);
    var j :| FirstFailure(gs, CheckDate, j) && r.error == CheckDate(gs[j]).error;
    assert ks[j] in ks;
    var i :| 0 <= i < |rows| && InMonthly(rows[i]) && YearMonth(rows[i]) == ks[j];
    assert MonthDate(gs[j]) == Date(rows[i].jaar, StrictMonths[rows[i].maand], 1);
  }

  /** Rows that survived loading always have their months inside the
      timestamp range, so the monthly series of loaded rows exists. */
  lemma {:induction false} MonthlyOfPrepared(raws: seq<RawRow>)
    requires Prepare(raws).Ok?
    ensures MonthlySeries(Prepare(raws).value).Ok?
  {
    var rows := Prepare(raws).value;
    forall i | 0 <= i < |rows| && InMonthly(rows[i])
      ensures InTimestampRange(Date(rows[i].jaar, StrictMonths[rows[i].maand], 1))
    {
      LoadedMonthInRange(raws[i], rows[i]);
    }
  }

  lemma {:induction false} LoadedMonthInRange(raw: RawRow, p: PermitRow)
    requires Accepted(raw) && PreparedFrom(raw, p) && InMonthly(p)
    ensures InTimestampRange(Date(p.jaar, StrictMonths[p.maand], 1))
  {
    StrictMonthsInverse();
    var m := StrictMonths[p.maand];
    NameParses(m);
    assert MonthToNumber(Str(raw.maand)) == Ok(m);
    ParseNatToString(p.jaar);
  }
}

=== FILE: period_keys.dfy ===
/** The period normaliser of `src/date_utils.py`: Dutch month labels to month
    numbers, month numbers to quarters, and the canonical `YYYY-MM` and
    `YYYY-QN` period keys. */
module PeriodKeys {
  import opened Results
  import opened Strings
  import opened Tables

  /** Lower-case Dutch month names and abbreviations; "mei" has no abbreviation. */
  const DutchMonths: map<string, int> := map[
    "januari" := 1, "jan" := 1,
    "februari" := 2, "feb" := 2,
    "maart" := 3, "mrt" := 3,
    "april" := 4, "apr" := 4,
    "mei" := 5,
    "juni" := 6, "jun" := 6,
    "juli" := 7, "jul" := 7,
    "augustus" := 8, "aug" := 8,
    "september" := 9, "sep" := 9,
    "oktober" := 10, "okt" := 10,
    "november" := 11, "nov" := 11,
    "december" := 12, "dec" := 12
  ]

  /** The capitalised full name of each month number. */
  const DutchMonthNames: map<int, string> := map[
    1 := "Januari", 2 := "Februari", 3 := "Maart", 4 := "April",
    5 := "Mei", 6 := "Juni", 7 := "Juli", 8 := "Augustus",
    9 := "September", 10 := "Oktober", 11 := "November", 12 := "December"
  ]

  lemma {:induction false} MonthValuesInRange()
    ensures forall k :: k in DutchMonths ==> 1 <= DutchMonths[k] <= 12
  {
  }

  /** `dutch_month_to_number`: a missing or non-string label is invalid; a
      string is lower-cased and stripped and must then be in the vocabulary. */
  function MonthToNumber(cell: Cell): (r: Result<int>)
    ensures r.Ok? <==> cell.Str? && Strip(Lower(cell.s)) in DutchMonths
    ensures r.Ok? ==> 1 <= r.value <= 12 && r.value == DutchMonths[Strip(Lower(cell.s))]
    ensures !cell.Str? ==> r == Err(InvalidMonth)
    ensures cell.Str? && r.Err? ==> r == Err(UnknownMonth(cell.s))
  {
    match cell
    case Str(s) =>
      var clean := Strip(Lower(s));
      if clean in DutchMonths then
        MonthValuesInRange();
        Ok(DutchMonths[clean])
      else
        Err(UnknownMonth(s))
    case _ => Err(InvalidMonth)
  }

  /** The capitalised name `extract_year_month_from_date` writes for a month. */
  function MonthName(n: int): (name: string)
    requires 1 <= n <= 12
    ensures MonthToNumber(Str(name)) == Ok(n)
  {
    NameParses(n);
    DutchMonthNames[n]
  }

  /** A string with no whitespace at either end is its own `strip()`. */
  lemma {:induction false} StripClean(s: string)
    requires |s| > 0 && !IsSpace(s[0]) && !IsSpace(s[|s| - 1])
    ensures Strip(s) == s
  {
  }

  /** Every name `extract_year_month_from_date` writes maps back to its month. */
  lemma {:induction false} NameParses(n: int)
    requires 1 <= n <= 12
    ensures MonthToNumber(Str(DutchMonthNames[n])) == Ok(n)
  {
    if n == 1 {
      assert DutchMonthNames[1] == "Januari";
      JanuariParses();
    } else if n == 2 {
      assert DutchMonthNames[2] == "Februari";
      FebruariParses();
    } else if n == 3 {
      assert DutchMonthNames[3] == "Maart";
      MaartParses();
    } else if n == 4 {
      assert DutchMonthNames[4] == "April";
      AprilParses();
    } else if n == 5 {
      assert DutchMonthNames[5] == "Mei";
      MeiParses();
    } else if n == 6 {
      assert DutchMonthNames[6] == "Juni";
      JuniParses();
    } else if n == 7 {
      assert DutchMonthNames[7] == "Juli";
      JuliParses();
    } else if n == 8 {
      assert DutchMonthNames[8] == "Augustus";
      AugustusParses();
    } else if n == 9 {
      assert DutchMonthNames[9] == "September";
      SeptemberParses();
    } else if n == 10 {
      assert DutchMonthNames[10] == "Oktober";
      OktoberParses();
    } else if n == 11 {
      assert DutchMonthNames[11] == "November";
      NovemberParses();
    } else if n == 12 {
      assert DutchMonthNames[12] == "December";
      DecemberParses();
    }
  }

  /** A label whose lower-cased letters spell a vocabulary key, with no
      whitespace at either end, maps to that key's month. */
  lemma {:induction false} LabelParses(s: string, low: string, n: int)
    requires |s| == |low| > 0 && forall i :: 0 <= i < |s| ==> LowerChar(s[i]) == low[i]
    requires !IsSpace(low[0]) && !IsSpace(low[|low| - 1])
    requires low in DutchMonths && DutchMonths[low] == n
    ensures MonthToNumber(Str(s)) == Ok(n)
  {
    LowerExample(s, low);
  }

  lemma {:induction false} JanuariParses()
    ensures MonthToNumber(Str("Januari")) == Ok(1) && MonthToNumber(Str("Jan")) == Ok(1)
  {
    LabelParses("Januari", "januari", 1);
    LabelParses("Jan", "jan", 1);
  }

  lemma {:induction false} FebruariParses()
    ensures MonthToNumber(Str("Februari")) == Ok(2) && MonthToNumber(Str("Feb")) == Ok(2)
  {
    LabelParses("Februari", "februari", 2);
    LabelParses("Feb", "feb", 2);
  }

  lemma {:induction false} MaartParses()
    ensures MonthToNumber(Str("Maart")) == Ok(3) && MonthToNumber(Str("mrt")) == Ok(3)
  {
    LabelParses("Maart", "maart", 3);
    LabelParses("mrt", "mrt", 3);
  }

  lemma {:induction false} AprilParses()
    ensures MonthToNumber(Str("April")) == Ok(4) && MonthToNumber(Str("Apr")) == Ok(4)
  {
    LabelParses("April", "april", 4);
    LabelParses("Apr", "apr", 4);
  }

  lemma {:induction false} MeiParses()
    ensures MonthToNumber(Str("Mei")) == Ok(5) && MonthToNumber(Str("MEI")) == Ok(5)
  {
    LabelParses("Mei", "mei", 5);
    LabelParses("MEI", "mei", 5);
  }

  lemma {:induction false} JuniParses()
    ensures MonthToNumber(Str("Juni")) == Ok(6) && MonthToNumber(Str("Jun")) == Ok(6)
  {
    LabelParses("Juni", "juni", 6);
    LabelParses("Jun", "jun", 6);
  }

  lemma {:induction false} JuliParses()
    ensures MonthToNumber(Str("Juli")) == Ok(7) && MonthToNumber(Str("Jul")) == Ok(7)
  {
    LabelParses("Juli", "juli", 7);
    LabelParses("Jul", "jul", 7);
  }

  lemma {:induction false} AugustusParses()
    ensures MonthToNumber(Str("Augustus")) == Ok(8) && MonthToNumber(Str("Aug")) == Ok(8)
  {
    LabelParses("Augustus", "augustus", 8);
    LabelParses("Aug", "aug", 8);
  }

  lemma {:induction false} SeptemberParses()
    ensures MonthToNumber(Str("September")) == Ok(9) && MonthToNumber(Str("Sep")) == Ok(9)
  {
    LabelParses("September", "september", 9);
    LabelParses("Sep", "sep", 9);
  }

  lemma {:induction false} OktoberParses()
    ensures MonthToNumber(Str("Oktober")) == Ok(10) && MonthToNumber(Str("Okt")) == Ok(10)
  {
    LabelParses("Oktober", "oktober", 10);
    LabelParses("Okt", "okt", 10);
  }

  lemma {:induction false} NovemberParses()
    ensures MonthToNumber(Str("November")) == Ok(11) && MonthToNumber(Str("Nov")) == Ok(11)
  {
    LabelParses("November", "november", 11);
    LabelParses("Nov", "nov", 11);
  }

  lemma {:induction false} DecemberParses()
    ensures MonthToNumber(Str("December")) == Ok(12) && MonthToNumber(Str("Dec")) == Ok(12)
  {
    LabelParses("December", "december", 12);
    LabelParses("Dec", "dec", 12);
  }

  /** The month-name part of `extract_year_month_from_date`: the year and the
      Dutch name of a timestamp's month. */
  function ExtractYearMonth(d: Date): (r: (int, string))
    requires 1 <= d.month <= 12
    ensures r.0 == d.year
    ensures r.1 == DutchMonthNames[d.month]
    ensures MonthToNumber(Str(r.1)) == Ok(d.month)
  {
    (d.year, MonthName(d.month))
  }

  /** Every capitalised name parses back to its month (and so does a
      date's month name, which is one of them). */
  lemma {:induction false} MonthNameRoundTrip(n: int)
    requires 1 <= n <= 12
    ensures MonthToNumber(Str(DutchMonthNames[n])) == Ok(n)
  {
    var _ := MonthName(n);
  }

  lemma {:induction false} LowerAppend(a: string, b: string)
    ensures Lower(a + b) == Lower(a) + Lower(b)
  {
  }

  lemma {:induction false} LowerSpaces(w: string)
    requires AllSpace(w)
    ensures Lower(w) == w
  {
  }

  /** Labels are matched ignoring surrounding whitespace. */
  lemma {:induction false} MonthIgnoresWhitespace(w1: string, s: string, w2: string)
    requires AllSpace(w1) && AllSpace(w2)
    ensures MonthToNumber(Str(w1 + s + w2)).Ok? == MonthToNumber(Str(s)).Ok?
    ensures MonthToNumber(Str(w1 + s + w2)).Ok? ==> MonthToNumber(Str(w1 + s + w2)).value == MonthToNumber(Str(s)).value
  {
    LowerAppend(w1 + s, w2);
    LowerAppend(w1, s);
    LowerSpaces(w1);
    LowerSpaces(w2);
    StripSurrounding(w1, Lower(s), w2);
  }

  /** Labels are matched ignoring letter case. */
  lemma {:induction false} MonthIgnoresCase(s: string)
    ensures MonthToNumber(Str(Upper(s))).Ok? == MonthToNumber(Str(s)).Ok?
    ensures MonthToNumber(Str(Upper(s))).Ok? ==> MonthToNumber(Str(Upper(s))).value == MonthToNumber(Str(s)).value
  {
    LowerUpper(s);
  }

  /** Full names and abbreviations parse, and a missing label is invalid. */
  lemma {:induction false} MonthExamples()
    ensures MonthToNumber(Str("januari")) == Ok(1)
    ensures MonthToNumber(Str("Jan")) == Ok(1)
    ensures MonthToNumber(Null) == Err(InvalidMonth)
  {
    LabelParses("januari", "januari", 1);
    JanuariParses();
  }

  /** A label outside the vocabulary is rejected with the label itself. */
  lemma {:induction false} RejectedLabels()
    ensures MonthToNumber(Str("Smarch")) == Err(UnknownMonth("Smarch"))
    ensures MonthToNumber(Str("Maa")) == Err(UnknownMonth("Maa"))
  {
    LowerExample("Smarch", "smarch");
    LowerExample("Maa", "maa");
  }

  lemma {:induction false} LowerExample(s: string, low: string)
    requires |s| == |low| > 0 && forall i :: 0 <= i < |s| ==> LowerChar(s[i]) == low[i]
    requires !IsSpace(low[0]) && !IsSpace(low[|low| - 1])
    ensures Strip(Lower(s)) == low
  {
    assert Lower(s) == low;
    StripClean(low);
  }

  /** A label in any letter case with surrounding whitespace parses. */
  lemma {:induction false} UpperJanuari()
    ensures MonthToNumber(Str(" JANUARI ")) == Ok(1)
  {
    LabelParses("JANUARI", "januari", 1);
    MonthIgnoresWhitespace(" ", "JANUARI", " ");
    assert " " + "JANUARI" + " " == " JANUARI ";
  }

  /** The three-letter abbreviations are accepted for every month but March,
      whose short form is "mrt" rather than "maa". */
  lemma {:induction false} Abbreviations(n: int)
    requires 1 <= n <= 12
    ensures n != 3 ==> MonthToNumber(Str(DutchMonthNames[n][..3])) == Ok(n)
    ensures MonthToNumber(Str("mrt")) == Ok(3)
  {
    MaartParses();
    if n <= 6 && n != 3 {
      AbbreviationsFirstHalf(n);
    } else if n > 6 {
      AbbreviationsSecondHalf(n);
    }
  }

  lemma {:induction false} AbbreviationsFirstHalf(n: int)
    requires n == 1 || n == 2 || n == 4 || n == 5 || n == 6
    ensures MonthToNumber(Str(DutchMonthNames[n][..3])) == Ok(n)
  {
    if n == 1 {
      assert DutchMonthNames[1][..3] == "Jan";
      JanuariParses();
    } else if n == 2 {
      assert DutchMonthNames[2][..3] == "Feb";
      FebruariParses();
    } else if n == 4 {
      assert DutchMonthNames[4][..3] == "Apr";
      AprilParses();
    } else if n == 5 {
      assert DutchMonthNames[5][..3] == "Mei";
      MeiParses();
    } else if n == 6 {
      assert DutchMonthNames[6][..3] == "Jun";
      JuniParses();
    }
  }

  lemma {:induction false} AbbreviationsSecondHalf(n: int)
    requires 7 <= n <= 12
    ensures MonthToNumber(Str(DutchMonthNames[n][..3])) == Ok(n)
  {
    if n == 7 {
      assert DutchMonthNames[7][..3] == "Jul";
      JuliParses();
    } else if n == 8 {
      assert DutchMonthNames[8][..3] == "Aug";
      AugustusParses();
    } else if n == 9 {
      assert DutchMonthNames[9][..3] == "Sep";
      SeptemberParses();
    } else if n == 10 {
      assert DutchMonthNames[10][..3] == "Okt";
      OktoberParses();
    } else if n == 11 {
      assert DutchMonthNames[11][..3] == "Nov";
      NovemberParses();
    } else if n == 12 {
      assert DutchMonthNames[12][..3] == "Dec";
      DecemberParses();
    }
  }

  /** `(m - 1) // 3 + 1`: the quarter a month falls in. */
  function QuarterOf(m: int): (q: int)
    requires 1 <= m <= 12
    ensures 1 <= q <= 4
    ensures 3 * (q - 1) < m <= 3 * q
  {
    (m - 1) / 3 + 1
  }

  /** The month key built from a year's text: `year + "-" + zfill(2) of the month`. */
  function MonthKeyOf(yearText: string, m: int): string
    requires 1 <= m <= 12
  {
    yearText + "-" + ZFill(NatToString(m), 2)
  }

  /** The quarter key built from a year's text: `year + "-Q" + quarter`. */
  function QuarterKeyOf(yearText: string, m: int): string
    requires 1 <= m <= 12
  {
    yearText + "-Q" + NatToString(QuarterOf(m))
  }

  /** The `YYYY-MM` key of an integer year and a month number. */
  function MonthKey(y: int, m: int): (key: string)
    requires 1 <= m <= 12
    ensures key == IntToString(y) + "-" + Fixed(m, 2)
    ensures ParseNat(key[|key| - 2..]) == m
  {
    ZFillTwo(m);
    var key := MonthKeyOf(IntToString(y), m);
    assert key[|key| - 2..] == Fixed(m, 2);
    FixedValue(m, 2);
    key
  }

  /** The `YYYY-QN` key of an integer year and a month number. */
  function QuarterKey(y: int, m: int): (key: string)
    requires 1 <= m <= 12
    ensures key == IntToString(y) + "-Q" + [DigitChar(QuarterOf(m))]
  {
    QuarterKeyOf(IntToString(y), m)
  }

  /** The value of the `w` fixed digits of a number is the number modulo 10^w. */
  lemma {:induction false} FixedValue(n: nat, w: nat)
    requires n < Pow10(w)
    ensures ParseNat(Fixed(n, w)) == n
    decreases w
  {
    if w > 0 {
      var s := Fixed(n, w);
      assert s[..|s| - 1] == Fixed(n / 10, w - 1);
      FixedValue(n / 10, w - 1);
    }
  }

  /** `get_quarter_from_month`: "Q" followed by the quarter of the label's month. */
  function QuarterOfLabel(cell: Cell): (r: Result<string>)
    ensures r.Ok? <==> MonthToNumber(cell).Ok?
    ensures r.Err? ==> r.error == MonthToNumber(cell).error
    ensures r.Ok? ==> r.value == "Q" + [DigitChar(QuarterOf(MonthToNumber(cell).value))]
  {
    var m :- MonthToNumber(cell);
    Ok("Q" + NatToString(QuarterOf(m)))
  }

  /** The quarter key ends in the label `get_quarter_from_month` gives for the
      same month: the key is the year, a dash and that label. */
  lemma {:induction false} QuarterKeySuffix(y: int, cell: Cell)
    requires MonthToNumber(cell).Ok?
    ensures QuarterKey(y, MonthToNumber(cell).value) == IntToString(y) + "-" + QuarterOfLabel(cell).value
  {
  }

  /** The month key and the quarter key built from one year text and month
      share that text as a prefix; the two digits after the dash read back as
      the month, and the digit after "-Q" is that month's quarter. */
  lemma {:induction false} KeysAgree(p: string, m: int)
    requires 1 <= m <= 12
    ensures var mk, qk := MonthKeyOf(p, m), QuarterKeyOf(p, m);
      && |mk| == |p| + 3 && |qk| == |p| + 3
      && mk[..|p|] == p && qk[..|p|] == p
      && mk[|p|] == '-' && qk[|p|..|p| + 2] == "-Q"
      && AllDigits(mk[|p| + 1..]) && IsDigit(qk[|p| + 2])
      && ParseNat(mk[|p| + 1..]) == m
      && DigitValue(qk[|p| + 2]) == QuarterOf(m)
  {
    ZFillTwo(m);
    FixedValue(m, 2);
    var mk := MonthKeyOf(p, m);
    assert mk[|p| + 1..] == Fixed(m, 2);
    var qk := QuarterKeyOf(p, m);
    assert NatToString(QuarterOf(m)) == [DigitChar(QuarterOf(m))];
    assert qk[|p| + 2] == DigitChar(QuarterOf(m));
  }

  /** Four-digit years render as their four fixed digits. */
  lemma {:induction false} FourDigitYear(y: int)
    requires 1000 <= y <= 9999
    ensures IntToString(y) == Fixed(y, 4)
  {
    assert Pow10(3) == 1000 && Pow10(4) == 10000;
    NatToStringIsFixed(y, 4);
  }

  /** For four-digit years, the string order of month keys is chronological
      order, and equal keys mean equal periods. */
  lemma {:induction false} MonthKeyOrder(y1: int, m1: int, y2: int, m2: int)
    requires 1000 <= y1 <= 9999 && 1000 <= y2 <= 9999 && 1 <= m1 <= 12 && 1 <= m2 <= 12
    ensures LexLess(MonthKey(y1, m1), MonthKey(y2, m2)) <==> y1 < y2 || (y1 == y2 && m1 < m2)
    ensures MonthKey(y1, m1) == MonthKey(y2, m2) <==> y1 == y2 && m1 == m2
  {
    FourDigitYear(y1);
    FourDigitYear(y2);
    FixedOrder(y1, y2, 4);
    FixedOrder(m1, m2, 2);
    var a, b := Fixed(y1, 4) + "-", Fixed(y2, 4) + "-";
    assert MonthKey(y1, m1) == a + Fixed(m1, 2);
    assert MonthKey(y2, m2) == b + Fixed(m2, 2);
    LexLessAppend(Fixed(y1, 4), Fixed(y2, 4), "-", "-");
    LexLessAppend(a, b, Fixed(m1, 2), Fixed(m2, 2));
    LexIrreflexive("-");
    assert a == b <==> Fixed(y1, 4) == Fixed(y2, 4) by {
      if a == b {
        assert a[..4] == Fixed(y1, 4) && b[..4] == Fixed(y2, 4);
      }
    }
    if MonthKey(y1, m1) == MonthKey(y2, m2) {
      assert a + Fixed(m1, 2) == b + Fixed(m2, 2);
      assert (a + Fixed(m1, 2))[..5] == a && (b + Fixed(m2, 2))[..5] == b;
      assert (a + Fixed(m1, 2))[5..] == Fixed(m1, 2) && (b + Fixed(m2, 2))[5..] == Fixed(m2, 2);
    }
  }

  /** For four-digit years, the string order of quarter keys is chronological
      order of (year, quarter). */
  lemma {:induction false} QuarterKeyOrder(y1: int, m1: int, y2: int, m2: int)
    requires 1000 <= y1 <= 9999 && 1000 <= y2 <= 9999 && 1 <= m1 <= 12 && 1 <= m2 <= 12
    ensures LexLess(QuarterKey(y1, m1), QuarterKey(y2, m2))
        <==> y1 < y2 || (y1 == y2 && QuarterOf(m1) < QuarterOf(m2))
  {
    FourDigitYear(y1);
    FourDigitYear(y2);
    FixedOrder(y1, y2, 4);
    var a, b := Fixed(y1, 4) + "-Q", Fixed(y2, 4) + "-Q";
    var c, d := [DigitChar(QuarterOf(m1))], [DigitChar(QuarterOf(m2))];
    assert QuarterKey(y1, m1) == a + c;
    assert QuarterKey(y2, m2) == b + d;
    LexLessAppend(Fixed(y1, 4), Fixed(y2, 4), "-Q", "-Q");
    LexLessAppend(a, b, c, d);
    LexIrreflexive("-Q");
    assert a == b <==> Fixed(y1, 4) == Fixed(y2, 4) by {
      if a == b {
        assert a[..4] == Fixed(y1, 4) && b[..4] == Fixed(y2, 4);
      }
    }
    assert LexLess(c, d) <==> QuarterOf(m1) < QuarterOf(m2) by {
      assert c[1..] == [] && d[1..] == [];
    }
  }

  /** The month key of a month before October 2023: "2023-0" and the digit. */
  lemma {:induction false} MonthKey2023(m: int)
    requires 1 <= m <= 9
    ensures MonthKey(2023, m) == "2023-0" + [DigitChar(m)]
  {
    FourDigitYear(2023);
    assert Fixed(2023, 4) == "2023";
    assert Fixed(m, 2) == Fixed(0, 1) + [DigitChar(m)];
    assert Fixed(0, 1) == [] + ['0'];
  }

  /** The month keys of the first three months of 2023. */
  lemma {:induction false} MonthKeys2023()
    ensures MonthKey(2023, 1) == "2023-01" && MonthKey(2023, 2) == "2023-02" && MonthKey(2023, 3) == "2023-03"
  {
    MonthKey2023(1);
    MonthKey2023(2);
    MonthKey2023(3);
    assert [DigitChar(1)] == "1" && [DigitChar(2)] == "2" && [DigitChar(3)] == "3";
  }

  /** The quarter keys of the first four months of 2023. */
  lemma {:induction false} QuarterKeys2023()
    ensures QuarterKey(2023, 1) == "2023-Q1" && QuarterKey(2023, 2) == "2023-Q1"
    ensures QuarterKey(2023, 3) == "2023-Q1" && QuarterKey(2023, 4) == "2023-Q2"
  {
    FourDigitYear(2023);
    assert Fixed(2023, 4) == "2023";
    assert [DigitChar(1)] == "1" && [DigitChar(2)] == "2";
  }

  /** Januari, Februari and Maart 2023 have the month keys "2023-01",
      "2023-02" and "2023-03". */
  lemma {:induction false} MonthKeyExample()
    ensures MonthToNumber(Str("Januari")).Ok? && MonthKey(2023, MonthToNumber(Str("Januari")).value) == "2023-01"
    ensures MonthToNumber(Str("Februari")).Ok? && MonthKey(2023, MonthToNumber(Str("Februari")).value) == "2023-02"
    ensures MonthToNumber(Str("Maart")).Ok? && MonthKey(2023, MonthToNumber(Str("Maart")).value) == "2023-03"
  {
    JanuariParses();
    FebruariParses();
    MaartParses();
    MonthKeys2023();
  }

  /** Januari, Februari and Maart 2023 all have quarter key "2023-Q1";
      April 2023 has "2023-Q2". */
  lemma {:induction false} QuarterKeyExamples()
    ensures MonthToNumber(Str("Januari")).Ok? && QuarterKey(2023, MonthToNumber(Str("Januari")).value) == "2023-Q1"
    ensures MonthToNumber(Str("Februari")).Ok? && QuarterKey(2023, MonthToNumber(Str("Februari")).value) == "2023-Q1"
    ensures MonthToNumber(Str("Maart")).Ok? && QuarterKey(2023, MonthToNumber(Str("Maart")).value) == "2023-Q1"
    ensures MonthToNumber(Str("April")).Ok? && QuarterKey(2023, MonthToNumber(Str("April")).value) == "2023-Q2"
  {
    JanuariParses();
    FebruariParses();
    MaartParses();
    AprilParses();
    QuarterKeys2023();
  }
}

=== FILE: permits.dfy ===
/** The building-permit statistics after loading: each row is standardised
    (its month label must parse and its first-of-month date must exist) and
    gains the three housing metrics the reports plot. Also the selection of
    provinces and the name a region's report is saved under. */
module Permits {
  import opened Results
  import opened Strings
  import opened Seqs
  import opened Grouping
  import opened Tables
  import opened PeriodKeys
  import opened DateUtils

  /** One row of the permit statistics as read: region, year, Dutch month
      label, the number of dwellings ("aantal woningen") and the number of
      buildings with a single dwelling ("aantal gebouwen met één woning"). */
  datatype RawRow = RawRow(regio: string, jaar: int, maand: string, woningen: int, eengezins: int)

  /** A prepared row: the raw identification, the quarter key added by the
      date standardisation, and the derived metrics houses, flats and all
      dwellings. */
  datatype PermitRow = PermitRow(regio: string, jaar: int, maand: string, kwartaal: string,
                                 huizen: int, flats: int, alle: int)

  /** The month label of every raw row, as a table cell. */
  function Labels(raws: seq<RawRow>): (cells: seq<Cell>)
    ensures |cells| == |raws| && forall i :: 0 <= i < |raws| ==> cells[i] == Str(raws[i].maand)
  {
    seq(|raws|, i requires 0 <= i < |raws| => Str(raws[i].maand))
  }

  /** The year of every raw row, as a table cell. */
  function Years(raws: seq<RawRow>): (cells: seq<Cell>)
    ensures |cells| == |raws| && forall i :: 0 <= i < |raws| ==> cells[i] == Int(raws[i].jaar)
  {
    seq(|raws|, i requires 0 <= i < |raws| => Int(raws[i].jaar))
  }

  /** A raw row survives standardisation: its label names a month and the
      first day of that month in its year is a valid timestamp. */
  predicate Accepted(raw: RawRow)
  {
    && MonthToNumber(Str(raw.maand)).Ok?
    && DateOf(IntToString(raw.jaar), MonthToNumber(Str(raw.maand)).value, 1).Ok?
  }

  /** `p` is the prepared form of `raw`. */
  predicate PreparedFrom(raw: RawRow, p: PermitRow)
  {
    && MonthToNumber(Str(raw.maand)).Ok?
    && p.regio == raw.regio && p.jaar == raw.jaar && p.maand == raw.maand
    && p.kwartaal == QuarterKey(raw.jaar, MonthToNumber(Str(raw.maand)).value)
    && p.huizen == raw.eengezins
    && p.flats == raw.woningen - raw.eengezins
    && p.alle == raw.woningen
  }

  /** What every prepared row satisfies: the quarter key is built from the
      row's own year, and houses and flats add up to all dwellings. */
  predicate Consistent(p: PermitRow)
  {
    && p.huizen + p.flats == p.alle
    && exists m :: 1 <= m <= 12 && p.kwartaal == QuarterKey(p.jaar, m)
  }

  function Derive(raw: RawRow, m: int): PermitRow
    requires 1 <= m <= 12
  {
    PermitRow(raw.regio, raw.jaar, raw.maand, QuarterKey(raw.jaar, m),
              raw.eengezins, raw.woningen - raw.eengezins, raw.woningen)
  }

  /** The derived metrics for every row, given each row's month number. */
  function DeriveAll(raws: seq<RawRow>, ms: seq<int>): (rows: seq<PermitRow>)
    requires |ms| == |raws|
    requires forall i :: 0 <= i < |raws| ==> 1 <= ms[i] <= 12 && MonthToNumber(Str(raws[i].maand)) == Ok(ms[i])
    ensures |rows| == |raws|
    ensures forall i :: 0 <= i < |raws| ==> PreparedFrom(raws[i], rows[i]) && Consistent(rows[i])
  {
    var rows := seq(|raws|, i requires 0 <= i < |raws| => Derive(raws[i], ms[i]));
    assert forall i :: 0 <= i < |raws| ==> rows[i].kwartaal == QuarterKey(rows[i].jaar, ms[i]);
    rows
  }

  /** Row `i` is the first raw row standardisation rejects. */
  predicate FirstRejected(raws: seq<RawRow>, i: int)
  {
    && 0 <= i < |raws|
    && !Accepted(raws[i])
    && forall j :: 0 <= j < i ==> Accepted(raws[j])
  }

  /** Once every label is known, the dates are valid exactly when every row
      is accepted, and a failure reports the first rejected row's date. */
  lemma {:induction false} DatesAccepted(raws: seq<RawRow>, ms: seq<int>)
    requires MonthNumbers(Labels(raws)) == Ok(ms)
    ensures RowDates(Years(raws), ms, 1).Ok? <==> forall i :: 0 <= i < |raws| ==> Accepted(raws[i])
    ensures RowDates(Years(raws), ms, 1).Err? ==>
              exists i :: FirstRejected(raws, i)
                          && RowDates(Years(raws), ms, 1).error == InvalidDate(DateInput(IntToString(raws[i].jaar), ms[i], 1))
  {
    var ys := Years(raws);
    forall i | 0 <= i < |raws|
      ensures Accepted(raws[i]) <==> DateOf(CellText(ys[i]), ms[i], 1).Ok?
      ensures CellText(ys[i]) == IntToString(raws[i].jaar)
    {
      AcceptedByDate(raws, ms, i);
    }
    var r := RowDates(ys, ms, 1);
    if r.Err? {
      var i :| FirstBadDate(ys, ms, 1, i) && r.error == InvalidDate(DateInput(CellText(ys[i]), ms[i], 1));
      assert FirstRejected(raws, i);
    }
  }

  /** With its label parsed to `ms[i]`, row `i` is accepted exactly when its
      date parses. */
  lemma {:induction false} AcceptedByDate(raws: seq<RawRow>, ms: seq<int>, i: int)
    requires MonthNumbers(Labels(raws)) == Ok(ms) && 0 <= i < |raws|
    ensures Accepted(raws[i]) <==> DateOf(CellText(Years(raws)[i]), ms[i], 1).Ok?
    ensures CellText(Years(raws)[i]) == IntToString(raws[i].jaar)
  {
    assert Labels(raws)[i] == Str(raws[i].maand);
  }

  /** Loading: standardise the dates, then add `aantal_huizen`,
      `aantal_flats` and `alle_woningen`. Standardisation parses every month
      label before it builds any date, so an unknown label is reported
      before an impossible date. */
  function Prepare(raws: seq<RawRow>): (r: Result<seq<PermitRow>>)
    ensures r.Ok? <==> forall i :: 0 <= i < |raws| ==> Accepted(raws[i])
    ensures MonthNumbers(Labels(raws)).Err? ==> r == Err(MonthNumbers(Labels(raws)).error)
    ensures MonthNumbers(Labels(raws)).Ok? && r.Err? ==>
              exists i :: FirstRejected(raws, i)
                          && r.error == InvalidDate(DateInput(IntToString(raws[i].jaar), MonthNumbers(Labels(raws)).value[i], 1))
    ensures r.Ok? ==> |r.value| == |raws| && forall i :: 0 <= i < |raws| ==> PreparedFrom(raws[i], r.value[i])
    ensures r.Ok? ==> forall i :: 0 <= i < |raws| ==> Consistent(r.value[i])
  {
    match MonthNumbers(Labels(raws))
    case Err(e) =>
      Err(e)
    case Ok(ms) =>
      DatesAccepted(raws, ms);
      match RowDates(Years(raws), ms, 1)
      case Err(e) => Err(e)
      case Ok(_) => Ok(DeriveAll(raws, ms))
  }

  /** The columns of the loaded CSV that the model reads. */
  const RawColumns := ["regio", "jaar", "maand", "aantal woningen", "aantal gebouwen met één woning"]

  /** A raw row as a table row. */
  function RawCells(raw: RawRow): Row
  {
    map["regio" := Str(raw.regio), "jaar" := Int(raw.jaar), "maand" := Str(raw.maand),
        "aantal woningen" := Int(raw.woningen), "aantal gebouwen met één woning" := Int(raw.eengezins)]
  }

  /** The raw rows as the table `load_and_prepare_data` reads. */
  function RawTable(raws: seq<RawRow>): (t: Table)
    ensures WellFormed(t) && |t.rows| == |raws| && t.columns == RawColumns
    ensures forall i :: 0 <= i < |raws| ==> t.rows[i] == RawCells(raws[i])
  {
    var t := Table(RawColumns, seq(|raws|, i requires 0 <= i < |raws| => RawCells(raws[i])));
    forall i | 0 <= i < |t.rows|
      ensures t.rows[i].Keys == set c | c in t.columns
    {
      assert t.rows[i].Keys == {"regio", "jaar", "maand", "aantal woningen", "aantal gebouwen met één woning"};
    }
    t
  }

  /** The year and label columns of the loaded table. */
  lemma {:induction false} RawTableColumns(raws: seq<RawRow>)
    ensures "jaar" in RawTable(raws).columns && "maand" in RawTable(raws).columns
    ensures Column(RawTable(raws), "jaar") == Ok(Years(raws)) && Column(RawTable(raws), "maand") == Ok(Labels(raws))
  {
    var t := RawTable(raws);
    assert "jaar" == RawColumns[1] && "maand" == RawColumns[2];
    assert Column(t, "jaar").value == Years(raws);
    assert Column(t, "maand").value == Labels(raws);
  }

  /** A standardised table row carries the region, year, label and quarter
      key of a prepared row. */
  predicate Matches(row: Row, p: PermitRow)
  {
    && "regio" in row && row["regio"] == Str(p.regio)
    && "jaar" in row && row["jaar"] == Int(p.jaar)
    && "maand" in row && row["maand"] == Str(p.maand)
    && "kwartaal" in row && row["kwartaal"] == Str(p.kwartaal)
  }

  /** Loading the typed rows agrees with standardising the loaded table:
      both succeed on the same input, and each prepared row carries the
      region, year and label of its table row and the quarter key that
      `standardize_date_columns` writes into `kwartaal`. */
  lemma {:induction false} PrepareIsStandardize(raws: seq<RawRow>)
    ensures Standardize(RawTable(raws), "jaar", "maand").Ok? <==> Prepare(raws).Ok?
    ensures Prepare(raws).Ok? ==>
              && |Standardize(RawTable(raws), "jaar", "maand").value.rows| == |raws|
              && forall i :: 0 <= i < |raws| ==>
                   Matches(Standardize(RawTable(raws), "jaar", "maand").value.rows[i], Prepare(raws).value[i])
  {
    var t := RawTable(raws);
    StandardizeSucceeds(t, "jaar", "maand");
    RawDates(raws);
    if Prepare(raws).Ok? {
      forall i | 0 <= i < |raws|
        ensures Matches(Standardize(t, "jaar", "maand").value.rows[i], Prepare(raws).value[i])
      {
        PreparedRowMatches(raws, i);
      }
    }
  }

  /** The dates of the loaded table are those the typed loading checks. */
  lemma {:induction false} RawDates(raws: seq<RawRow>)
    ensures CreateDates(RawTable(raws), "jaar", "maand", 1).Ok? <==> Prepare(raws).Ok?
  {
    RawTableColumns(raws);
    match MonthNumbers(Labels(raws))
    case Err(_) =>
    case Ok(ms) =>
      DatesAccepted(raws, ms);
  }

  lemma {:induction false} PreparedRowMatches(raws: seq<RawRow>, i: int)
    requires Prepare(raws).Ok? && 0 <= i < |raws|
    ensures Standardize(RawTable(raws), "jaar", "maand").Ok?
    ensures |Standardize(RawTable(raws), "jaar", "maand").value.rows| == |raws|
    ensures Matches(Standardize(RawTable(raws), "jaar", "maand").value.rows[i], Prepare(raws).value[i])
  {
    RawDates(raws);
    RowMatches(raws, i, Prepare(raws).value[i]);
  }

  lemma {:induction false} RowMatches(raws: seq<RawRow>, i: int, p: PermitRow)
    requires CreateDates(RawTable(raws), "jaar", "maand", 1).Ok? && 0 <= i < |raws|
    requires PreparedFrom(raws[i], p)
    ensures Standardize(RawTable(raws), "jaar", "maand").Ok?
    ensures |Standardize(RawTable(raws), "jaar", "maand").value.rows| == |raws|
    ensures Matches(Standardize(RawTable(raws), "jaar", "maand").value.rows[i], p)
  {
    RawCellsOf(raws[i]);
    TableRowMatches(RawTable(raws), i, p);
  }

  lemma {:induction false} RawCellsOf(raw: RawRow)
    ensures "regio" in RawCells(raw) && RawCells(raw)["regio"] == Str(raw.regio)
    ensures "jaar" in RawCells(raw) && RawCells(raw)["jaar"] == Int(raw.jaar)
    ensures "maand" in RawCells(raw) && RawCells(raw)["maand"] == Str(raw.maand)
  {
  }

  lemma {:induction false} TableRowMatches(t: Table, i: int, p: PermitRow)
    requires WellFormed(t) && CreateDates(t, "jaar", "maand", 1).Ok? && 0 <= i < |t.rows|
    requires "regio" in t.rows[i] && t.rows[i]["regio"] == Str(p.regio)
    requires t.rows[i]["jaar"] == Int(p.jaar) && t.rows[i]["maand"] == Str(p.maand)
    requires MonthToNumber(Str(p.maand)).Ok? && p.kwartaal == QuarterKey(p.jaar, MonthToNumber(Str(p.maand)).value)
    ensures Standardize(t, "jaar", "maand").Ok?
    ensures |Standardize(t, "jaar", "maand").value.rows| == |t.rows|
    ensures Matches(Standardize(t, "jaar", "maand").value.rows[i], p)
  {
    RawNotDerived();
    StandardizedRow(t, "jaar", "maand", i);
  }

  /** Standardisation writes none of the loaded columns. */
  lemma {:induction false} RawNotDerived()
    ensures "regio" !in Derived && "jaar" !in Derived && "maand" !in Derived
  {
    assert "regio"[0] == 'r' && "jaar"[0] == 'j' && "maand"[0] == 'm';
    assert "datum"[0] == 'd' && "periode"[0] == 'p' && "kwartaal"[0] == 'k' && "periode_display"[0] == 'p';
  }

  // ---------------------------------------------------------------------------
  // Provinces, regions and the report file name
  // ---------------------------------------------------------------------------

  predicate IsProvince(p: PermitRow)
  {
    StartsWith(p.regio, "PROVINCIE")
  }

  function Regio(p: PermitRow): string
  {
    p.regio
  }

  /** The provinces: the distinct regions whose name starts with "PROVINCIE",
      in ascending code-point order. */
  function Provinces(rows: seq<PermitRow>): (ps: seq<string>)
    ensures Increasing(ps, LexLess) && Distinct(ps)
    ensures forall name :: name in ps <==>
              StartsWith(name, "PROVINCIE") && exists i :: 0 <= i < |rows| && rows[i].regio == name
  {
    LexOrder();
    var provinceRows := Keep(rows, IsProvince);
    var ps := GroupKeys(provinceRows, Regio, LexLess);
    assert forall name :: name in ps ==> exists i :: 0 <= i < |provinceRows| && provinceRows[i].regio == name;
    assert forall i :: 0 <= i < |rows| && IsProvince(rows[i]) ==> rows[i] in provinceRows;
    ps
  }

  /** The three regions ("gewesten") a report is made for. */
  const Regions: seq<string> := ["VLAAMS GEWEST", "WAALS GEWEST", "BRUSSELS HOOFDSTEDELIJK GEWEST"]

  /** Every space and every slash of `c` turned into an underscore. */
  function SafeChar(c: char): char
  {
    if c == ' ' || c == '/' then '_' else c
  }

  /** The file a region's report is saved under: the name with spaces, then
      slashes, replaced by underscores, followed by "_rapport.html". */
  function ReportFileName(name: string): (f: string)
    ensures |f| == |name| + 13
    ensures forall i :: 0 <= i < |name| ==> f[i] == SafeChar(name[i])
    ensures f[|name|..] == "_rapport.html"
    ensures !Contains(f, ' ') && !Contains(f, '/')
  {
    SafeReplace(name);
    Replace(Replace(name, " ", "_"), "/", "_") + "_rapport.html"
  }

  /** The two replacements map every character through `SafeChar`. */
  lemma {:induction false} SafeReplace(name: string)
    ensures |Replace(Replace(name, " ", "_"), "/", "_")| == |name|
    ensures forall i :: 0 <= i < |name| ==> Replace(Replace(name, " ", "_"), "/", "_")[i] == SafeChar(name[i])
  {
    ReplaceChar(name, ' ', '_');
    ReplaceChar(Replace(name, " ", "_"), '/', '_');
  }

  /** Both a space and a slash become underscores. */
  lemma {:induction false} ReportFileNameExample()
    ensures ReportFileName("A/B C") == "A_B_C" + "_rapport.html"
  {
    var name := "A/B C";
    var f := ReportFileName(name);
    assert f[..5] == "A_B_C" by {
      assert f[1] == SafeChar(name[1]) && f[3] == SafeChar(name[3]);
    }
    assert f == f[..5] + f[5..];
  }
}

=== FILE: quarterly.dfy ===
/** The quarterly aggregates of a region's permits from 2015 on: the
    quarterly series of the three metrics, the (year, quarter) groups of all
    dwellings, the per-quarter lines across the years, and the year × quarter
    table with its zero-filled cells and yearly total. */
module Quarterly {
  import opened Results
  import opened Strings
  import opened Seqs
  import opened Grouping
  import opened PeriodKeys
  import opened Permits

  /** The reports only look at rows from this year on. */
  const FirstYear := 2015

  predicate Recent(p: PermitRow)
  {
    p.jaar >= FirstYear
  }

  function Kwartaal(p: PermitRow): string { p.kwartaal }
  function Huizen(p: PermitRow): int { p.huizen }
  function Flats(p: PermitRow): int { p.flats }
  function Alle(p: PermitRow): int { p.alle }

  // ---------------------------------------------------------------------------
  // The quarter number inside a key: the first match of the pattern Q(\d)
  // ---------------------------------------------------------------------------

  /** A 'Q' at `i` followed by a digit. */
  predicate QDigitAt(s: string, i: int)
  {
    0 <= i < |s| - 1 && s[i] == 'Q' && IsDigit(s[i + 1])
  }

  /** `str.extract(r'Q(\d)')`: the digit after the leftmost 'Q' that is
      followed by a digit, or nothing (NaN) when there is none. */
  function QuarterDigit(s: string): (r: Option<char>)
    ensures r.Some? <==> exists i :: QDigitAt(s, i)
    ensures r.Some? ==> exists i :: QDigitAt(s, i) && r.value == s[i + 1] && forall j :: 0 <= j < i ==> !QDigitAt(s, j)
    decreases |s|
  {
    if |s| < 2 then None
    else if s[0] == 'Q' && IsDigit(s[1]) then
      assert QDigitAt(s, 0);
      Some(s[1])
    else
      var r := QuarterDigit(s[1..]);
      assert forall i :: QDigitAt(s[1..], i) <==> QDigitAt(s, i + 1);
      assert !QDigitAt(s, 0);
      assert forall i :: QDigitAt(s, i) ==> i >= 1 && QDigitAt(s[1..], i - 1);
      r
  }

  /** A prefix without any 'Q' does not change the match. */
  lemma {:induction false} QuarterDigitSkip(a: string, b: string)
    requires forall i :: 0 <= i < |a| ==> a[i] != 'Q'
    ensures QuarterDigit(a + b) == QuarterDigit(b)
    decreases |a|
  {
    if |a| > 0 {
      assert (a + b)[1..] == a[1..] + b;
      QuarterDigitSkip(a[1..], b);
    } else {
      assert a + b == b;
    }
  }

  /** The quarter number read back from a quarter key is the key's quarter. */
  lemma {:induction false} QuarterDigitOfKey(y: int, m: int)
    requires 1 <= m <= 12
    ensures QuarterDigit(QuarterKey(y, m)) == Some(DigitChar(QuarterOf(m)))
  {
    var c := DigitChar(QuarterOf(m));
    var tail := "-Q" + [c];
    assert QuarterKey(y, m) == IntToString(y) + tail;
    QuarterDigitSkip(IntToString(y), tail);
    assert tail[1..] == "Q" + [c];
  }

  /** `k` is the quarter key of some month of year `y`. */
  predicate YearKey(y: int, k: string)
  {
    exists m :: 1 <= m <= 12 && k == QuarterKey(y, m)
  }

  /** Quarter keys of the same year that carry the same quarter number are
      the same key. */
  lemma {:induction false} SameQuarterSameKey(y: int, a: string, b: string)
    requires YearKey(y, a) && YearKey(y, b)
    requires QuarterDigit(a) == QuarterDigit(b)
    ensures a == b
  {
    var ma :| 1 <= ma <= 12 && a == QuarterKey(y, ma);
    var mb :| 1 <= mb <= 12 && b == QuarterKey(y, mb);
    QuarterDigitOfKey(y, ma);
    QuarterDigitOfKey(y, mb);
    assert DigitValue(DigitChar(QuarterOf(ma))) == QuarterOf(ma);
  }

  /** The quarter number of a consistent row is one of '1' to '4'. */
  lemma {:induction false} QuarterOfConsistent(p: PermitRow)
    requires Consistent(p)
    ensures QuarterDigit(p.kwartaal).Some? && '1' <= QuarterDigit(p.kwartaal).value <= '4'
  {
    var m :| 1 <= m <= 12 && p.kwartaal == QuarterKey(p.jaar, m);
    QuarterDigitOfKey(p.jaar, m);
  }

  // ---------------------------------------------------------------------------
  // The quarterly series
  // ---------------------------------------------------------------------------

  datatype QuarterPoint = QuarterPoint(kwartaal: string, huizen: int, flats: int, alle: int)

  function PointKey(q: QuarterPoint): string { q.kwartaal }
  function PointHuizen(q: QuarterPoint): int { q.huizen }
  function PointFlats(q: QuarterPoint): int { q.flats }
  function PointAlle(q: QuarterPoint): int { q.alle }

  /** The quarter keys of the points, in order. */
  function PointKeys(pts: seq<QuarterPoint>): (ks: seq<string>)
    ensures |ks| == |pts| && forall j :: 0 <= j < |pts| ==> ks[j] == pts[j].kwartaal
  {
    seq(|pts|, j requires 0 <= j < |pts| => pts[j].kwartaal)
  }

  /** The total of `val` over the rows from 2015 on whose quarter key is `k`. */
  function QuarterTotal(rows: seq<PermitRow>, k: string, val: PermitRow -> int): int
  {
    if |rows| == 0 then 0
    else (if Recent(rows[0]) && rows[0].kwartaal == k then val(rows[0]) else 0) + QuarterTotal(rows[1..], k, val)
  }

  lemma {:induction false} RecentQuarterTotal(rows: seq<PermitRow>, k: string, val: PermitRow -> int)
    ensures SumWhere(Keep(rows, Recent), Kwartaal, val, k) == QuarterTotal(rows, k, val)
  {
    if |rows| > 0 {
      RecentQuarterTotal(rows[1..], k, val);
      var rest := Keep(rows[1..], Recent);
      if Recent(rows[0]) {
        assert Keep(rows, Recent) == [rows[0]] + rest;
        assert ([rows[0]] + rest)[1..] == rest;
      } else {
        assert Keep(rows, Recent) == rest;
      }
    }
  }

  /** The quarterly chart's data: one point per quarter key occurring from
      2015 on, ascending by key, with the three metrics summed per quarter. */
  function QuarterlySeries(rows: seq<PermitRow>): (pts: seq<QuarterPoint>)
    ensures forall i, j :: 0 <= i < j < |pts| ==> LexLess(pts[i].kwartaal, pts[j].kwartaal)
    ensures forall i :: 0 <= i < |rows| && Recent(rows[i]) ==> rows[i].kwartaal in PointKeys(pts)
    ensures forall k :: k in PointKeys(pts) ==> exists i :: 0 <= i < |rows| && Recent(rows[i]) && rows[i].kwartaal == k
    ensures forall j :: 0 <= j < |pts| ==>
              && pts[j].huizen == QuarterTotal(rows, pts[j].kwartaal, Huizen)
              && pts[j].flats == QuarterTotal(rows, pts[j].kwartaal, Flats)
              && pts[j].alle == QuarterTotal(rows, pts[j].kwartaal, Alle)
  {
    LexOrder();
    var recent := Keep(rows, Recent);
    var ks := GroupKeys(recent, Kwartaal, LexLess);
    SeriesKeys(rows, recent, ks);
    SeriesTotals(rows, ks);
    SeriesOf(recent, ks)
  }

  lemma {:induction false} SeriesKeys(rows: seq<PermitRow>, recent: seq<PermitRow>, ks: seq<string>)
    requires recent == Keep(rows, Recent)
    requires forall i :: 0 <= i < |recent| ==> recent[i].kwartaal in ks
    requires forall k :: k in ks ==> exists i :: 0 <= i < |recent| && recent[i].kwartaal == k
    ensures forall i :: 0 <= i < |rows| && Recent(rows[i]) ==> rows[i].kwartaal in ks
    ensures forall k :: k in ks ==> exists i :: 0 <= i < |rows| && Recent(rows[i]) && rows[i].kwartaal == k
  {
    forall i | 0 <= i < |rows| && Recent(rows[i]) ensures rows[i].kwartaal in ks {
      assert rows[i] in recent;
    }
    forall k | k in ks ensures exists i :: 0 <= i < |rows| && Recent(rows[i]) && rows[i].kwartaal == k {
      var i :| 0 <= i < |recent| && recent[i].kwartaal == k;
      assert recent[i] in rows;
    }
  }

  lemma {:induction false} SeriesTotals(rows: seq<PermitRow>, ks: seq<string>)
    ensures forall k :: k in ks ==>
              && SumWhere(Keep(rows, Recent), Kwartaal, Huizen, k) == QuarterTotal(rows, k, Huizen)
              && SumWhere(Keep(rows, Recent), Kwartaal, Flats, k) == QuarterTotal(rows, k, Flats)
              && SumWhere(Keep(rows, Recent), Kwartaal, Alle, k) == QuarterTotal(rows, k, Alle)
  {
    forall k | k in ks
      ensures SumWhere(Keep(rows, Recent), Kwartaal, Huizen, k) == QuarterTotal(rows, k, Huizen)
      ensures SumWhere(Keep(rows, Recent), Kwartaal, Flats, k) == QuarterTotal(rows, k, Flats)
      ensures SumWhere(Keep(rows, Recent), Kwartaal, Alle, k) == QuarterTotal(rows, k, Alle)
    {
      RecentQuarterTotal(rows, k, Huizen);
      RecentQuarterTotal(rows, k, Flats);
      RecentQuarterTotal(rows, k, Alle);
    }
  }

  /** The aggregated frame: one point per key, carrying its group totals. */
  function SeriesOf(recent: seq<PermitRow>, ks: seq<string>): (pts: seq<QuarterPoint>)
    ensures |pts| == |ks|
    ensures forall i :: 0 <= i < |ks| ==> pts[i] == QuarterPoint(ks[i], SumWhere(recent, Kwartaal, Huizen, ks[i]),
                                                                  SumWhere(recent, Kwartaal, Flats, ks[i]),
                                                                  SumWhere(recent, Kwartaal, Alle, ks[i]))
    ensures PointKeys(pts) == ks
    ensures TotalsOf(pts, PointKey, PointHuizen, recent, Kwartaal, Huizen, ks)
    ensures TotalsOf(pts, PointKey, PointFlats, recent, Kwartaal, Flats, ks)
    ensures TotalsOf(pts, PointKey, PointAlle, recent, Kwartaal, Alle, ks)
  {
    seq(|ks|, i requires 0 <= i < |ks| =>
      QuarterPoint(ks[i], SumWhere(recent, Kwartaal, Huizen, ks[i]), SumWhere(recent, Kwartaal, Flats, ks[i]),
                   SumWhere(recent, Kwartaal, Alle, ks[i])))
  }

  /** Conservation: each metric summed over the quarterly points equals the
      metric summed over the rows from 2015 on. */
  lemma {:induction false} QuarterlyConservation(rows: seq<PermitRow>)
    ensures SumBy(QuarterlySeries(rows), PointHuizen) == SumBy(Keep(rows, Recent), Huizen)
    ensures SumBy(QuarterlySeries(rows), PointFlats) == SumBy(Keep(rows, Recent), Flats)
    ensures SumBy(QuarterlySeries(rows), PointAlle) == SumBy(Keep(rows, Recent), Alle)
  {
    LexOrder();
    var recent := Keep(rows, Recent);
    var ks := GroupKeys(recent, Kwartaal, LexLess);
    var pts := QuarterlySeries(rows);
    assert pts == SeriesOf(recent, ks);
    Conserved(pts, PointHuizen, recent, Huizen);
    Conserved(pts, PointFlats, recent, Flats);
    Conserved(pts, PointAlle, recent, Alle);
  }

  lemma {:induction false} Conserved(pts: seq<QuarterPoint>, pval: QuarterPoint -> int, recent: seq<PermitRow>, val: PermitRow -> int)
    requires StrictTotalOrder(LexLess)
    requires TotalsOf(pts, PointKey, pval, recent, Kwartaal, val, GroupKeys(recent, Kwartaal, LexLess))
    ensures SumBy(pts, pval) == SumBy(recent, val)
  {
    GroupTotals(pts, PointKey, pval, recent, Kwartaal, val, LexLess, AnyKey);
    SelectAll(pts, PointKey, pval, AnyKey);
    SelectAll(recent, Kwartaal, val, AnyKey);
  }

  // ---------------------------------------------------------------------------
  // Groups by (year, quarter key)
  // ---------------------------------------------------------------------------

  /** One group of the (jaar, kwartaal) groupby, with its total of all dwellings. */
  datatype YearQuarterGroup = YearQuarterGroup(jaar: int, kwartaal: string, alle: int)

  function YearQuarter(p: PermitRow): (int, string) { (p.jaar, p.kwartaal) }
  function GroupKey(g: YearQuarterGroup): (int, string) { (g.jaar, g.kwartaal) }
  function GroupAlle(g: YearQuarterGroup): int { g.alle }
  function GroupYear(g: YearQuarterGroup): int { g.jaar }

  /** The `quarter_num` column: the quarter number read back from the key. */
  function QuarterNum(g: YearQuarterGroup): Option<char>
  {
    QuarterDigit(g.kwartaal)
  }

  /** The (year, quarter key) of every group, in order. */
  function GroupKeysOf(gs: seq<YearQuarterGroup>): (ks: seq<(int, string)>)
    ensures |ks| == |gs| && forall j :: 0 <= j < |gs| ==> ks[j] == (gs[j].jaar, gs[j].kwartaal)
  {
    seq(|gs|, j requires 0 <= j < |gs| => (gs[j].jaar, gs[j].kwartaal))
  }

  /** The total of all dwellings over the rows from 2015 on in year `y` with
      quarter key `k`. */
  function YearQuarterTotal(rows: seq<PermitRow>, y: int, k: string): int
  {
    if |rows| == 0 then 0
    else (if Recent(rows[0]) && rows[0].jaar == y && rows[0].kwartaal == k then rows[0].alle else 0)
         + YearQuarterTotal(rows[1..], y, k)
  }

  lemma {:induction false} RecentYearQuarterTotal(rows: seq<PermitRow>, y: int, k: string)
    ensures SumWhere(Keep(rows, Recent), YearQuarter, Alle, (y, k)) == YearQuarterTotal(rows, y, k)
  {
    if |rows| > 0 {
      RecentYearQuarterTotal(rows[1..], y, k);
      var rest := Keep(rows[1..], Recent);
      if Recent(rows[0]) {
        assert Keep(rows, Recent) == [rows[0]] + rest;
        assert ([rows[0]] + rest)[1..] == rest;
      } else {
        assert Keep(rows, Recent) == rest;
      }
    }
  }

  /** The data of the per-quarter chart and of the quarterly table: the
      rows from 2015 on grouped by (year, quarter key), ascending by year and
      then by key, with all dwellings summed per group. */
  function YearQuarterGroups(rows: seq<PermitRow>): (gs: seq<YearQuarterGroup>)
    ensures forall i, j :: 0 <= i < j < |gs| ==> YearTextLess((gs[i].jaar, gs[i].kwartaal), (gs[j].jaar, gs[j].kwartaal))
    ensures forall i :: 0 <= i < |rows| && Recent(rows[i]) ==> (rows[i].jaar, rows[i].kwartaal) in GroupKeysOf(gs)
    ensures forall k :: k in GroupKeysOf(gs) ==>
              exists i :: 0 <= i < |rows| && Recent(rows[i]) && (rows[i].jaar, rows[i].kwartaal) == k
    ensures forall j :: 0 <= j < |gs| ==> gs[j].alle == YearQuarterTotal(rows, gs[j].jaar, gs[j].kwartaal)
  {
    YearTextOrder();
    var recent := Keep(rows, Recent);
    var ks := GroupKeys(recent, YearQuarter, YearTextLess);
    GroupsKeys(rows, recent, ks);
    GroupsTotals(rows, ks);
    GroupsOf(recent, ks)
  }

  lemma {:induction false} GroupsKeys(rows: seq<PermitRow>, recent: seq<PermitRow>, ks: seq<(int, string)>)
    requires recent == Keep(rows, Recent)
    requires forall i :: 0 <= i < |recent| ==> (recent[i].jaar, recent[i].kwartaal) in ks
    requires forall k :: k in ks ==> exists i :: 0 <= i < |recent| && (recent[i].jaar, recent[i].kwartaal) == k
    ensures forall i :: 0 <= i < |rows| && Recent(rows[i]) ==> (rows[i].jaar, rows[i].kwartaal) in ks
    ensures forall k :: k in ks ==> exists i :: 0 <= i < |rows| && Recent(rows[i]) && (rows[i].jaar, rows[i].kwartaal) == k
  {
    forall i | 0 <= i < |rows| && Recent(rows[i]) ensures (rows[i].jaar, rows[i].kwartaal) in ks {
      assert rows[i] in recent;
    }
    forall k | k in ks ensures exists i :: 0 <= i < |rows| && Recent(rows[i]) && (rows[i].jaar, rows[i].kwartaal) == k {
      var i :| 0 <= i < |recent| && (recent[i].jaar, recent[i].kwartaal) == k;
      assert recent[i] in rows;
    }
  }

  lemma {:induction false} GroupsTotals(rows: seq<PermitRow>, ks: seq<(int, string)>)
    ensures forall k :: k in ks ==> SumWhere(Keep(rows, Recent), YearQuarter, Alle, k) == YearQuarterTotal(rows, k.0, k.1)
  {
    forall k | k in ks
      ensures SumWhere(Keep(rows, Recent), YearQuarter, Alle, k) == YearQuarterTotal(rows, k.0, k.1)
    {
      RecentYearQuarterTotal(rows, k.0, k.1);
    }
  }

  /** The aggregated frame of the (year, quarter key) groupby. */
  function GroupsOf(recent: seq<PermitRow>, ks: seq<(int, string)>): (gs: seq<YearQuarterGroup>)
    ensures |gs| == |ks|
    ensures forall i :: 0 <= i < |ks| ==> gs[i] == YearQuarterGroup(ks[i].0, ks[i].1, SumWhere(recent, YearQuarter, Alle, ks[i]))
    ensures GroupKeysOf(gs) == ks
    ensures TotalsOf(gs, GroupKey, GroupAlle, recent, YearQuarter, Alle, ks)
  {
    seq(|ks|, i requires 0 <= i < |ks| => YearQuarterGroup(ks[i].0, ks[i].1, SumWhere(recent, YearQuarter, Alle, ks[i])))
  }

  // ---------------------------------------------------------------------------
  // The year × quarter table
  // ---------------------------------------------------------------------------

  /** One row of the quarterly table: a year, its four quarter cells and
      their total. */
  datatype PivotRow = PivotRow(jaar: int, q1: int, q2: int, q3: int, q4: int, totaal: int)

  /** The cell of quarter number `d` in a table row. */
  function QuarterCell(r: PivotRow, d: char): int
  {
    if d == '1' then r.q1 else if d == '2' then r.q2 else if d == '3' then r.q3 else if d == '4' then r.q4 else 0
  }

  /** The group lands in the table cell of year `y`, quarter number `d`. */
  predicate InCell(g: YearQuarterGroup, y: int, d: char)
  {
    g.jaar == y && QuarterNum(g) == Some(d)
  }

  /** Two groups would land in the same cell: `pivot` refuses such input. */
  predicate Clash(gs: seq<YearQuarterGroup>)
  {
    exists i, j :: 0 <= i < j < |gs| && gs[i].jaar == gs[j].jaar && QuarterNum(gs[i]) == QuarterNum(gs[j])
  }

  /** The sum of the groups in one cell. */
  function CellSum(gs: seq<YearQuarterGroup>, y: int, d: char): int
  {
    if |gs| == 0 then 0
    else (if InCell(gs[0], y, d) then gs[0].alle else 0) + CellSum(gs[1..], y, d)
  }

  /** Without a clash, a cell holds the one group that lands in it... */
  lemma {:induction false} CellSumOne(gs: seq<YearQuarterGroup>, y: int, d: char, j: int)
    requires !Clash(gs) && 0 <= j < |gs| && InCell(gs[j], y, d)
    ensures CellSum(gs, y, d) == gs[j].alle
  {
    if j == 0 {
      CellSumNone(gs[1..], y, d);
    } else {
      assert !InCell(gs[0], y, d) by {
        assert !(gs[0].jaar == gs[j].jaar && QuarterNum(gs[0]) == QuarterNum(gs[j]));
      }
      assert !Clash(gs[1..]);
      CellSumOne(gs[1..], y, d, j - 1);
    }
  }

  /** ...and zero (pandas' `fillna(0)`) when no group lands in it. */
  lemma {:induction false} CellSumNone(gs: seq<YearQuarterGroup>, y: int, d: char)
    requires forall j :: 0 <= j < |gs| ==> !InCell(gs[j], y, d)
    ensures CellSum(gs, y, d) == 0
  {
    if |gs| > 0 {
      CellSumNone(gs[1..], y, d);
    }
  }

  function RowOf(gs: seq<YearQuarterGroup>, y: int): PivotRow
  {
    var q1, q2, q3, q4 := CellSum(gs, y, '1'), CellSum(gs, y, '2'), CellSum(gs, y, '3'), CellSum(gs, y, '4');
    PivotRow(y, q1, q2, q3, q4, q1 + q2 + q3 + q4)
  }

  /** The years of the table's rows, in order. */
  function RowYears(t: seq<PivotRow>): (ys: seq<int>)
    ensures |ys| == |t| && forall i :: 0 <= i < |t| ==> ys[i] == t[i].jaar
  {
    seq(|t|, i requires 0 <= i < |t| => t[i].jaar)
  }

  function TableOf(gs: seq<YearQuarterGroup>, ys: seq<int>): (t: seq<PivotRow>)
    ensures |t| == |ys| && forall i :: 0 <= i < |ys| ==> t[i] == RowOf(gs, ys[i])
    ensures RowYears(t) == ys
  {
    seq(|ys|, i requires 0 <= i < |ys| => RowOf(gs, ys[i]))
  }

  /** The quarterly table: `pivot(index='jaar', columns='quarter_num')`,
      missing cells and missing quarter columns set to 0, columns reduced to
      quarters 1 to 4, a `Totaal` column, rows by ascending year. Two groups
      in one cell make `pivot` fail. */
  function Pivot(gs: seq<YearQuarterGroup>): (r: Result<seq<PivotRow>>)
    ensures r.Err? <==> Clash(gs)
    ensures r.Err? ==> r.error == DuplicateEntries
    ensures r.Ok? ==> forall i, j :: 0 <= i < j < |r.value| ==> r.value[i].jaar < r.value[j].jaar
    ensures r.Ok? ==> forall j :: 0 <= j < |gs| ==> gs[j].jaar in RowYears(r.value)
    ensures r.Ok? ==> forall y :: y in RowYears(r.value) ==> exists j :: 0 <= j < |gs| && gs[j].jaar == y
    ensures r.Ok? ==> forall i, j, d :: 0 <= i < |r.value| && 0 <= j < |gs| && '1' <= d <= '4' && InCell(gs[j], r.value[i].jaar, d) ==>
              QuarterCell(r.value[i], d) == gs[j].alle
    ensures r.Ok? ==> forall i, d :: 0 <= i < |r.value| && (forall j :: 0 <= j < |gs| ==> !InCell(gs[j], r.value[i].jaar, d)) ==>
              QuarterCell(r.value[i], d) == 0
    ensures r.Ok? ==> forall i :: 0 <= i < |r.value| ==>
              r.value[i].totaal == r.value[i].q1 + r.value[i].q2 + r.value[i].q3 + r.value[i].q4
  {
    if Clash(gs) then Err(DuplicateEntries)
    else
      IntOrder();
      var ys := GroupKeys(gs, GroupYear, IntLess);
      var t := TableOf(gs, ys);
      PivotCells(gs, ys, t);
      Ok(t)
  }

  lemma {:induction false} PivotCells(gs: seq<YearQuarterGroup>, ys: seq<int>, t: seq<PivotRow>)
    requires !Clash(gs) && t == TableOf(gs, ys)
    ensures forall i, j, d :: 0 <= i < |t| && 0 <= j < |gs| && '1' <= d <= '4' && InCell(gs[j], t[i].jaar, d) ==> QuarterCell(t[i], d) == gs[j].alle
    ensures forall i, d :: 0 <= i < |t| && (forall j :: 0 <= j < |gs| ==> !InCell(gs[j], t[i].jaar, d)) ==> QuarterCell(t[i], d) == 0
  {
    forall i, j, d | 0 <= i < |t| && 0 <= j < |gs| && '1' <= d <= '4' && InCell(gs[j], t[i].jaar, d)
      ensures QuarterCell(t[i], d) == gs[j].alle
    {
      CellSumOne(gs, t[i].jaar, d, j);
    }
    forall i, d | 0 <= i < |t| && (forall j :: 0 <= j < |gs| ==> !InCell(gs[j], t[i].jaar, d))
      ensures QuarterCell(t[i], d) == 0
    {
      CellSumNone(gs, t[i].jaar, d);
    }
  }

  // ---------------------------------------------------------------------------
  // The table and the per-quarter lines of a region's rows
  // ---------------------------------------------------------------------------

  /** The group keys that land in the cell of year `y`, quarter number `d`. */
  function CellSel(y: int, d: char): ((int, string)) -> bool
  {
    (k: (int, string)) => k.0 == y && QuarterDigit(k.1) == Some(d)
  }

  /** The contribution of one row to the cell of year `y`, quarter number `d`. */
  function CellPart(p: PermitRow, y: int, d: char): int
  {
    if Recent(p) && p.jaar == y && QuarterDigit(p.kwartaal) == Some(d) then p.alle else 0
  }

  /** The contribution of one row to the total of year `y`. */
  function YearPart(p: PermitRow, y: int): int
  {
    if Recent(p) && p.jaar == y then p.alle else 0
  }

  /** The total of all dwellings over the rows from 2015 on in year `y`
      whose quarter key carries quarter number `d`. */
  function CellTotal(rows: seq<PermitRow>, y: int, d: char): int
  {
    if |rows| == 0 then 0 else CellPart(rows[0], y, d) + CellTotal(rows[1..], y, d)
  }

  /** The total of all dwellings over the rows from 2015 on in year `y`. */
  function YearTotal(rows: seq<PermitRow>, y: int): int
  {
    if |rows| == 0 then 0 else YearPart(rows[0], y) + YearTotal(rows[1..], y)
  }

  lemma {:induction false} CellSumSelected(gs: seq<YearQuarterGroup>, y: int, d: char)
    ensures CellSum(gs, y, d) == SumSelected(gs, GroupKey, GroupAlle, CellSel(y, d))
  {
    if |gs| > 0 {
      CellSumSelected(gs[1..], y, d);
    }
  }

  lemma {:induction false} RecentCellTotal(rows: seq<PermitRow>, y: int, d: char)
    ensures SumSelected(Keep(rows, Recent), YearQuarter, Alle, CellSel(y, d)) == CellTotal(rows, y, d)
  {
    if |rows| > 0 {
      RecentCellTotal(rows[1..], y, d);
      var rest := Keep(rows[1..], Recent);
      if Recent(rows[0]) {
        assert Keep(rows, Recent) == [rows[0]] + rest;
        assert ([rows[0]] + rest)[1..] == rest;
      } else {
        assert Keep(rows, Recent) == rest;
      }
    }
  }

  /** A table cell computed through the groups is the direct total over the
      rows: grouping by (year, key) first loses nothing. */
  lemma {:induction false} CellFromRows(rows: seq<PermitRow>, y: int, d: char)
    ensures CellSum(YearQuarterGroups(rows), y, d) == CellTotal(rows, y, d)
  {
    YearTextOrder();
    var recent := Keep(rows, Recent);
    var ks := GroupKeys(recent, YearQuarter, YearTextLess);
    var gs := YearQuarterGroups(rows);
    assert gs == GroupsOf(recent, ks);
    CellSumSelected(gs, y, d);
    GroupTotals(gs, GroupKey, GroupAlle, recent, YearQuarter, Alle, YearTextLess, CellSel(y, d));
    RecentCellTotal(rows, y, d);
  }

  /** A prepared row counts towards exactly one quarter of its year. */
  lemma {:induction false} PartSplit(p: PermitRow, y: int)
    requires Consistent(p)
    ensures YearPart(p, y) == CellPart(p, y, '1') + CellPart(p, y, '2') + CellPart(p, y, '3') + CellPart(p, y, '4')
  {
    QuarterOfConsistent(p);
  }

  /** For prepared rows a year's total is the sum of its four quarter totals. */
  lemma {:induction false} YearSplit(rows: seq<PermitRow>, y: int)
    requires forall i :: 0 <= i < |rows| ==> Consistent(rows[i])
    ensures YearTotal(rows, y)
         == CellTotal(rows, y, '1') + CellTotal(rows, y, '2') + CellTotal(rows, y, '3') + CellTotal(rows, y, '4')
  {
    if |rows| > 0 {
      PartSplit(rows[0], y);
      YearSplit(rows[1..], y);
    }
  }

  /** Every group of prepared rows is keyed by a quarter key of its own year. */
  lemma {:induction false} GroupYearKeys(rows: seq<PermitRow>)
    requires forall i :: 0 <= i < |rows| ==> Consistent(rows[i])
    ensures var gs := YearQuarterGroups(rows);
            forall j :: 0 <= j < |gs| ==> YearKey(gs[j].jaar, gs[j].kwartaal)
  {
    var gs := YearQuarterGroups(rows);
    var ks := GroupKeysOf(gs);
    forall j | 0 <= j < |gs| ensures YearKey(gs[j].jaar, gs[j].kwartaal) {
      assert ks[j] in ks;
      var i :| 0 <= i < |rows| && Recent(rows[i]) && (rows[i].jaar, rows[i].kwartaal) == ks[j];
      assert Consistent(rows[i]);
    }
  }

  /** The key of a prepared row embeds its year, so no two groups of
      prepared rows share a cell and the pivot cannot fail. */
  lemma {:induction false} NoClash(rows: seq<PermitRow>)
    requires forall i :: 0 <= i < |rows| ==> Consistent(rows[i])
    ensures !Clash(YearQuarterGroups(rows))
  {
    var gs := YearQuarterGroups(rows);
    GroupYearKeys(rows);
    if Clash(gs) {
      var a, b :| 0 <= a < b < |gs| && gs[a].jaar == gs[b].jaar && QuarterNum(gs[a]) == QuarterNum(gs[b]);
      SameQuarterSameKey(gs[a].jaar, gs[a].kwartaal, gs[b].kwartaal);
      LexIrreflexive(gs[a].kwartaal);
      assert false;
    }
  }

  /** The quarterly table of a region's rows. */
  function QuarterTable(rows: seq<PermitRow>): Result<seq<PivotRow>>
  {
    Pivot(YearQuarterGroups(rows))
  }

  /** For prepared rows the table exists; it has one row per year that
      occurs from 2015 on, ascending; each quarter cell is that quarter's
      total of all dwellings (0 when the quarter has no rows) and `Totaal` is
      the year's total. */
  lemma {:induction false} QuarterTableOfPrepared(rows: seq<PermitRow>)
    requires forall i :: 0 <= i < |rows| ==> Consistent(rows[i])
    ensures QuarterTable(rows).Ok?
    ensures var t := QuarterTable(rows).value;
            forall i, j :: 0 <= i < j < |t| ==> t[i].jaar < t[j].jaar
    ensures var t := QuarterTable(rows).value;
            forall i, d :: 0 <= i < |t| && '1' <= d <= '4' ==> QuarterCell(t[i], d) == CellTotal(rows, t[i].jaar, d)
    ensures var t := QuarterTable(rows).value;
            forall i :: 0 <= i < |t| ==> t[i].totaal == YearTotal(rows, t[i].jaar)
    ensures var t := QuarterTable(rows).value;
            forall i :: 0 <= i < |rows| && Recent(rows[i]) ==> rows[i].jaar in RowYears(t)
    ensures var t := QuarterTable(rows).value;
            forall y :: y in RowYears(t) ==> exists i :: 0 <= i < |rows| && Recent(rows[i]) && rows[i].jaar == y
  {
    NoClash(rows);
    var gs := YearQuarterGroups(rows);
    var t := QuarterTable(rows).value;
    TableCells(rows, t);
    TableYears(rows, gs, t);
  }

  lemma {:induction false} TableCells(rows: seq<PermitRow>, t: seq<PivotRow>)
    requires forall i :: 0 <= i < |rows| ==> Consistent(rows[i])
    requires QuarterTable(rows) == Ok(t)
    ensures forall i, d :: 0 <= i < |t| && '1' <= d <= '4' ==> QuarterCell(t[i], d) == CellTotal(rows, t[i].jaar, d)
    ensures forall i :: 0 <= i < |t| ==> t[i].totaal == YearTotal(rows, t[i].jaar)
  {
    var gs := YearQuarterGroups(rows);
    IntOrder();
    assert t == TableOf(gs, GroupKeys(gs, GroupYear, IntLess));
    forall i | 0 <= i < |t|
      ensures forall d :: '1' <= d <= '4' ==> QuarterCell(t[i], d) == CellTotal(rows, t[i].jaar, d)
      ensures t[i].totaal == YearTotal(rows, t[i].jaar)
    {
      RowFromRows(rows, t[i].jaar);
    }
  }

  /** One table row of prepared rows: each cell is the quarter's total and
      `Totaal` the year's. */
  lemma {:induction false} RowFromRows(rows: seq<PermitRow>, y: int)
    requires forall i :: 0 <= i < |rows| ==> Consistent(rows[i])
    ensures forall d :: '1' <= d <= '4' ==> QuarterCell(RowOf(YearQuarterGroups(rows), y), d) == CellTotal(rows, y, d)
    ensures RowOf(YearQuarterGroups(rows), y).totaal == YearTotal(rows, y)
  {
    var gs := YearQuarterGroups(rows);
    var r := RowOf(gs, y);
    CellFromRows(rows, y, '1');
    CellFromRows(rows, y, '2');
    CellFromRows(rows, y, '3');
    CellFromRows(rows, y, '4');
    assert r.q1 == CellTotal(rows, y, '1') && r.q2 == CellTotal(rows, y, '2');
    assert r.q3 == CellTotal(rows, y, '3') && r.q4 == CellTotal(rows, y, '4');
    forall d | '1' <= d <= '4' ensures QuarterCell(r, d) == CellTotal(rows, y, d) {
      assert d == '1' || d == '2' || d == '3' || d == '4';
    }
    YearSplit(rows, y);
  }

  lemma {:induction false} TableYears(rows: seq<PermitRow>, gs: seq<YearQuarterGroup>, t: seq<PivotRow>)
    requires gs == YearQuarterGroups(rows) && Pivot(gs) == Ok(t)
    ensures forall i :: 0 <= i < |rows| && Recent(rows[i]) ==> rows[i].jaar in RowYears(t)
    ensures forall y :: y in RowYears(t) ==> exists i :: 0 <= i < |rows| && Recent(rows[i]) && rows[i].jaar == y
  {
    var ks := GroupKeysOf(gs);
    forall i | 0 <= i < |rows| && Recent(rows[i]) ensures rows[i].jaar in RowYears(t) {
      var j :| 0 <= j < |ks| && ks[j] == (rows[i].jaar, rows[i].kwartaal);
      assert gs[j].jaar == rows[i].jaar;
    }
    forall y | y in RowYears(t) ensures exists i :: 0 <= i < |rows| && Recent(rows[i]) && rows[i].jaar == y {
      var j :| 0 <= j < |gs| && gs[j].jaar == y;
      assert ks[j] in ks;
    }
  }

  /** The groups of quarter number `d`. */
  function OfQuarter(d: char): YearQuarterGroup -> bool
  {
    g => QuarterNum(g) == Some(d)
  }

  /** One line of the per-quarter chart: a quarter number and its groups,
      one point per year. */
  datatype QuarterLine = QuarterLine(quarter: char, points: seq<YearQuarterGroup>)

  /** The points of quarter number `d`, in the groups' order. */
  function LinePoints(gs: seq<YearQuarterGroup>, d: char): (pts: seq<YearQuarterGroup>)
    ensures forall i :: 0 <= i < |pts| ==> pts[i] in gs && QuarterNum(pts[i]) == Some(d)
    ensures forall j :: 0 <= j < |gs| && QuarterNum(gs[j]) == Some(d) ==> gs[j] in pts
  {
    Keep(gs, OfQuarter(d))
  }

  predicate HasPoints(l: QuarterLine)
  {
    |l.points| > 0
  }

  predicate QuarterBefore(a: QuarterLine, b: QuarterLine)
  {
    a.quarter < b.quarter
  }

  /** The candidate line of quarter number `d`. */
  function LineOf(gs: seq<YearQuarterGroup>, d: char): QuarterLine
  {
    QuarterLine(d, LinePoints(gs, d))
  }

  function AllLines(gs: seq<YearQuarterGroup>): seq<QuarterLine>
  {
    [LineOf(gs, '1'), LineOf(gs, '2'), LineOf(gs, '3'), LineOf(gs, '4')]
  }

  lemma {:induction false} LinesKept(gs: seq<YearQuarterGroup>)
    ensures var lines := Keep(AllLines(gs), HasPoints);
            forall i :: 0 <= i < |lines| ==>
              && '1' <= lines[i].quarter <= '4' && |lines[i].points| > 0
              && lines[i] == LineOf(gs, lines[i].quarter)
    ensures var lines := Keep(AllLines(gs), HasPoints);
            forall i, j :: 0 <= i < j < |lines| ==> lines[i].quarter < lines[j].quarter
    ensures var lines := Keep(AllLines(gs), HasPoints);
            forall d :: '1' <= d <= '4' && |LinePoints(gs, d)| > 0 ==> LineOf(gs, d) in lines
  {
    var all := AllLines(gs);
    KeepOrdered(all, HasPoints, QuarterBefore);
    forall l | l in all ensures '1' <= l.quarter <= '4' && l == LineOf(gs, l.quarter) {
      LineFromAll(gs, l);
    }
    forall d | '1' <= d <= '4' ensures LineOf(gs, d) in all {
      AllFromLine(gs, d);
    }
  }

  lemma {:induction false} LineFromAll(gs: seq<YearQuarterGroup>, l: QuarterLine)
    requires l in AllLines(gs)
    ensures '1' <= l.quarter <= '4' && l == LineOf(gs, l.quarter)
  {
  }

  lemma {:induction false} AllFromLine(gs: seq<YearQuarterGroup>, d: char)
    requires '1' <= d <= '4'
    ensures LineOf(gs, d) in AllLines(gs)
  {
    var all := AllLines(gs);
    if d == '1' { assert all[0] == LineOf(gs, d); }
    else if d == '2' { assert all[1] == LineOf(gs, d); }
    else if d == '3' { assert all[2] == LineOf(gs, d); }
    else { assert all[3] == LineOf(gs, d); }
  }

  /** The per-quarter chart: a line for each of the quarter numbers 1 to 4
      that has at least one point, in that order. */
  function QuarterLines(rows: seq<PermitRow>): (lines: seq<QuarterLine>)
    ensures forall i :: 0 <= i < |lines| ==>
              && '1' <= lines[i].quarter <= '4' && |lines[i].points| > 0
              && lines[i].points == LinePoints(YearQuarterGroups(rows), lines[i].quarter)
    ensures forall i, j :: 0 <= i < j < |lines| ==> lines[i].quarter < lines[j].quarter
    ensures forall d :: '1' <= d <= '4' && |LinePoints(YearQuarterGroups(rows), d)| > 0 ==>
              exists i :: 0 <= i < |lines| && lines[i].quarter == d
  {
    var gs := YearQuarterGroups(rows);
    LinesKept(gs);
    Keep(AllLines(gs), HasPoints)
  }

  /** Two groups of quarter number `d`, the first strictly earlier in year. */
  function YearBefore(d: char): (YearQuarterGroup, YearQuarterGroup) -> bool
  {
    (a: YearQuarterGroup, b: YearQuarterGroup) => QuarterNum(a) == Some(d) && QuarterNum(b) == Some(d) ==> a.jaar < b.jaar
  }

  /** For prepared rows each line runs through the years in strictly
      ascending order, and each point shows the same total as the table
      cell of its year and quarter. */
  lemma {:induction false} LineOfPrepared(rows: seq<PermitRow>, d: char)
    requires forall i :: 0 <= i < |rows| ==> Consistent(rows[i])
    requires '1' <= d <= '4'
    ensures var pts := LinePoints(YearQuarterGroups(rows), d);
            forall i, j :: 0 <= i < j < |pts| ==> pts[i].jaar < pts[j].jaar
    ensures var pts := LinePoints(YearQuarterGroups(rows), d);
            forall i :: 0 <= i < |pts| ==> pts[i].alle == CellTotal(rows, pts[i].jaar, d)
  {
    var gs := YearQuarterGroups(rows);
    NoClash(rows);
    GroupsYearBefore(gs, d);
    KeepOrdered(gs, OfQuarter(d), YearBefore(d));
    var pts := LinePoints(gs, d);
    forall i | 0 <= i < |pts| ensures pts[i].alle == CellTotal(rows, pts[i].jaar, d) {
      PointTotal(rows, pts[i], d);
    }
  }

  /** Without a clash, groups of the same quarter number come in strictly
      ascending years. */
  lemma {:induction false} GroupsYearBefore(gs: seq<YearQuarterGroup>, d: char)
    requires !Clash(gs)
    requires forall i, j :: 0 <= i < j < |gs| ==> YearTextLess((gs[i].jaar, gs[i].kwartaal), (gs[j].jaar, gs[j].kwartaal))
    ensures forall i, j :: 0 <= i < j < |gs| ==> YearBefore(d)(gs[i], gs[j])
  {
  }

  /** A point of a line of prepared rows shows its table cell's total. */
  lemma {:induction false} PointTotal(rows: seq<PermitRow>, g: YearQuarterGroup, d: char)
    requires forall i :: 0 <= i < |rows| ==> Consistent(rows[i])
    requires g in YearQuarterGroups(rows) && QuarterNum(g) == Some(d)
    ensures g.alle == CellTotal(rows, g.jaar, d)
  {
    var gs := YearQuarterGroups(rows);
    NoClash(rows);
    var j :| 0 <= j < |gs| && gs[j] == g;
    CellSumOne(gs, g.jaar, d, j);
    CellFromRows(rows, g.jaar, d);
  }
}

=== FILE: region_report.dfy ===
/** A region's report: the region's rows, its three charts and quarterly
    table, the summary statistics shown above them, and the name of the file
    the report is saved under. A region without rows gets no report. */
module RegionReport {
  import opened Results
  import opened Strings
  import opened Seqs
  import opened Tables
  import opened Permits
  import opened Quarterly
  import opened Monthly
  import opened Rolling
  import opened DateUtils

  /** The rows of one region, selected by exact name. */
  function InRegion(name: string): PermitRow -> bool
  {
    (p: PermitRow) => p.regio == name
  }

  function RegionRows(rows: seq<PermitRow>, name: string): (rs: seq<PermitRow>)
    ensures forall i :: 0 <= i < |rs| ==> rs[i].regio == name && rs[i] in rows
    ensures forall i :: 0 <= i < |rows| && rows[i].regio == name ==> rows[i] in rs
  {
    Keep(rows, InRegion(name))
  }

  // ---------------------------------------------------------------------------
  // Summary statistics
  // ---------------------------------------------------------------------------

  /** The statistics above the charts: the three totals from 2015 on and the
      range of years they cover. */
  datatype Stats = Stats(totalPermits: int, totalHouses: int, totalFlats: int, dateRange: string)

  function MinYear(rs: seq<PermitRow>): (y: int)
    requires |rs| > 0
    ensures exists i :: 0 <= i < |rs| && rs[i].jaar == y
    ensures forall i :: 0 <= i < |rs| ==> y <= rs[i].jaar
  {
    if |rs| == 1 then rs[0].jaar
    else
      var rest := MinYear(rs[1..]);
      assert forall i :: 1 <= i < |rs| ==> rs[i] == rs[1..][i - 1];
      if rs[0].jaar <= rest then rs[0].jaar else rest
  }

  function MaxYear(rs: seq<PermitRow>): (y: int)
    requires |rs| > 0
    ensures exists i :: 0 <= i < |rs| && rs[i].jaar == y
    ensures forall i :: 0 <= i < |rs| ==> rs[i].jaar <= y
  {
    if |rs| == 1 then rs[0].jaar
    else
      var rest := MaxYear(rs[1..]);
      assert forall i :: 1 <= i < |rs| ==> rs[i] == rs[1..][i - 1];
      if rs[0].jaar >= rest then rs[0].jaar else rest
  }

  /** "min - max" of the years from 2015 on; both are NaN, printed "nan",
      when the region has no such rows. */
  function DateRange(rs: seq<PermitRow>): (s: string)
    ensures (forall i :: 0 <= i < |rs| ==> !Recent(rs[i])) ==> s == "nan - nan"
    ensures (exists i :: 0 <= i < |rs| && Recent(rs[i])) ==> YearSpan(rs, s)
  {
    var recent := Keep(rs, Recent);
    if |recent| == 0 then
      "nan - nan"
    else
      var lo, hi := MinYear(recent), MaxYear(recent);
      var s := IntToString(lo) + " - " + IntToString(hi);
      RecentYearsBetween(rs, recent, lo, hi, s);
      s
  }

  /** Rows `a` and `b` hold the first and the last year among the rows from
      2015 on. */
  predicate FirstAndLast(rs: seq<PermitRow>, a: int, b: int)
  {
    && 0 <= a < |rs| && 0 <= b < |rs| && Recent(rs[a]) && Recent(rs[b])
    && forall i :: 0 <= i < |rs| && Recent(rs[i]) ==> rs[a].jaar <= rs[i].jaar <= rs[b].jaar
  }

  /** `s` reads "first - last" for the years from 2015 on. */
  ghost predicate YearSpan(rs: seq<PermitRow>, s: string)
  {
    exists a, b :: FirstAndLast(rs, a, b) && s == IntToString(rs[a].jaar) + " - " + IntToString(rs[b].jaar)
  }

  lemma {:induction false} RecentYearsBetween(rs: seq<PermitRow>, recent: seq<PermitRow>, lo: int, hi: int, s: string)
    requires recent == Keep(rs, Recent) && |recent| > 0
    requires exists i :: 0 <= i < |recent| && recent[i].jaar == lo
    requires exists i :: 0 <= i < |recent| && recent[i].jaar == hi
    requires forall i :: 0 <= i < |recent| ==> lo <= recent[i].jaar <= hi
    requires s == IntToString(lo) + " - " + IntToString(hi)
    ensures YearSpan(rs, s)
  {
    var a' :| 0 <= a' < |recent| && recent[a'].jaar == lo;
    var b' :| 0 <= b' < |recent| && recent[b'].jaar == hi;
    assert recent[a'] in rs && recent[b'] in rs;
    var a :| 0 <= a < |rs| && rs[a] == recent[a'];
    var b :| 0 <= b < |rs| && rs[b] == recent[b'];
    forall i | 0 <= i < |rs| && Recent(rs[i]) ensures lo <= rs[i].jaar <= hi {
      assert rs[i] in recent;
    }
    assert FirstAndLast(rs, a, b);
  }

  /** The metric `val` summed over the rows of region `name` from 2015 on:
      the reference the report's totals are checked against. */
  function RegionTotal(rows: seq<PermitRow>, name: string, val: PermitRow -> int): int
  {
    if |rows| == 0 then 0
    else (if rows[0].regio == name && Recent(rows[0]) then val(rows[0]) else 0) + RegionTotal(rows[1..], name, val)
  }

  lemma {:induction false} RegionTotalOfRows(rows: seq<PermitRow>, name: string, val: PermitRow -> int)
    ensures SumBy(Keep(RegionRows(rows, name), Recent), val) == RegionTotal(rows, name, val)
  {
    if |rows| > 0 {
      RegionTotalOfRows(rows[1..], name, val);
      var rest := RegionRows(rows[1..], name);
      var kept := Keep(rest, Recent);
      if rows[0].regio == name {
        assert RegionRows(rows, name) == [rows[0]] + rest;
        assert ([rows[0]] + rest)[1..] == rest;
        if Recent(rows[0]) {
          assert Keep([rows[0]] + rest, Recent) == [rows[0]] + kept;
          assert ([rows[0]] + kept)[1..] == kept;
        } else {
          assert Keep([rows[0]] + rest, Recent) == kept;
        }
      } else {
        assert RegionRows(rows, name) == rest;
      }
    }
  }

  /** The statistics of a region's rows: the three metrics summed over the
      rows from 2015 on, which are also the sums of the quarterly chart's
      bars, and the range of their years. */
  function SummaryStats(rs: seq<PermitRow>): (st: Stats)
    ensures st.totalPermits == SumBy(Keep(rs, Recent), Alle) == SumBy(QuarterlySeries(rs), PointAlle)
    ensures st.totalHouses == SumBy(Keep(rs, Recent), Huizen) == SumBy(QuarterlySeries(rs), PointHuizen)
    ensures st.totalFlats == SumBy(Keep(rs, Recent), Flats) == SumBy(QuarterlySeries(rs), PointFlats)
    ensures st.dateRange == DateRange(rs)
  {
    QuarterlyConservation(rs);
    var recent := Keep(rs, Recent);
    Stats(SumBy(recent, Alle), SumBy(recent, Huizen), SumBy(recent, Flats), DateRange(rs))
  }

  // ---------------------------------------------------------------------------
  // The report
  // ---------------------------------------------------------------------------

  /** Everything a region's report shows, and where it is saved. */
  datatype Report = Report(region: string, stats: Stats, quarterly: seq<QuarterPoint>, lines: seq<QuarterLine>,
                           rolling: RollingChart, table: seq<PivotRow>, fileName: string)

  /** The report of region `name`. The charts are built before the table,
      so a month outside the timestamp range is reported before a clash in
      the table. */
  function MakeReport(rows: seq<PermitRow>, name: string): (r: Result<Option<Report>>)
    ensures r == Ok(None) <==> forall i :: 0 <= i < |rows| ==> rows[i].regio != name
    ensures r.Err? <==> |RegionRows(rows, name)| > 0
                        && (MonthlySeries(RegionRows(rows, name)).Err? || QuarterTable(RegionRows(rows, name)).Err?)
    ensures r.Err? && MonthlySeries(RegionRows(rows, name)).Err? ==> r.error == MonthlySeries(RegionRows(rows, name)).error
    ensures r.Err? && MonthlySeries(RegionRows(rows, name)).Ok? ==> r.error == QuarterTable(RegionRows(rows, name)).error
    ensures r.Ok? && r.value.Some? ==>
              var rep := r.value.value;
              && rep.region == name
              && rep.fileName == ReportFileName(name)
              && rep.stats.totalPermits == RegionTotal(rows, name, Alle)
              && rep.stats.totalHouses == RegionTotal(rows, name, Huizen)
              && rep.stats.totalFlats == RegionTotal(rows, name, Flats)
              && rep.stats.totalPermits == SumBy(rep.quarterly, PointAlle)
              && rep.stats.totalHouses == SumBy(rep.quarterly, PointHuizen)
              && rep.stats.totalFlats == SumBy(rep.quarterly, PointFlats)
              && rep.stats == SummaryStats(RegionRows(rows, name))
              && rep.quarterly == QuarterlySeries(RegionRows(rows, name))
              && rep.lines == QuarterLines(RegionRows(rows, name))
              && rep.rolling == RollingAverages(RegionRows(rows, name)).value
              && rep.table == QuarterTable(RegionRows(rows, name)).value
  {
    var rs := RegionRows(rows, name);
    if |rs| == 0 then
      Ok(None)
    else
      match RollingAverages(rs)
      case Err(e) => Err(e)
      case Ok(chart) =>
        match QuarterTable(rs)
        case Err(e) => Err(e)
        case Ok(t) =>
          ReportTotals(rows, name);
          Ok(Some(Report(name, SummaryStats(rs), QuarterlySeries(rs), QuarterLines(rs), chart, t, ReportFileName(name))))
  }

  /** The totals are the region's totals, and also the sums of the quarterly
      chart's bars. */
  lemma {:induction false} ReportTotals(rows: seq<PermitRow>, name: string)
    ensures var rs := RegionRows(rows, name);
            var st := SummaryStats(rs);
            && st.totalPermits == RegionTotal(rows, name, Alle) == SumBy(QuarterlySeries(rs), PointAlle)
            && st.totalHouses == RegionTotal(rows, name, Huizen) == SumBy(QuarterlySeries(rs), PointHuizen)
            && st.totalFlats == RegionTotal(rows, name, Flats) == SumBy(QuarterlySeries(rs), PointFlats)
  {
    var rs := RegionRows(rows, name);
    RegionTotalOfRows(rows, name, Alle);
    RegionTotalOfRows(rows, name, Huizen);
    RegionTotalOfRows(rows, name, Flats);
    QuarterlyConservation(rs);
  }

  /** For prepared rows the number of permits shown is the number of houses
      plus the number of flats. */
  lemma {:induction false} PermitsAreHousesPlusFlats(rows: seq<PermitRow>, name: string)
    requires forall i :: 0 <= i < |rows| ==> Consistent(rows[i])
    requires MakeReport(rows, name).Ok? && MakeReport(rows, name).value.Some?
    ensures var st := MakeReport(rows, name).value.value.stats;
            st.totalPermits == st.totalHouses + st.totalFlats
  {
    StatsAdd(RegionRows(rows, name));
  }

  lemma {:induction false} StatsAdd(rs: seq<PermitRow>)
    requires forall i :: 0 <= i < |rs| ==> Consistent(rs[i])
    ensures SummaryStats(rs).totalPermits == SummaryStats(rs).totalHouses + SummaryStats(rs).totalFlats
  {
    var recent := Keep(rs, Recent);
    assert forall i :: 0 <= i < |recent| ==> recent[i] in rs;
    SumByAdd(recent, Huizen, Flats, Alle);
  }

  /** A prepared row's month, when it counts towards the monthly series,
      lies inside the timestamp range. */
  predicate MonthFits(p: PermitRow)
  {
    InMonthly(p) ==> InTimestampRange(Date(p.jaar, StrictMonths[p.maand], 1))
  }

  /** Every region of the loaded statistics gets its report without error,
      and gets one exactly when it has rows. */
  lemma {:induction false} ReportOfPrepared(rows: seq<PermitRow>, name: string)
    requires forall i :: 0 <= i < |rows| ==> Consistent(rows[i]) && MonthFits(rows[i])
    ensures MakeReport(rows, name).Ok?
    ensures MakeReport(rows, name).value.Some? <==> exists i :: 0 <= i < |rows| && rows[i].regio == name
  {
    var rs := RegionRows(rows, name);
    assert forall i :: 0 <= i < |rs| ==> rs[i] in rows;
    QuarterTableOfPrepared(rs);
  }

  /** In the report a caller receives, every cell of the quarterly table is
      the total of the region's rows for that year and quarter, and every
      year's total is the region's total for that year. */
  lemma {:induction false} ReportTableCells(rows: seq<PermitRow>, name: string)
    requires forall i :: 0 <= i < |rows| ==> Consistent(rows[i])
    requires MakeReport(rows, name).Ok? && MakeReport(rows, name).value.Some?
    ensures var rs, t := RegionRows(rows, name), MakeReport(rows, name).value.value.table;
            && (forall i, d :: 0 <= i < |t| && '1' <= d <= '4' ==> QuarterCell(t[i], d) == CellTotal(rs, t[i].jaar, d))
            && (forall i :: 0 <= i < |t| ==> t[i].totaal == YearTotal(rs, t[i].jaar))
  {
    var rs := RegionRows(rows, name);
    assert forall i :: 0 <= i < |rs| ==> rs[i] in rows;
    QuarterTableOfPrepared(rs);
  }

  /** Loading establishes what `ReportOfPrepared` needs. */
  lemma {:induction false} LoadedRowsFit(raws: seq<RawRow>)
    requires Prepare(raws).Ok?
    ensures forall i :: 0 <= i < |Prepare(raws).value| ==>
              Consistent(Prepare(raws).value[i]) && MonthFits(Prepare(raws).value[i])
  {
    var rows := Prepare(raws).value;
    forall i | 0 <= i < |rows| && InMonthly(rows[i])
      ensures InTimestampRange(Date(rows[i].jaar, StrictMonths[rows[i].maand], 1))
    {
      LoadedMonthInRange(raws[i], rows[i]);
    }
  }

  /** Once the statistics have loaded, every region's report is produced
      without error. */
  lemma {:induction false} ReportOfLoaded(raws: seq<RawRow>, name: string)
    requires Prepare(raws).Ok?
    ensures MakeReport(Prepare(raws).value, name).Ok?
  {
    LoadedRowsFit(raws);
    ReportOfPrepared(Prepare(raws).value, name);
  }
}

=== FILE: results.dfy ===
/** Failure-compatible wrappers shared by every module of the model, and the
    catalogue of errors the modelled code raises. */
module Results {

  datatype Option<+T> = None | Some(value: T)

  /** One constructor per cause of an exception in the modelled code. */
  datatype Error =
    | InvalidMonth                    // a month label that is missing or not a string
    | UnknownMonth(text: string)      // a string label outside the month vocabulary
    | MissingColumn(column: string)   // a named column absent from the table
    | InvalidDate(text: string)       // a date string the date parser rejects
    | UnknownPeriodType(periodType: string)
    | UnknownFormatType(formatType: string)
    | TypeMismatch                    // pandas' TypeError: a comparison or concatenation across types
    | DuplicateEntries                // a pivot that meets two values for one (index, column) cell

  datatype Result<+T> = Ok(value: T) | Err(error: Error) {

    predicate IsFailure() {
      Err?
    }

    function PropagateFailure<U>(): Result<U>
      requires Err?
    {
      Err(error)
    }

    function Extract(): T
      requires Ok?
    {
      value
    }
  }

  /** Position `i` holds the first element on which `f` fails. */
  predicate FirstFailure<A, B>(xs: seq<A>, f: A -> Result<B>, i: int)
  {
    && 0 <= i < |xs|
    && f(xs[i]).Err?
    && forall j :: 0 <= j < i ==> f(xs[j]).Ok?
  }

  /** Applies `f` to every element in order and stops at the first failure,
      as a vectorised pandas call does when its element function raises. */
  function MapResult<A, B>(xs: seq<A>, f: A -> Result<B>): (r: Result<seq<B>>)
    ensures r.Ok? <==> forall i :: 0 <= i < |xs| ==> f(xs[i]).Ok?
    ensures r.Ok? ==> |r.value| == |xs| && forall i :: 0 <= i < |xs| ==> r.value[i] == f(xs[i]).value
    ensures r.Err? ==> exists i :: FirstFailure(xs, f, i) && r.error == f(xs[i]).error
  {
    if |xs| == 0 then Ok([])
    else
      match f(xs[0])
      case Err(e) =>
        assert FirstFailure(xs, f, 0);
        Err(e)
      case Ok(head) =>
        match MapResult(xs[1..], f)
        case Err(e) =>
          var i :| FirstFailure(xs[1..], f, i) && e == f(xs[1..][i]).error;
          assert FirstFailure(xs, f, i + 1);
          Err(e)
        case Ok(tail) =>
          Ok([head] + tail)
  }
}

=== FILE: rolling.dfy ===
/** The 12-month rolling averages of the monthly series: at each month the
    mean of a metric over that month and the up to eleven months before it
    in the series, fewer at the start of the series but never none. Means
    are exact rationals. */
module Rolling {
  import opened Results
  import opened Seqs
  import opened Tables
  import opened Permits
  import opened Quarterly
  import opened Monthly
  import opened PeriodKeys

  /** The window length of the rolling chart. */
  const Window: nat := 12

  /** The first position of the window that ends at `i`: `w - 1` positions
      back when the series is that long, else its start. */
  function WindowStart(i: nat, w: nat): (s: nat)
    requires w >= 1
    ensures s <= i && i - s < w
    ensures i + 1 >= w ==> i + 1 - s == w
    ensures i + 1 < w ==> s == 0
  {
    if i + 1 >= w then i + 1 - w else 0
  }

  /** The arithmetic mean of a non-empty sequence of totals. */
  function Mean(xs: seq<int>): real
    requires |xs| > 0
  {
    Sum(xs) as real / |xs| as real
  }

  /** `rolling(window=w, min_periods=1).mean()`: every position gets the
      mean of the values in its window. */
  function RollingMean(xs: seq<int>, w: nat): (r: seq<real>)
    requires w >= 1
    ensures |r| == |xs|
    ensures forall i :: 0 <= i < |xs| && i + 1 < w ==> r[i] == Sum(xs[..i + 1]) as real / (i + 1) as real
    ensures forall i :: w - 1 <= i < |xs| ==> r[i] == Sum(xs[i + 1 - w..i + 1]) as real / w as real
  {
    var r := seq(|xs|, i requires 0 <= i < |xs| => Mean(xs[WindowStart(i, w)..i + 1]));
    WindowMeans(xs, w, r);
    r
  }

  /** Means taken over the windows ending at each position are, before the
      window fills, means of prefixes and, after, means of `w` values. */
  lemma {:induction false} WindowMeans(xs: seq<int>, w: nat, r: seq<real>)
    requires w >= 1 && |r| == |xs|
    requires forall i :: 0 <= i < |xs| ==> r[i] == Mean(xs[WindowStart(i, w)..i + 1])
    ensures forall i :: 0 <= i < |xs| && i + 1 < w ==> r[i] == Sum(xs[..i + 1]) as real / (i + 1) as real
    ensures forall i :: w - 1 <= i < |xs| ==> r[i] == Sum(xs[i + 1 - w..i + 1]) as real / w as real
  {
    forall i | 0 <= i < |xs| && i + 1 < w
      ensures r[i] == Sum(xs[..i + 1]) as real / (i + 1) as real
    {
      assert xs[WindowStart(i, w)..i + 1] == xs[..i + 1];
    }
    forall i | w - 1 <= i < |xs|
      ensures r[i] == Sum(xs[i + 1 - w..i + 1]) as real / w as real
    {
      assert WindowStart(i, w) == i + 1 - w;
    }
  }

  // ---------------------------------------------------------------------------
  // Sums over slices
  // ---------------------------------------------------------------------------

  lemma {:induction false} SumSliceSnoc(xs: seq<int>, a: nat, b: nat)
    requires a <= b < |xs|
    ensures Sum(xs[a..b + 1]) == Sum(xs[a..b]) + xs[b]
  {
    assert xs[a..b + 1] == xs[a..b] + [xs[b]];
    SumSnoc(xs[a..b], xs[b]);
  }

  lemma {:induction false} SumSliceHead(xs: seq<int>, a: nat, b: nat)
    requires a < b <= |xs|
    ensures Sum(xs[a..b]) == xs[a] + Sum(xs[a + 1..b])
  {
    assert xs[a..b][1..] == xs[a + 1..b];
  }

  /** A sum of values between `lo` and `hi` lies between `n * lo` and `n * hi`. */
  lemma {:induction false} SumBounds(xs: seq<int>, lo: int, hi: int)
    requires forall i :: 0 <= i < |xs| ==> lo <= xs[i] <= hi
    ensures |xs| * lo <= Sum(xs) <= |xs| * hi
  {
    if |xs| > 0 {
      SumBounds(xs[1..], lo, hi);
    }
  }

  /** Summing element-wise sums is adding the two sums. */
  lemma {:induction false} SumPointwise(xs: seq<int>, ys: seq<int>, zs: seq<int>)
    requires |xs| == |ys| == |zs|
    requires forall i :: 0 <= i < |zs| ==> zs[i] == xs[i] + ys[i]
    ensures Sum(zs) == Sum(xs) + Sum(ys)
  {
    if |zs| > 0 {
      SumPointwise(xs[1..], ys[1..], zs[1..]);
    }
  }

  // ---------------------------------------------------------------------------
  // Properties of the rolling mean
  // ---------------------------------------------------------------------------

  /** Before the window is full, a position's value is the mean of the whole
      series up to it; in particular the first value is the first total. */
  lemma {:induction false} RollingWarmUp(xs: seq<int>, w: nat, i: nat)
    requires w >= 1 && i < |xs| && i + 1 < w
    ensures RollingMean(xs, w)[i] == Sum(xs[..i + 1]) as real / (i + 1) as real
    ensures i == 0 ==> RollingMean(xs, w)[i] == xs[0] as real
  {
    assert xs[WindowStart(i, w)..i + 1] == xs[..i + 1];
    if i == 0 {
      assert xs[..1] == [xs[0]];
      assert Sum(xs[..1]) == xs[0] + Sum(xs[..1][1..]);
    }
  }

  /** From position `w - 1` on, a value is the sum of exactly `w` totals,
      the one at the position and the `w - 1` before it, divided by `w`. */
  lemma {:induction false} RollingFull(xs: seq<int>, w: nat, i: nat)
    requires w >= 1 && w - 1 <= i < |xs|
    ensures RollingMean(xs, w)[i] == Sum(xs[i + 1 - w..i + 1]) as real / w as real
  {
    assert |xs[WindowStart(i, w)..i + 1]| == w;
  }

  /** The twelfth month of the chart is the mean of the first twelve. */
  lemma {:induction false} TwelfthIsFirstYearMean(xs: seq<int>)
    requires |xs| >= Window
    ensures RollingMean(xs, Window)[Window - 1] == Sum(xs[..Window]) as real / Window as real
  {
    RollingFull(xs, Window, Window - 1);
    assert xs[Window - Window..Window] == xs[..Window];
  }

  /** A rolling mean never leaves the range of the totals it averages. */
  lemma {:induction false} RollingBounds(xs: seq<int>, w: nat, lo: int, hi: int)
    requires w >= 1
    requires forall i :: 0 <= i < |xs| ==> lo <= xs[i] <= hi
    ensures forall i :: 0 <= i < |xs| ==> lo as real <= RollingMean(xs, w)[i] <= hi as real
  {
    forall i | 0 <= i < |xs|
      ensures lo as real <= RollingMean(xs, w)[i] <= hi as real
    {
      var win := xs[WindowStart(i, w)..i + 1];
      SumBounds(win, lo, hi);
      MeanBounds(Sum(win), |win|, lo, hi);
    }
  }

  lemma {:induction false} MeanBounds(s: int, n: nat, lo: int, hi: int)
    requires n > 0 && n * lo <= s <= n * hi
    ensures lo as real <= s as real / n as real <= hi as real
  {
    var nr := n as real;
    assert lo as real * nr <= s as real <= hi as real * nr;
    assert lo as real == (lo as real * nr) / nr;
    assert hi as real == (hi as real * nr) / nr;
  }

  /** Months appended later do not change the averages already drawn. */
  lemma {:induction false} RollingCausal(xs: seq<int>, ys: seq<int>, w: nat)
    requires w >= 1
    ensures RollingMean(xs + ys, w)[..|xs|] == RollingMean(xs, w)
  {
    forall i | 0 <= i < |xs|
      ensures RollingMean(xs + ys, w)[i] == RollingMean(xs, w)[i]
    {
      assert (xs + ys)[WindowStart(i, w)..i + 1] == xs[WindowStart(i, w)..i + 1];
    }
  }

  /** The rolling mean of a sum of series is the sum of their rolling means. */
  lemma {:induction false} RollingAdd(xs: seq<int>, ys: seq<int>, zs: seq<int>, w: nat)
    requires w >= 1 && |xs| == |ys| == |zs|
    requires forall i :: 0 <= i < |zs| ==> zs[i] == xs[i] + ys[i]
    ensures forall i :: 0 <= i < |zs| ==> RollingMean(zs, w)[i] == RollingMean(xs, w)[i] + RollingMean(ys, w)[i]
  {
    forall i | 0 <= i < |zs|
      ensures RollingMean(zs, w)[i] == RollingMean(xs, w)[i] + RollingMean(ys, w)[i]
    {
      var a := WindowStart(i, w);
      SumPointwise(xs[a..i + 1], ys[a..i + 1], zs[a..i + 1]);
      MeanAdd(Sum(xs[a..i + 1]), Sum(ys[a..i + 1]), i + 1 - a);
    }
  }

  lemma {:induction false} MeanAdd(s: int, t: int, n: nat)
    requires n > 0
    ensures (s + t) as real / n as real == s as real / n as real + t as real / n as real
  {
  }

  /** The rolling means computed in one pass with a running window sum:
      each step adds the newest total and, once the window is full, drops
      the oldest. */
  method RunningMeans(xs: seq<int>, w: nat) returns (r: seq<real>)
    requires w >= 1
    ensures r == RollingMean(xs, w)
  {
    r := [];
    var s := 0;
    var lo := 0;
    var i := 0;
    while i < |xs|
      invariant 0 <= lo <= i <= |xs|
      invariant lo == WindowStart(i, w)
      invariant |r| == i
      invariant forall j :: 0 <= j < i ==> r[j] == RollingMean(xs, w)[j]
      invariant s == Sum(xs[lo..i])
    {
      SumSliceSnoc(xs, lo, i);
      s := s + xs[i];
      StepMean(xs, w, i, lo, s);
      r := r + [s as real / (i + 1 - lo) as real];
      if i + 1 >= w {
        SumSliceHead(xs, lo, i + 1);
        s := s - xs[lo];
        lo := lo + 1;
      }
      i := i + 1;
    }
  }

  /** The running sum over the window ending at `i` yields that position's
      rolling mean. */
  lemma {:induction false} StepMean(xs: seq<int>, w: nat, i: nat, lo: nat, s: int)
    requires w >= 1 && i < |xs| && lo == WindowStart(i, w) && s == Sum(xs[lo..i + 1])
    ensures s as real / (i + 1 - lo) as real == RollingMean(xs, w)[i]
  {
  }

  // ---------------------------------------------------------------------------
  // The chart
  // ---------------------------------------------------------------------------

  /** The data of the rolling-average chart: the first day of each month on
      the x axis and one trace per metric. */
  datatype RollingChart = RollingChart(dates: seq<Date>, huizen: seq<real>, flats: seq<real>, alle: seq<real>)

  /** One metric of every month, in series order. */
  function Metric(gs: seq<MonthGroup>, f: MonthGroup -> int): (xs: seq<int>)
    ensures |xs| == |gs| && forall i :: 0 <= i < |gs| ==> xs[i] == f(gs[i])
  {
    seq(|gs|, i requires 0 <= i < |gs| => f(gs[i]))
  }

  /** The first day of every month, in series order. */
  function Dates(gs: seq<MonthGroup>): (ds: seq<Date>)
    ensures |ds| == |gs| && forall i :: 0 <= i < |gs| ==> ds[i] == MonthDate(gs[i])
  {
    seq(|gs|, i requires 0 <= i < |gs| => MonthDate(gs[i]))
  }

  /** The chart for a region's rows: fails exactly when the monthly series
      does; otherwise one point per observed month, strictly increasing in
      date, and one value per point in every trace. */
  function RollingAverages(rows: seq<PermitRow>): (r: Result<RollingChart>)
    ensures r.Ok? <==> MonthlySeries(rows).Ok?
    ensures r.Err? ==> r.error == MonthlySeries(rows).error
    ensures r.Ok? ==> |r.value.dates| == |r.value.huizen| == |r.value.flats| == |r.value.alle| == |MonthGroups(rows)|
    ensures r.Ok? ==> forall i, j :: 0 <= i < j < |r.value.dates| ==> DateBefore(r.value.dates[i], r.value.dates[j])
    ensures r.Ok? ==> forall i :: 0 <= i < |rows| && InMonthly(rows[i]) ==>
              Date(rows[i].jaar, StrictMonths[rows[i].maand], 1) in r.value.dates
    ensures r.Ok? ==> forall d :: d in r.value.dates ==>
              exists i :: 0 <= i < |rows| && InMonthly(rows[i]) && d == Date(rows[i].jaar, StrictMonths[rows[i].maand], 1)
    ensures r.Ok? ==> && r.value.huizen == RollingMean(Metric(MonthGroups(rows), MonthHuizen), Window)
                      && r.value.flats == RollingMean(Metric(MonthGroups(rows), MonthFlats), Window)
                      && r.value.alle == RollingMean(Metric(MonthGroups(rows), MonthAlle), Window)
  {
    match MonthlySeries(rows)
    case Err(e) => Err(e)
    case Ok(gs) =>
      ChartDates(rows, gs);
      Ok(RollingChart(Dates(gs), RollingMean(Metric(gs, MonthHuizen), Window),
                      RollingMean(Metric(gs, MonthFlats), Window), RollingMean(Metric(gs, MonthAlle), Window)))
  }

  /** The chart's dates are the first days of the months that have rows. */
  lemma {:induction false} ChartDates(rows: seq<PermitRow>, gs: seq<MonthGroup>)
    requires gs == MonthGroups(rows)
    ensures forall i :: 0 <= i < |rows| && InMonthly(rows[i]) ==>
              Date(rows[i].jaar, StrictMonths[rows[i].maand], 1) in Dates(gs)
    ensures forall d :: d in Dates(gs) ==>
              exists i :: 0 <= i < |rows| && InMonthly(rows[i]) && d == Date(rows[i].jaar, StrictMonths[rows[i].maand], 1)
  {
    var ks := MonthKeysOf(gs);
    var ds := Dates(gs);
    forall i | 0 <= i < |rows| && InMonthly(rows[i])
      ensures Date(rows[i].jaar, StrictMonths[rows[i].maand], 1) in ds
    {
      var j :| 0 <= j < |ks| && ks[j] == (rows[i].jaar, StrictMonths[rows[i].maand]);
      assert ds[j] == Date(rows[i].jaar, StrictMonths[rows[i].maand], 1);
    }
    forall d | d in ds
      ensures exists i :: 0 <= i < |rows| && InMonthly(rows[i]) && d == Date(rows[i].jaar, StrictMonths[rows[i].maand], 1)
    {
      var j :| 0 <= j < |ds| && ds[j] == d;
      assert ks[j] in ks;
      var i :| 0 <= i < |rows| && InMonthly(rows[i]) && YearMonth(rows[i]) == ks[j];
      assert d == Date(rows[i].jaar, StrictMonths[rows[i].maand], 1);
    }
  }

  /** Houses and flats add up to all dwellings in every row, hence in every
      month's total. */
  lemma {:induction false} MonthTotalSplit(rows: seq<PermitRow>)
    requires forall i :: 0 <= i < |rows| ==> Consistent(rows[i])
    ensures forall y, name :: MonthTotal(rows, y, name, Alle) == MonthTotal(rows, y, name, Huizen) + MonthTotal(rows, y, name, Flats)
  {
    if |rows| > 0 {
      MonthTotalSplit(rows[1..]);
    }
  }

  /** For prepared rows the houses trace plus the flats trace is the
      all-dwellings trace at every point of the chart. */
  lemma {:induction false} TracesAdd(rows: seq<PermitRow>)
    requires forall i :: 0 <= i < |rows| ==> Consistent(rows[i])
    requires RollingAverages(rows).Ok?
    ensures var c := RollingAverages(rows).value;
            forall i :: 0 <= i < |c.alle| ==> c.huizen[i] + c.flats[i] == c.alle[i]
  {
    var gs := MonthGroups(rows);
    MonthsSplit(rows, gs);
    var hs, fs, als := Metric(gs, MonthHuizen), Metric(gs, MonthFlats), Metric(gs, MonthAlle);
    RollingAdd(hs, fs, als, Window);
    assert RollingAverages(rows).value == RollingChart(Dates(gs), RollingMean(hs, Window), RollingMean(fs, Window), RollingMean(als, Window));
  }

  /** Every month of prepared rows splits its dwellings into houses and flats. */
  lemma {:induction false} MonthsSplit(rows: seq<PermitRow>, gs: seq<MonthGroup>)
    requires forall i :: 0 <= i < |rows| ==> Consistent(rows[i])
    requires gs == MonthGroups(rows)
    ensures forall j :: 0 <= j < |gs| ==> gs[j].alle == gs[j].huizen + gs[j].flats
  {
    MonthTotalSplit(rows);
    StrictMonthsInverse();
    forall j | 0 <= j < |gs|
      ensures gs[j].alle == gs[j].huizen + gs[j].flats
    {
      var g := gs[j];
      assert 1 <= g.maand <= 12;
      var name := DutchMonthNames[g.maand];
      assert g.alle == MonthTotal(rows, g.jaar, name, Alle);
      assert g.huizen == MonthTotal(rows, g.jaar, name, Huizen);
      assert g.flats == MonthTotal(rows, g.jaar, name, Flats);
    }
  }

  /** The first point of every trace is the first month's own total. */
  lemma {:induction false} ChartStartsAtFirstMonth(rows: seq<PermitRow>)
    requires RollingAverages(rows).Ok? && |MonthGroups(rows)| > 0
    ensures var c := RollingAverages(rows).value;
            var g := MonthGroups(rows)[0];
            && c.dates[0] == Date(g.jaar, g.maand, 1)
            && c.huizen[0] == g.huizen as real && c.flats[0] == g.flats as real && c.alle[0] == g.alle as real
  {
    var gs := MonthGroups(rows);
    RollingWarmUp(Metric(gs, MonthHuizen), Window, 0);
    RollingWarmUp(Metric(gs, MonthFlats), Window, 0);
    RollingWarmUp(Metric(gs, MonthAlle), Window, 0);
  }
}

=== FILE: seqs.dfy ===
/** Row selection and summation over sequences: the two table primitives
    (boolean-mask filtering and column sums) every aggregation builds on. */
module Seqs {

  /** The order-preserving subsequence of `xs` whose elements satisfy `p`,
      as a boolean mask selects the rows of a table. */
  function Keep<T>(xs: seq<T>, p: T -> bool): (r: seq<T>)
    ensures |r| <= |xs|
    ensures forall i :: 0 <= i < |r| ==> p(r[i]) && r[i] in xs
    ensures forall i :: 0 <= i < |xs| && p(xs[i]) ==> xs[i] in r
  {
    if |xs| == 0 then []
    else (if p(xs[0]) then [xs[0]] else []) + Keep(xs[1..], p)
  }

  /** Filtering by `p` and then by `q` keeps exactly the elements that pass
      both filters, in the original order: it is filtering once by any `r`
      that is their conjunction. */
  lemma {:induction false} KeepCompose<T>(xs: seq<T>, p: T -> bool, q: T -> bool, r: T -> bool)
    requires forall i :: 0 <= i < |xs| ==> r(xs[i]) == (p(xs[i]) && q(xs[i]))
    ensures Keep(Keep(xs, p), q) == Keep(xs, r)
  {
    if |xs| > 0 {
      KeepCompose(xs[1..], p, q, r);
      var head := if p(xs[0]) then [xs[0]] else [];
      assert Keep(xs, p) == head + Keep(xs[1..], p);
      KeepAppend(head, Keep(xs[1..], p), q);
      if p(xs[0]) {
        assert Keep(head, q) == (if q(xs[0]) then [xs[0]] else []) by {
          assert head[1..] == [];
        }
      }
    }
  }

  /** Filtering distributes over concatenation. */
  lemma {:induction false} KeepAppend<T>(a: seq<T>, b: seq<T>, p: T -> bool)
    ensures Keep(a + b, p) == Keep(a, p) + Keep(b, p)
  {
    if |a| == 0 {
      assert a + b == b;
    } else {
      assert (a + b)[1..] == a[1..] + b;
      KeepAppend(a[1..], b, p);
    }
  }

  /** A filter that every element passes returns its input unchanged. */
  lemma {:induction false} KeepAll<T>(xs: seq<T>, p: T -> bool)
    requires forall i :: 0 <= i < |xs| ==> p(xs[i])
    ensures Keep(xs, p) == xs
  {
    if |xs| > 0 {
      KeepAll(xs[1..], p);
      assert [xs[0]] + xs[1..] == xs;
    }
  }

  /** Filters that agree on every element select the same subsequence. */
  lemma {:induction false} KeepSame<T>(xs: seq<T>, p: T -> bool, q: T -> bool)
    requires forall i :: 0 <= i < |xs| ==> p(xs[i]) == q(xs[i])
    ensures Keep(xs, p) == Keep(xs, q)
  {
    if |xs| > 0 {
      KeepSame(xs[1..], p, q);
    }
  }

  /** A filter that rejects a prefix and accepts the rest returns the rest. */
  lemma {:induction false} KeepSuffix<T>(xs: seq<T>, p: T -> bool, k: nat)
    requires k <= |xs|
    requires forall i :: 0 <= i < k ==> !p(xs[i])
    requires forall i :: k <= i < |xs| ==> p(xs[i])
    ensures Keep(xs, p) == xs[k..]
  {
    if k == 0 {
      KeepAll(xs, p);
    } else {
      KeepSuffix(xs[1..], p, k - 1);
      assert xs[1..][k - 1..] == xs[k..];
    }
  }

  /** Filtering keeps the relative order of what it keeps: any relation
      between earlier and later elements still holds afterwards. */
  lemma {:induction false} KeepOrdered<T>(xs: seq<T>, p: T -> bool, rel: (T, T) -> bool)
    requires forall i, j :: 0 <= i < j < |xs| ==> rel(xs[i], xs[j])
    ensures forall i, j :: 0 <= i < j < |Keep(xs, p)| ==> rel(Keep(xs, p)[i], Keep(xs, p)[j])
  {
    if |xs| > 0 {
      KeepOrdered(xs[1..], p, rel);
      var rest := Keep(xs[1..], p);
      assert forall j :: 0 <= j < |rest| ==> rest[j] in xs[1..];
      assert forall y :: y in xs[1..] ==> rel(xs[0], y);
    }
  }

  /** Sum of a sequence of integers. */
  function Sum(xs: seq<int>): int
  {
    if |xs| == 0 then 0 else xs[0] + Sum(xs[1..])
  }

  lemma {:induction false} SumSnoc(xs: seq<int>, x: int)
    ensures Sum(xs + [x]) == Sum(xs) + x
  {
    if |xs| == 0 {
      assert xs + [x] == [x];
    } else {
      assert (xs + [x])[1..] == xs[1..] + [x];
      SumSnoc(xs[1..], x);
    }
  }

  /** Sum of a metric over the rows of a table. */
  function SumBy<T>(rows: seq<T>, val: T -> int): int
  {
    if |rows| == 0 then 0 else val(rows[0]) + SumBy(rows[1..], val)
  }

  lemma {:induction false} SumByAppend<T>(a: seq<T>, b: seq<T>, val: T -> int)
    ensures SumBy(a + b, val) == SumBy(a, val) + SumBy(b, val)
  {
    if |a| == 0 {
      assert a + b == b;
    } else {
      assert (a + b)[1..] == a[1..] + b;
      SumByAppend(a[1..], b, val);
    }
  }

  /** Summing two metrics row by row and then over the rows is the sum of
      the two column totals. */
  lemma {:induction false} SumByAdd<T>(rows: seq<T>, f: T -> int, g: T -> int, h: T -> int)
    requires forall i :: 0 <= i < |rows| ==> h(rows[i]) == f(rows[i]) + g(rows[i])
    ensures SumBy(rows, h) == SumBy(rows, f) + SumBy(rows, g)
  {
    if |rows| > 0 {
      SumByAdd(rows[1..], f, g, h);
    }
  }
}

=== FILE: strings.dfy ===
/** The string operations of Python's `str` that the modelled code relies on:
    `str(int)`, `zfill`, `lower`, `strip`, `replace`, `join`, `startswith`,
    and the code-point order Python uses to compare and sort strings. */
module Strings {

  // ---------------------------------------------------------------------------
  // Decimal digits and integer rendering (`str(n)`)
  // ---------------------------------------------------------------------------

  predicate IsDigit(c: char) {
    '0' <= c <= '9'
  }

  predicate AllDigits(s: string) {
    forall i :: 0 <= i < |s| ==> IsDigit(s[i])
  }

  function DigitValue(c: char): nat
    requires IsDigit(c)
  {
    c as int - '0' as int
  }

  function DigitChar(d: nat): (c: char)
    requires d < 10
    ensures IsDigit(c) && DigitValue(c) == d
  {
    ('0' as int + d) as char
  }

  /** Decimal rendering of a natural number, without leading zeros. */
  function NatToString(n: nat): (s: string)
    ensures 1 <= |s| && AllDigits(s)
    ensures |s| > 1 ==> s[0] != '0'
    decreases n
  {
    if n < 10 then [DigitChar(n)] else NatToString(n / 10) + [DigitChar(n % 10)]
  }

  /** Python's `str(i)` for an integer. */
  function IntToString(i: int): (s: string)
    ensures 1 <= |s|
    ensures forall k :: 0 <= k < |s| ==> IsDigit(s[k]) || s[k] == '-'
  {
    if i < 0 then "-" + NatToString(-i) else NatToString(i)
  }

  /** The value of a string of decimal digits. */
  function ParseNat(s: string): nat
    requires AllDigits(s)
  {
    if |s| == 0 then 0 else 10 * ParseNat(s[..|s| - 1]) + DigitValue(s[|s| - 1])
  }

  /** The value of an optionally signed string of decimal digits. */
  function ParseInt(s: string): int
    requires |s| > 0 && (s[0] == '-' || IsDigit(s[0])) && AllDigits(s[1..])
  {
    if s[0] == '-' then -(ParseNat(s[1..]) as int) else ParseNat(s)
  }

  lemma {:induction false} ParseNatToString(n: nat)
    ensures ParseNat(NatToString(n)) == n
    decreases n
  {
    if n >= 10 {
      var s := NatToString(n);
      assert s[..|s| - 1] == NatToString(n / 10);
      ParseNatToString(n / 10);
    }
  }

  /** Rendering an integer and reading it back gives the integer. */
  lemma {:induction false} ParseIntToString(i: int)
    ensures var s := IntToString(i); |s| > 0 && (s[0] == '-' || IsDigit(s[0])) && AllDigits(s[1..])
    ensures ParseInt(IntToString(i)) == i
  {
    if i < 0 {
      assert IntToString(i)[1..] == NatToString(-i);
      ParseNatToString(-i);
    } else {
      ParseNatToString(i);
    }
  }

  /** Distinct integers have distinct renderings. */
  lemma {:induction false} IntToStringInjective(a: int, b: int)
    requires IntToString(a) == IntToString(b)
    ensures a == b
  {
    ParseIntToString(a);
    ParseIntToString(b);
  }

  function Pow10(w: nat): (p: nat)
    ensures p >= 1
  {
    if w == 0 then 1 else 10 * Pow10(w - 1)
  }

  /** The `w` lowest decimal digits of `n`, zero-padded on the left. */
  function Fixed(n: nat, w: nat): (s: string)
    ensures |s| == w && AllDigits(s)
  {
    if w == 0 then [] else Fixed(n / 10, w - 1) + [DigitChar(n % 10)]
  }

  /** A number with exactly `w` digits renders as its `w`-digit fixed form. */
  lemma {:induction false} NatToStringIsFixed(n: nat, w: nat)
    requires 1 <= w && Pow10(w - 1) <= n < Pow10(w)
    ensures NatToString(n) == Fixed(n, w)
    decreases w
  {
    if w == 1 {
      assert Fixed(n / 10, 0) == [];
    } else {
      assert Pow10(w - 1) == 10 * Pow10(w - 2);
      assert Pow10(w - 2) <= n / 10 < Pow10(w - 1);
      NatToStringIsFixed(n / 10, w - 1);
    }
  }

  // ---------------------------------------------------------------------------
  // Code-point (lexicographic) order, as Python compares strings
  // ---------------------------------------------------------------------------

  predicate LexLess(a: string, b: string)
  {
    if |a| == 0 then |b| > 0
    else |b| > 0 && (a[0] < b[0] || (a[0] == b[0] && LexLess(a[1..], b[1..])))
  }

  lemma {:induction false} LexIrreflexive(a: string)
    ensures !LexLess(a, a)
  {
    if |a| > 0 {
      LexIrreflexive(a[1..]);
    }
  }

  lemma {:induction false} LexTransitive(a: string, b: string, c: string)
    requires LexLess(a, b) && LexLess(b, c)
    ensures LexLess(a, c)
  {
    if |a| > 0 && |b| > 0 && |c| > 0 && a[0] == b[0] == c[0] {
      LexTransitive(a[1..], b[1..], c[1..]);
    }
  }

  lemma {:induction false} LexTotal(a: string, b: string)
    requires a != b
    ensures LexLess(a, b) || LexLess(b, a)
  {
    if |a| > 0 && |b| > 0 && a[0] == b[0] {
      assert a == [a[0]] + a[1..] && b == [b[0]] + b[1..];
      LexTotal(a[1..], b[1..]);
    }
  }

  /** Comparing two strings that share the length of their prefixes: the
      prefixes decide, and only when they are equal do the suffixes. */
  lemma {:induction false} LexLessAppend(a: string, b: string, c: string, d: string)
    requires |a| == |b|
    ensures LexLess(a + c, b + d) <==> LexLess(a, b) || (a == b && LexLess(c, d))
    decreases |a|
  {
    if |a| == 0 {
      assert a + c == c && b + d == d;
    } else {
      assert (a + c)[1..] == a[1..] + c && (b + d)[1..] == b[1..] + d;
      LexLessAppend(a[1..], b[1..], c, d);
      if a[0] == b[0] && a[1..] == b[1..] {
        assert a == [a[0]] + a[1..] && b == [b[0]] + b[1..];
      }
    }
  }

  /** Fixed-width digit strings compare exactly as the numbers they render. */
  lemma {:induction false} FixedOrder(x: nat, y: nat, w: nat)
    requires x < Pow10(w) && y < Pow10(w)
    ensures LexLess(Fixed(x, w), Fixed(y, w)) <==> x < y
    ensures Fixed(x, w) == Fixed(y, w) <==> x == y
    decreases w
  {
    if w == 0 {
    } else {
      var a, b := x / 10, y / 10;
      assert a < Pow10(w - 1) && b < Pow10(w - 1);
      FixedOrder(a, b, w - 1);
      var da, db := DigitChar(x % 10), DigitChar(y % 10);
      LexLessAppend(Fixed(a, w - 1), Fixed(b, w - 1), [da], [db]);
      assert LexLess([da], [db]) <==> x % 10 < y % 10 by {
        assert [da][1..] == [] && [db][1..] == [];
      }
      if Fixed(x, w) == Fixed(y, w) {
        assert Fixed(x, w)[..w - 1] == Fixed(a, w - 1);
        assert Fixed(y, w)[..w - 1] == Fixed(b, w - 1);
        assert Fixed(x, w)[w - 1] == da && Fixed(y, w)[w - 1] == db;
      }
    }
  }

  // ---------------------------------------------------------------------------
  // zfill, lower, strip
  // ---------------------------------------------------------------------------

  function Zeros(k: nat): (s: string)
    ensures |s| == k && forall i :: 0 <= i < k ==> s[i] == '0'
  {
    seq(k, _ => '0')
  }

  /** Python's `s.zfill(width)`: pad on the left with '0' to `width`,
      keeping a leading sign in front of the padding. */
  function ZFill(s: string, width: nat): (r: string)
    ensures |r| == if |s| >= width then |s| else width
    ensures |s| >= width ==> r == s
  {
    if |s| >= width then s
    else if |s| > 0 && (s[0] == '+' || s[0] == '-') then [s[0]] + Zeros(width - |s|) + s[1..]
    else Zeros(width - |s|) + s
  }

  /** zfill(2) of a number below 100 is its two-digit fixed form. */
  lemma {:induction false} ZFillTwo(n: nat)
    requires n < 100
    ensures ZFill(NatToString(n), 2) == Fixed(n, 2)
  {
    if n < 10 {
      assert Fixed(n, 2) == Fixed(0, 1) + [DigitChar(n)];
      assert Fixed(0, 1) == [] + ['0'];
    } else {
      NatToStringIsFixed(n, 2);
    }
  }

  function LowerChar(c: char): char
  {
    if 'A' <= c <= 'Z' then (c as int + 32) as char else c
  }

  function UpperChar(c: char): char
  {
    if 'a' <= c <= 'z' then (c as int - 32) as char else c
  }

  /** Python's `s.lower()` on ASCII letters; every other character is kept. */
  function Lower(s: string): (r: string)
    ensures |r| == |s|
  {
    seq(|s|, i requires 0 <= i < |s| => LowerChar(s[i]))
  }

  /** Python's `s.upper()` on ASCII letters. */
  function Upper(s: string): (r: string)
    ensures |r| == |s|
  {
    seq(|s|, i requires 0 <= i < |s| => UpperChar(s[i]))
  }

  /** Lower-casing forgets any upper-casing done before it. */
  lemma {:induction false} LowerUpper(s: string)
    ensures Lower(Upper(s)) == Lower(s)
  {
  }

  /** Python's `str.isspace` for one character: the whitespace `strip()` removes. */
  predicate IsSpace(c: char)
  {
    var n := c as int;
    n == 0x20 || 0x09 <= n <= 0x0D || 0x1C <= n <= 0x1F || n == 0x85 || n == 0xA0
    || n == 0x1680 || 0x2000 <= n <= 0x200A || n == 0x2028 || n == 0x2029
    || n == 0x202F || n == 0x205F || n == 0x3000
  }

  predicate AllSpace(s: string) {
    forall i :: 0 <= i < |s| ==> IsSpace(s[i])
  }

  function TrimStart(s: string): (r: string)
    ensures |r| <= |s|
  {
    if |s| > 0 && IsSpace(s[0]) then TrimStart(s[1..]) else s
  }

  function TrimEnd(s: string): (r: string)
    ensures |r| <= |s|
  {
    if |s| > 0 && IsSpace(s[|s| - 1]) then TrimEnd(s[..|s| - 1]) else s
  }

  /** Python's `s.strip()` with no argument. */
  function Strip(s: string): string
  {
    TrimEnd(TrimStart(s))
  }

  lemma {:induction false} TrimStartSpaces(w: string, x: string)
    requires AllSpace(w)
    ensures TrimStart(w + x) == TrimStart(x)
    decreases |w|
  {
    if |w| > 0 {
      assert (w + x)[1..] == w[1..] + x;
      TrimStartSpaces(w[1..], x);
    } else {
      assert w + x == x;
    }
  }

  lemma {:induction false} TrimEndSpaces(x: string, w: string)
    requires AllSpace(w)
    ensures TrimEnd(x + w) == TrimEnd(x)
    decreases |w|
  {
    if |w| > 0 {
      assert (x + w)[..|x + w| - 1] == x + w[..|w| - 1];
      TrimEndSpaces(x, w[..|w| - 1]);
    } else {
      assert x + w == x;
    }
  }

  /** Trimming the front does not disturb trailing whitespace that follows
      a non-blank part. */
  lemma {:induction false} TrimStartAppend(x: string, w: string)
    requires AllSpace(w)
    ensures TrimStart(x + w) == TrimStart(x) + w || (AllSpace(x) && TrimStart(x + w) == [] && TrimStart(x) == [])
    decreases |x|
  {
    if |x| == 0 {
      assert x + w == w;
      TrimStartSpaces(w, []);
      assert w + [] == w;
    } else if IsSpace(x[0]) {
      assert (x + w)[1..] == x[1..] + w;
      TrimStartAppend(x[1..], w);
    }
  }

  /** `strip()` ignores whitespace surrounding its argument. */
  lemma {:induction false} StripSurrounding(w1: string, x: string, w2: string)
    requires AllSpace(w1) && AllSpace(w2)
    ensures Strip(w1 + x + w2) == Strip(x)
  {
    assert w1 + x + w2 == w1 + (x + w2);
    TrimStartSpaces(w1, x + w2);
    TrimStartAppend(x, w2);
    if TrimStart(x + w2) == TrimStart(x) + w2 {
      TrimEndSpaces(TrimStart(x), w2);
    }
  }

  // ---------------------------------------------------------------------------
  // replace, join, startswith
  // ---------------------------------------------------------------------------

  /** Python's `s.replace(pat, rep)` for a non-empty pattern: occurrences
      are found left to right and do not overlap. */
  function Replace(s: string, pat: string, rep: string): string
    requires |pat| > 0
    decreases |s|
  {
    if |s| < |pat| then s
    else if s[..|pat|] == pat then rep + Replace(s[|pat|..], pat, rep)
    else [s[0]] + Replace(s[1..], pat, rep)
  }

  predicate OccursAt(s: string, pat: string, i: int)
  {
    0 <= i && i + |pat| <= |s| && s[i..i + |pat|] == pat
  }

  predicate Occurs(s: string, pat: string)
  {
    exists i | 0 <= i <= |s| :: OccursAt(s, pat, i)
  }

  /** Replacing a pattern that does not occur changes nothing. */
  lemma {:induction false} ReplaceAbsent(s: string, pat: string, rep: string)
    requires |pat| > 0 && !Occurs(s, pat)
    ensures Replace(s, pat, rep) == s
    decreases |s|
  {
    if |s| >= |pat| {
      assert !OccursAt(s, pat, 0);
      if Occurs(s[1..], pat) {
        var i :| 0 <= i <= |s[1..]| && OccursAt(s[1..], pat, i);
        assert 0 <= i && i + |pat| <= |s[1..]| && s[1..][i..i + |pat|] == pat;
        assert s[i + 1..i + 1 + |pat|] == s[1..][i..i + |pat|];
        assert OccursAt(s, pat, i + 1);
      }
      ReplaceAbsent(s[1..], pat, rep);
    }
  }

  /** Replacing a single character by a single character maps it in place. */
  lemma {:induction false} ReplaceChar(s: string, c: char, d: char)
    ensures |Replace(s, [c], [d])| == |s|
    ensures forall i :: 0 <= i < |s| ==> Replace(s, [c], [d])[i] == (if s[i] == c then d else s[i])
    decreases |s|
  {
    if |s| > 0 {
      ReplaceChar(s[1..], c, d);
      assert s[..1] == [s[0]];
    }
  }

  function Join(xs: seq<string>, sep: string): string
  {
    if |xs| == 0 then ""
    else if |xs| == 1 then xs[0]
    else xs[0] + sep + Join(xs[1..], sep)
  }

  predicate StartsWith(s: string, prefix: string)
  {
    |prefix| <= |s| && s[..|prefix|] == prefix
  }

  predicate Contains(s: string, c: char)
  {
    exists i :: 0 <= i < |s| && s[i] == c
  }
}

=== FILE: tables.dfy ===
/** The slice of a pandas DataFrame the period utilities touch: named
    columns, rows mapping every column name to a cell, copy-on-write column
    assignment, and the text `astype(str)` gives a cell. */
module Tables {
  import opened Results
  import opened Strings

  /** A calendar date; dates are ordered lexicographically by (year, month, day). */
  datatype Date = Date(year: int, month: int, day: int)

  predicate DateBefore(a: Date, b: Date)
  {
    a.year < b.year
    || (a.year == b.year && (a.month < b.month || (a.month == b.month && a.day < b.day)))
  }

  predicate IsLeapYear(y: int)
  {
    (y % 4 == 0 && y % 100 != 0) || y % 400 == 0
  }

  function DaysInMonth(y: int, m: int): (n: int)
    requires 1 <= m <= 12
    ensures 28 <= n <= 31
  {
    if m == 2 then (if IsLeapYear(y) then 29 else 28)
    else if m == 4 || m == 6 || m == 9 || m == 11 then 30
    else 31
  }

  /** The (year, month, day) triples the date parser accepts. */
  predicate ValidDate(y: int, m: int, d: int)
  {
    1 <= m <= 12 && 1 <= d <= DaysInMonth(y, m)
  }

  /** One table cell: a missing value (NaN), an integer, a string or a timestamp. */
  datatype Cell = Null | Int(i: int) | Str(s: string) | When(date: Date)

  type Row = map<string, Cell>

  datatype Table = Table(columns: seq<string>, rows: seq<Row>)

  /** Column names are distinct and every row has a cell in exactly the named columns. */
  predicate WellFormed(t: Table)
  {
    && (forall i, j :: 0 <= i < j < |t.columns| ==> t.columns[i] != t.columns[j])
    && (forall i :: 0 <= i < |t.rows| ==> t.rows[i].Keys == set c | c in t.columns)
  }

  /** `df[name]`: the column's cells in row order, or a missing-column error. */
  function Column(t: Table, name: string): (r: Result<seq<Cell>>)
    requires WellFormed(t)
    ensures r.Ok? <==> name in t.columns
    ensures r.Err? ==> r.error == MissingColumn(name)
    ensures r.Ok? ==> |r.value| == |t.rows|
    ensures r.Ok? ==> forall i :: 0 <= i < |t.rows| ==> name in t.rows[i] && r.value[i] == t.rows[i][name]
  {
    if name in t.columns then
      Ok(seq(|t.rows|, i requires 0 <= i < |t.rows| => t.rows[i][name]))
    else
      Err(MissingColumn(name))
  }

  /** `df[name] = values` on a copy: an existing column is overwritten in
      place, a new one is appended after the others. */
  function AddColumn(t: Table, name: string, values: seq<Cell>): (r: Table)
    requires WellFormed(t) && |values| == |t.rows|
    ensures WellFormed(r)
    ensures r.columns == if name in t.columns then t.columns else t.columns + [name]
    ensures |r.rows| == |t.rows|
    ensures forall i :: 0 <= i < |t.rows| ==> r.rows[i] == t.rows[i][name := values[i]]
  {
    var columns := if name in t.columns then t.columns else t.columns + [name];
    var rows := seq(|t.rows|, i requires 0 <= i < |t.rows| => t.rows[i][name := values[i]]);
    assert forall i :: 0 <= i < |rows| ==> rows[i].Keys == set c | c in columns;
    Table(columns, rows)
  }

  /** Assigning a column the cells it already holds leaves the table as it was. */
  lemma {:induction false} AddColumnSame(t: Table, name: string, values: seq<Cell>)
    requires WellFormed(t) && |values| == |t.rows| && name in t.columns
    requires forall i :: 0 <= i < |t.rows| ==> t.rows[i][name] == values[i]
    ensures AddColumn(t, name, values) == t
  {
    var r := AddColumn(t, name, values);
    forall i | 0 <= i < |t.rows|
      ensures r.rows[i] == t.rows[i]
    {
      assert r.rows[i].Keys == t.rows[i].Keys;
    }
  }

  /** Assigning one column leaves every other column's cells as they were. */
  lemma {:induction false} ColumnAfterAdd(t: Table, name: string, values: seq<Cell>, other: string)
    requires WellFormed(t) && |values| == |t.rows| && other != name
    ensures Column(AddColumn(t, name, values), other) == Column(t, other)
  {
    var r := AddColumn(t, name, values);
    if other in t.columns {
      assert other in r.columns;
      assert forall i :: 0 <= i < |t.rows| ==> r.rows[i][other] == t.rows[i][other];
      assert Column(r, other).value == Column(t, other).value;
    }
  }

  /** pandas' rendering of a timestamp at midnight. */
  function DateText(d: Date): string
  {
    ZFill(IntToString(d.year), 4) + "-" + ZFill(IntToString(d.month), 2) + "-"
    + ZFill(IntToString(d.day), 2) + " 00:00:00"
  }

  /** `astype(str)` of one cell. */
  function CellText(c: Cell): string
  {
    match c
    case Null => "nan"
    case Int(i) => IntToString(i)
    case Str(s) => s
    case When(d) => DateText(d)
  }
}

=== FILE: template_manager.dfy ===
/** The pure parts of the report templating: the file names and display
    names the index page links to, and the `number_format` filter that is
    registered with the template environment. */
module TemplateManager {
  import opened Strings
  import opened Seqs
  import opened Tables
  import opened Permits

  // ---------------------------------------------------------------------------
  // Index page
  // ---------------------------------------------------------------------------

  /** The file the index links a province or region to: spaces, then
      slashes, replaced by underscores, followed by "_rapport.html". */
  function IndexFileName(name: string): (f: string)
    ensures |f| == |name| + 13 && f[|name|..] == "_rapport.html"
    ensures forall i :: 0 <= i < |name| ==> f[i] == SafeChar(name[i])
  {
    SafeReplace(name);
    Replace(Replace(name, " ", "_"), "/", "_") + "_rapport.html"
  }

  /** The index links every region to the file its report is saved under,
      and the link has neither spaces nor slashes. */
  lemma {:induction false} IndexLinksToReport(name: string)
    ensures IndexFileName(name) == ReportFileName(name)
    ensures !Contains(IndexFileName(name), ' ') && !Contains(IndexFileName(name), '/')
  {
    var f, g := IndexFileName(name), ReportFileName(name);
    assert |f| == |g|;
    forall i | 0 <= i < |f| ensures f[i] == g[i] {
      if i >= |name| {
        assert f[i] == f[|name|..][i - |name|] && g[i] == g[|name|..][i - |name|];
      }
    }
  }

  /** A province's name as the index shows it: every "PROVINCIE " removed. */
  function DisplayName(name: string): string
  {
    Replace(name, "PROVINCIE ", "")
  }

  /** A province named "PROVINCIE " + rest is shown as rest, provided rest
      does not itself contain "PROVINCIE "; a name without that word is
      shown unchanged. */
  lemma {:induction false} DisplayNameStrips(rest: string)
    requires !Occurs(rest, "PROVINCIE ")
    ensures DisplayName("PROVINCIE " + rest) == rest
    ensures DisplayName(rest) == rest
  {
    var s := "PROVINCIE " + rest;
    assert s[..10] == "PROVINCIE " && s[10..] == rest;
    ReplaceAbsent(rest, "PROVINCIE ", "");
  }

  lemma {:induction false} DisplayNameExample()
    ensures DisplayName("PROVINCIE ANTWERPEN") == "ANTWERPEN"
  {
    var rest := "ANTWERPEN";
    assert "PROVINCIE ANTWERPEN" == "PROVINCIE " + rest;
    assert !Occurs(rest, "PROVINCIE ") by {
      forall i | 0 <= i <= |rest| ensures !OccursAt(rest, "PROVINCIE ", i) {
      }
    }
    DisplayNameStrips(rest);
  }

  /** One link of the index page. */
  datatype IndexEntry = IndexEntry(fileName: string, displayName: string)

  /** `e` is the index link of province `name`: its report file and its
      name without "PROVINCIE ". */
  predicate ProvinceLink(e: IndexEntry, name: string)
  {
    e.fileName == ReportFileName(name) && e.displayName == DisplayName(name)
  }

  /** `e` is the index link of region `name`: its report file and its full
      name. */
  predicate RegionLink(e: IndexEntry, name: string)
  {
    e.fileName == ReportFileName(name) && e.displayName == name
  }

  /** The link lists of the index page, built one entry per name in the
      order given. */
  method IndexEntries(provinces: seq<string>, regions: seq<string>)
      returns (provincesData: seq<IndexEntry>, regionsData: seq<IndexEntry>)
    ensures |provincesData| == |provinces| && |regionsData| == |regions|
    ensures forall i :: 0 <= i < |provinces| ==> ProvinceLink(provincesData[i], provinces[i])
    ensures forall i :: 0 <= i < |regions| ==> RegionLink(regionsData[i], regions[i])
  {
    provincesData := [];
    for k := 0 to |provinces|
      invariant |provincesData| == k
      invariant forall i :: 0 <= i < k ==> ProvinceLink(provincesData[i], provinces[i])
    {
      var province := provinces[k];
      IndexLinksToReport(province);
      var e := IndexEntry(IndexFileName(province), DisplayName(province));
      assert ProvinceLink(e, province);
      provincesData := provincesData + [e];
    }
    regionsData := [];
    for k := 0 to |regions|
      invariant |regionsData| == k
      invariant forall i :: 0 <= i < k ==> RegionLink(regionsData[i], regions[i])
    {
      var region := regions[k];
      IndexLinksToReport(region);
      var e := IndexEntry(IndexFileName(region), region);
      assert RegionLink(e, region);
      regionsData := regionsData + [e];
    }
  }

  // ---------------------------------------------------------------------------
  // number_format
  // ---------------------------------------------------------------------------

  /** The digits of a number with a comma before every group of three,
      counted from the right. */
  function GroupDigits(d: string): (r: string)
    requires AllDigits(d)
    decreases |d|
  {
    if |d| <= 3 then d else GroupDigits(d[..|d| - 3]) + "," + d[|d| - 3..]
  }

  /** Digits in groups of three counted from the right: a comma exactly at
      the positions whose distance from the end is a multiple of four, a
      digit everywhere else. */
  predicate Grouped(g: string)
  {
    forall j :: 0 <= j < |g| ==> (g[j] == ',' <==> (|g| - j) % 4 == 0) && (g[j] != ',' ==> IsDigit(g[j]))
  }

  /** The comma positions: for a non-empty digit string the result has one
      comma per full group of three beyond the first digit, all in grouped
      positions, and it starts with a digit. */
  lemma {:induction false} GroupDigitsShape(d: string)
    requires AllDigits(d) && |d| > 0
    ensures var r := GroupDigits(d);
            && |r| == |d| + (|d| - 1) / 3
            && Grouped(r)
            && IsDigit(r[0])
    decreases |d|
  {
    if |d| > 3 {
      var h := d[..|d| - 3];
      var t := d[|d| - 3..];
      GroupDigitsShape(h);
      GroupedAppend(GroupDigits(h), t);
      assert GroupDigits(d) == GroupDigits(h) + "," + t;
    }
  }

  /** One more group of three digits keeps the grouping. */
  lemma {:induction false} GroupedAppend(g: string, t: string)
    requires Grouped(g) && AllDigits(t) && |t| == 3
    ensures Grouped(g + "," + t)
  {
    var r := g + "," + t;
    forall j | 0 <= j < |r|
      ensures (r[j] == ',' <==> (|r| - j) % 4 == 0) && (r[j] != ',' ==> IsDigit(r[j]))
    {
      if j < |g| {
        assert r[j] == g[j];
        assert (|r| - j) % 4 == (|g| - j) % 4;
      } else if j > |g| {
        assert r[j] == t[j - |g| - 1];
      }
    }
  }

  function NotComma(c: char): bool { c != ',' }

  /** The text with its thousands separators taken out. */
  function RemoveCommas(s: string): (r: string)
    ensures forall i :: 0 <= i < |r| ==> r[i] != ','
  {
    Keep(s, NotComma)
  }

  /** Taking the separators out again gives back the digits. */
  lemma {:induction false} GroupDigitsRoundTrip(d: string)
    requires AllDigits(d)
    ensures RemoveCommas(GroupDigits(d)) == d
    decreases |d|
  {
    if |d| <= 3 {
      KeepAll(d, NotComma);
    } else {
      var h := d[..|d| - 3];
      var t := d[|d| - 3..];
      var g := GroupDigits(h);
      GroupDigitsRoundTrip(h);
      assert GroupDigits(d) == (g + ",") + t;
      DropSeparator(g, t);
      assert h + t == d;
    }
  }

  /** The separator between two groups disappears, the digits stay. */
  lemma {:induction false} DropSeparator(g: string, t: string)
    requires AllDigits(t)
    ensures RemoveCommas((g + ",") + t) == RemoveCommas(g) + t
  {
    KeepAppend(g + ",", t, NotComma);
    DropTrailingComma(g);
    KeepAll(t, NotComma);
  }

  lemma {:induction false} DropTrailingComma(g: string)
    ensures RemoveCommas(g + ",") == RemoveCommas(g)
  {
    KeepAppend(g, ",", NotComma);
    assert Keep(",", NotComma) == [] by {
      assert ","[1..] == [];
    }
  }

  /** `f"{value:,.0f}"` for an integer value: the sign, then the digits
      grouped in threes. */
  function FormatThousands(i: int): string
  {
    if i < 0 then "-" + GroupDigits(NatToString(-i)) else GroupDigits(NatToString(i))
  }

  /** Reading a formatted number back, separators ignored, gives the number. */
  lemma {:induction false} FormatThousandsRoundTrip(i: int)
    ensures RemoveCommas(FormatThousands(i)) == IntToString(i)
    ensures ParseInt(RemoveCommas(FormatThousands(i))) == i
  {
    ParseIntToString(i);
    if i < 0 {
      var g := GroupDigits(NatToString(-i));
      GroupDigitsRoundTrip(NatToString(-i));
      KeepAppend("-", g, NotComma);
      assert Keep("-", NotComma) == "-";
    } else {
      GroupDigitsRoundTrip(NatToString(i));
    }
  }

  lemma {:induction false} SmallNumerals()
    ensures NatToString(1) == "1" && NatToString(9) == "9"
    ensures NatToString(10) == "10" && NatToString(99) == "99" && NatToString(100) == "100"
  {
  }

  lemma {:induction false} NumeralOneThousand()
    ensures NatToString(1000) == "1000"
  {
    SmallNumerals();
    assert NatToString(1000) == NatToString(100) + "0";
  }

  lemma {:induction false} FormatOneThousand()
    ensures FormatThousands(-1000) == "-1,000"
  {
    NumeralOneThousand();
    assert "1000"[..1] == "1" && "1000"[1..] == "000";
  }

  lemma {:induction false} FormatThreeDigits()
    ensures FormatThousands(999) == "999"
  {
    SmallNumerals();
    assert NatToString(999) == NatToString(99) + "9";
  }

  /** The `number_format` filter: integers formatted with thousands
      separators and no decimals, anything that is not a number returned as
      it is. */
  function NumberFormat(v: Cell): (r: Cell)
    ensures v.Int? ==> r.Str? && RemoveCommas(r.s) == IntToString(v.i)
    ensures v.Int? ==> |r.s| > 0 && (r.s[0] == '-' <==> v.i < 0)
    ensures v.Int? ==> var g := if v.i < 0 then r.s[1..] else r.s;
                       |g| > 0 && IsDigit(g[0]) && Grouped(g)
    ensures !v.Int? ==> r == v
  {
    match v
    case Int(i) =>
      FormatThousandsRoundTrip(i);
      FormatCharacters(i);
      Str(FormatThousands(i))
    case _ => v
  }

  /** A formatted number is a minus sign exactly for a negative number,
      followed by the digits grouped in threes, the first of them a digit. */
  lemma {:induction false} FormatCharacters(i: int)
    ensures var f := FormatThousands(i);
            && |f| > 0 && (f[0] == '-' <==> i < 0)
            && var g := if i < 0 then f[1..] else f;
               |g| > 0 && IsDigit(g[0]) && Grouped(g)
  {
    var n: nat := if i < 0 then -i else i;
    GroupDigitsShape(NatToString(n));
    var g := GroupDigits(NatToString(n));
    if i < 0 {
      assert FormatThousands(i)[1..] == g;
    }
  }
}
